=== FILE: README.md ===
# Mastery Hub admin console — a Dafny model

Mastery Hub is the administration console of a board-exam preparation system.
Admins, faculty and students sign in. Each of them sees the sidebar entries that
their role's permissions allow. Through those pages they manage the following:

- **Curriculum.** Core subjects, each with a recursive tree of topics and
  sub-topics.
- **Content and assessments.** Learning content items and assessments
  (pre-tests, post-tests and per-topic quizzes).
- **Review workflow.** Faculty submit their work. An admin approves it or sends
  it back for revision, and every reviewer note goes into the item's history.
- **People and access.** Users, the institutional whitelist of students allowed
  to register, and the role/permission matrix.
- **Logs and backups.** The activity log, and a backup that can be exported or
  imported.

Every page keeps its data as JSON text under fixed browser-storage keys.

The model follows the program page by page, one Dafny module per page:

- **Handlers that compute a new list.** These are functions. Each takes the
  parsed lists and returns what the handler writes, or the message it shows
  instead. Handlers that log something also return a `LogService.LogRequest`.
- **Handlers that update component state.** The subject editors, the
  assessment editor, the role matrix and the browser storage used by the backup
  import are classes. Their methods update fields in place.
- **The loops.** The credential search in sign-in, the dashboard's
  `countTopics` counter, `findTopic` and `flattenTopics` are methods with loops.
  Each is proved against a reference function.

The recursive topic tree has one reference definition: `TopicTree.Nodes`, the
pre-order listing of every node at every depth. Lookup, update, approval,
counting and flattening are all related to it.

Shared modules:

- `Common`: text and list helpers, paging, and load-or-seed.
- `Types`: the entities.
- `TopicTree`: the recursive topic tree.
- `Workflow`: the review decision and the note append.
- `LogService`: the activity log.
- `Permissions`: the catalog and role-configuration lookups.
- `Curriculum`: the seed subjects and the two subject-list pages, whose code is
  identical.

## Model

| member | source | states |
|---|---|---|
| TopicTree.FindTopic | src/pages/SubjectEdit.tsx:72-81 | The sibling loop with its recursive descent returns the first node carrying the id in the pre-order listing of the whole tree, or nothing when no node at any depth has it |
| TopicTree.AllApprovedIff | src/pages/SubjectView.tsx:61-67 | `areAllTopicsApproved` (the predicate TopicTree.AllApproved) holds exactly when every node at every depth has status APPROVED |
| TopicTree.Approve | src/pages/SubjectView.tsx:80-88 | Pruning for approval never lengthens the top level; every remaining top-level topic is APPROVED and carries a child list |
| TopicTree.ApproveKeepsLiveNodes | src/pages/SubjectView.tsx:80-88 | Approval keeps exactly the nodes with no REMOVAL_PENDING node on their path, in pre-order, with their ids, titles and descriptions; all of them are APPROVED and the tree never grows |
| TopicTree.LiveNodesSubsequence | src/pages/SubjectView.tsx:80-88 | The nodes that survive approval are drawn from the tree in their original order |
| TopicTree.ApproveIdempotent | src/pages/SubjectView.tsx:80-88 | Approving an approved tree changes nothing, and the result of approval passes `areAllTopicsApproved` |
| TopicTree.Apply | src/pages/SubjectEdit.tsx:83-89 | Merging a partial update keeps the topic id; the title, description, status and child list each take the update's value when it carries one and keep the topic's otherwise |
| TopicTree.UpdateNode | src/pages/SubjectEdit.tsx:83-89 | `updateNodeInTree` keeps the number of top-level topics and every top-level id |
| TopicTree.UpdateMissing | src/pages/SubjectEdit.tsx:83-89 | Updating an id no node carries leaves the tree unchanged |
| TopicTree.UpdateThenFind | src/pages/SubjectEdit.tsx:83-89 | Looking up the updated id afterwards finds the node found before, with the update applied |
| TopicTree.UpdateKeepsShape | src/pages/SubjectEdit.tsx:83-89 | An update that leaves child lists alone keeps every node in its pre-order position; only nodes with the target id may change, and only by the update |
| TopicTree.AddChildInsertsOne | src/pages/SubjectEdit.tsx:133-153 | Giving a parent whose id occurs once one more leaf child adds exactly that node to the tree; every other node is kept |
| Workflow.ReviewStatus | src/pages/ContentView.tsx:65-78 | APPROVE yields APPROVED and REVISION yields REVISION_REQUESTED, and nothing else yields either |
| Workflow.AppendNote | src/pages/ContentView.tsx:65-78 | A non-empty note adds one entry, the reviewer's, at the end of the history and keeps the earlier notes; an empty note leaves the history alone |
| LogService.Entry | src/services/logService.ts:11-17 | The entry names the signed-in user and reads "action: entityName" |
| LogService.GetLogs | src/services/logService.ts:23-25 | The stored log, or an empty one when nothing is stored |
| LogService.Record | src/services/logService.ts:4-21 | With nobody signed in the log is untouched; otherwise the new entry comes first, the earlier entries follow in order, and at most 200 are kept |
| LogService.RecordTwice | src/services/logService.ts:19 | Two entries logged in a row appear newest first ahead of the old log, and entries drop only at the old end |
| SubjectView.Reviewed | src/pages/SubjectView.tsx:91-106 | APPROVE publishes the pruned tree with the subject APPROVED; REVISION keeps the tree and sets REVISION_REQUESTED; a note is appended only when written; no other field changes |
| SubjectView.AdminReview | src/pages/SubjectView.tsx:69-114 | Nothing is written without a loaded subject; otherwise every stored subject with that id is replaced by the reviewed one and the others are kept in place |
| SubjectView.FullyApprovedMeansEveryNode | src/pages/SubjectView.tsx:144-148 | A subject is fully approved (the predicate SubjectView.IsFullyApproved) exactly when it is APPROVED and so is every node of its tree |
| SubjectView.ReviewOutcome | src/pages/SubjectView.tsx:235-245 | After APPROVE the subject is fully approved and the review buttons (the predicate SubjectView.ReviewOffered) disappear; after REVISION they remain |
| SubjectView.ApproveTwice | src/pages/SubjectView.tsx:80-106 | Approving an approved subject again without a note changes nothing |
| SubjectEdit.NewModule | src/pages/SubjectEdit.tsx:118-131 | A new module is an "Untitled Module" with id "t-" plus the stamp, a DRAFT with an empty child list |
| SubjectEdit.NewSubTopic | src/pages/SubjectEdit.tsx:133-153 | A new sub-topic is a "New Sub-Topic" with id "t-" plus the stamp, a DRAFT with an empty child list |
| SubjectEdit.SubjectEditor.constructor | src/pages/SubjectEdit.tsx:59-70 | The editor opens on the subject the route names, or on a blank form, with the metadata panel selected |
| SubjectEdit.SubjectEditor.AddModule | src/pages/SubjectEdit.tsx:118-131 | One new module is appended at the top level and selected |
| SubjectEdit.SubjectEditor.AddSubTopic | src/pages/SubjectEdit.tsx:133-153 | The parent found by `findTopic` gets its children followed by one new DRAFT child, which is selected |
| SubjectEdit.SubjectEditor.UpdateTopic | src/pages/SubjectEdit.tsx:155-159 | With no topic selected nothing changes; otherwise only the selected topic is updated |
| SubjectEdit.SubjectEditor.RequestDelete | src/pages/SubjectEdit.tsx:161-163 | The topic is remembered for the confirmation dialog and nothing else changes |
| SubjectEdit.SubjectEditor.ConfirmDeleteTopic | src/pages/SubjectEdit.tsx:165-176 | The topic is only marked REMOVAL_PENDING and stays in the tree; the metadata panel replaces it as selection; the pending marker is cleared |
| SubjectEdit.SubjectEditor.RestoreTopic | src/pages/SubjectEdit.tsx:178-182 | The topic is set back to DRAFT and nothing else changes |
| SubjectEdit.AddModuleAppendsOne | src/pages/SubjectEdit.tsx:118-131 | Adding a module adds exactly one node at the end of the pre-order listing |
| SubjectEdit.AddSubTopicInsertsOne | src/pages/SubjectEdit.tsx:133-153 | Under an unknown parent id the tree is unchanged. Under an id that occurs once, exactly one node is added and all others are kept, and the parent is then found with the new child last |
| SubjectEdit.StatusChangeOnly | src/pages/SubjectEdit.tsx:165-182 | Marking for removal or restoring keeps every node in place and changes nothing but the status of nodes with that id |
| SubjectEdit.SaveAll | src/pages/SubjectEdit.tsx:184-217 | An unnamed subject is rejected. Otherwise the saved subject is the form with only its id (kept, or "s-" plus the stamp), status and last-updated date changed. Editing sends it to PENDING and replaces the route's entries; creating makes it DRAFT and appends it. The matching log line is returned |
| AssessmentEdit.ValidateConstraints | src/pages/AssessmentEdit.tsx:88-132 | A pre- or post-test conflicts exactly when another stored assessment of that type exists for the subject, by name or id. A quiz conflicts exactly when another stored quiz exists for the same subject and topic. Each conflict has its own message |
| AssessmentEdit.EditedNeverConflicts | src/pages/AssessmentEdit.tsx:99 | The assessment being edited is excluded, so it never conflicts with itself |
| AssessmentEdit.HandleSave | src/pages/AssessmentEdit.tsx:181-224 | The guards run in order: title, subject, quiz topic, then the uniqueness check. The saved assessment is the form with only the status, the item count (its number of questions), the id and creation date (kept, or assigned), and the last-updated date changed. It then replaces the route's entries or is appended |
| AssessmentEdit.ApplyQuestion | src/pages/AssessmentEdit.tsx:154-159 | A question update never changes the question id; the text, options, correct answer and points each take the update's value when it carries one and keep the question's otherwise |
| AssessmentEdit.UpdateQuestions | src/pages/AssessmentEdit.tsx:154-159 | Only the questions with that id are updated, and the others stay in place |
| AssessmentEdit.AssessmentEditor.constructor | src/pages/AssessmentEdit.tsx:62-81 | The editor opens on the stored assessment, or a blank one by the signed-in user, with the settings panel selected |
| AssessmentEdit.NewQuestion | src/pages/AssessmentEdit.tsx:138-145 | A new question has id "q-" plus the stamp, empty text, four empty options, one point, and a correct answer that indexes one of its options |
| AssessmentEdit.AssessmentEditor.AddQuestion | src/pages/AssessmentEdit.tsx:138-152 | One new question is appended and selected, and the item count equals the number of questions |
| AssessmentEdit.AssessmentEditor.UpdateQuestion | src/pages/AssessmentEdit.tsx:154-159 | Only the questions with that id change |
| AssessmentEdit.AssessmentEditor.RequestRemove | src/pages/AssessmentEdit.tsx:161-163 | The question is remembered for the confirmation dialog |
| AssessmentEdit.AssessmentEditor.ConfirmRemoveQuestion | src/pages/AssessmentEdit.tsx:165-179 | The questions with that id are removed and the item count drops by one. The settings panel replaces a removed selection, and the marker is cleared |
| AssessmentEdit.RemainingItems | src/pages/AssessmentEdit.tsx:170 | The item count after a removal is one less, never below zero |
| AssessmentEdit.RemoveUniqueQuestion | src/pages/AssessmentEdit.tsx:165-179 | Removing a question whose id occurs once leaves one question fewer, in order, and the stored count equals the questions left |
| AssessmentEdit.FlattenTopics | src/pages/AssessmentEdit.tsx:234-243 | The loop lists every topic at every depth as id and title, in pre-order |
| AssessmentEdit.FindSubject | src/pages/AssessmentEdit.tsx:232 | The subject found is the first stored one whose name or id is the form's subject; none is found exactly when no subject matches |
| AssessmentEdit.AvailableTopics | src/pages/AssessmentEdit.tsx:231-246 | The topic picker offers the flattened tree of the chosen subject, or nothing |
| AssessmentView.Reviewed | src/pages/AssessmentView.tsx:55-65 | The status follows the decision, the note is appended when written, and no other field changes |
| AssessmentView.AdminReview | src/pages/AssessmentView.tsx:45-73 | Nothing is written without a loaded assessment; otherwise the entries with its id are replaced by the reviewed one |
| Assessments.Filtered | src/pages/Assessments.tsx:80-84 | Exactly the assessments matching the search and the type filter, each as many times as it is stored, in their order |
| Assessments.TotalPages | src/pages/Assessments.tsx:86 | At least one page, enough pages for every match, and no empty trailing page |
| Assessments.Paginated | src/pages/Assessments.tsx:87 | Page `page` of the filtered list: the matches from position (page-1) times the page size on, at most a page size of them |
| Common.FirstWhere | src/pages/Assessments.tsx:67 | `Array.prototype.find`: the element found passes the test and no earlier one does; none is found exactly when no element passes |
| Assessments.ConfirmDelete | src/pages/Assessments.tsx:65-78 | Without a pending id nothing is written. Otherwise exactly the assessments with that id leave, every other one stays as often as it was stored and in order, and a deletion is logged only when one existed, under the title of the first with that id |
| Assessments.RowRoute | src/pages/Assessments.tsx:162 | Admins open the review page and everyone else opens the editor, for the same id |
| ContentEdit.HandleAction | src/pages/ContentEdit.tsx:85-121 | An untitled item is rejected. A draft save keeps the submission count; a submission makes the item PENDING and counts one more. The author, dates, id and editor text are set, and the route's entries are replaced or the item is appended |
| ContentEdit.SaveThenSubmit | src/pages/ContentEdit.tsx:85-121 | Saving a draft and then submitting it leaves the item PENDING with one more submission, the same id and the same creation date |
| ContentManagement.RowAction | src/pages/ContentManagement.tsx:83-93 | A row opens the editor exactly when a non-admin owns the item; otherwise it opens the review page |
| ContentManagement.Search | src/pages/ContentManagement.tsx:95-98 | Exactly the items whose title or author matches, each as many times as it is stored, in their order |
| ContentManagement.TotalPages | src/pages/ContentManagement.tsx:100 | At least one page, enough pages for every match, and no empty trailing page |
| ContentManagement.Paginated | src/pages/ContentManagement.tsx:101 | Page `page` of the search result: the matches from position (page-1) times the page size on, at most a page size of them |
| ContentManagement.StatsScope | src/pages/ContentManagement.tsx:103-111 | An admin counts every item; anyone else counts exactly their own items, each as many times as it is stored, in order |
| ContentManagement.ComputeStats | src/pages/ContentManagement.tsx:103-111 | The cards count the scope and its APPROVED, PENDING and REVISION_REQUESTED items, which together never exceed the total |
| ContentManagement.ConfirmDelete | src/pages/ContentManagement.tsx:68-81 | Without a pending id nothing is written. Otherwise exactly the items with that id leave, every other one stays as often as it was stored and in order, and a deletion is logged only when one existed, under the title of the first with that id |
| ContentView.Reviewed | src/pages/ContentView.tsx:65-78 | The status follows the decision, a revision request adds one to the revision count, the note is appended when written, and nothing else changes |
| ContentView.AdminReview | src/pages/ContentView.tsx:56-86 | Nothing is written without a loaded item; otherwise the entries with its id are replaced by the reviewed item |
| Curriculum.Purged | src/pages/SubjectManagement.tsx:56-62 | Exactly the subjects with the id leave; the rest stay as often as they were stored and keep their order |
| Curriculum.PurgeAbsentAndTwice | src/pages/SubjectManagement.tsx:56-62 | Deleting an id no subject has changes nothing, and deleting twice is deleting once |
| Curriculum.SubjectRoute | src/pages/SubjectManagement.tsx:64-70 | Faculty open the subject editor and every other role opens the subject view |
| Curriculum.SubjectHub.constructor | src/pages/SubjectManagement.tsx:37-45 | The stored list is shown; when none is stored the four initial core subjects are shown and written, so storage and screen agree |
| Curriculum.SubjectHub.RequestDelete | src/pages/SubjectManagement.tsx:118 | The subject is remembered for the confirmation dialog |
| Curriculum.SubjectHub.ConfirmDeleteSubject | src/pages/SubjectManagement.tsx:56-62 | Without a pending id nothing changes; otherwise the subjects with that id are removed on screen and in storage alike, and the marker is cleared. PsychologyCore.tsx has the same handler |
| Dashboard.UnitCounter.constructor | src/pages/Dashboard.tsx:35 | The unit counter starts at zero |
| Dashboard.UnitCounter.CountTopics | src/pages/Dashboard.tsx:36-41 | The recursive walk raises the counter by the number of nodes in the forest, at every depth |
| Dashboard.CountUnits | src/pages/Dashboard.tsx:35-42 | The unit count is the number of topic nodes over all subjects |
| Dashboard.Load | src/pages/Dashboard.tsx:23-56 | The cards show the students, the PENDING materials (never more than all materials), the subjects and every topic node, plus the two fixed figures. The recent activity is the newest five log entries, or all of them when there are fewer |
| EditUser.TargetPath | src/pages/EditUser.tsx:63 | Admins return to the user list and everyone else to the dashboard |
| EditUser.Updated | src/pages/EditUser.tsx:51 | A blank new password keeps the old one; otherwise it replaces it |
| EditUser.HandleSave | src/pages/EditUser.tsx:44-66 | Nothing is written before the profile and the user list are loaded. Otherwise the users with that id are replaced and the rest kept, the session is rewritten exactly on a self-edit, and the page returns to the role's target |
| EditUser.GoBackMatchesSave | src/pages/EditUser.tsx:68-71 | Going back leads where saving leads |
| Layout.ResolvePermissions | src/components/Layout.tsx:34-60 | A stored configuration for the role, compared in upper case, gives its permissions, and with none matching the permissions stay as they were. With nothing stored, admins get every catalog action and faculty and students get their fixed lists |
| Layout.UnmatchedRoleHasNothing | src/components/Layout.tsx:38-41 | On first load, a role no stored configuration names gets no permissions |
| Layout.FilteredNavItems | src/components/Layout.tsx:62-64 | The sidebar shows exactly the entries whose permission the role has, in menu order |
| Layout.StudentMenu | src/components/Layout.tsx:57 | The student fallback shows only Dashboard and Analytics |
| Layout.FacultyMenu | src/components/Layout.tsx:48-54 | The faculty fallback also shows only Dashboard and Analytics, because its permission names match no other entry |
| Layout.OnlyDashboardAndAnalytics | src/constants.tsx:21-29 | Any permission set holding the dashboard and analytics permissions and none of the other five entries' permissions shows exactly those two entries |
| Layout.IsItemActive | src/components/Layout.tsx:71-78 | The dashboard entry is active on the dashboard path and the root; any other entry is active when the normalised path starts with its path |
| Layout.RootHighlightsDashboardOnly | src/components/Layout.tsx:71-78 | On the root path exactly one entry, the dashboard, is highlighted |
| Permissions.AllActions | src/components/Layout.tsx:46 | Every action of every catalog module, and nothing else |
| Permissions.FindConfig | src/components/Layout.tsx:38 | The configuration found satisfies the test; none is found only when none does |
| Permissions.UpperAndLowerLookupsAgree | src/pages/Settings.tsx:88 | The settings page's lower-case lookup finds the same configuration as the sidebar's upper-case one |
| Login.SeedUsers | src/pages/Login.tsx:31-36 | The default accounts are written exactly when no user list is stored |
| Login.FindIndex | src/pages/Login.tsx:48 | The loop returns the first user whose e-mail matches up to case and whose password matches, or -1 exactly when there is none |
| Login.HandleSubmit | src/pages/Login.tsx:42-77 | Credentials are invalid exactly when no user matches. An inactive first match is refused and nothing is written. Otherwise only that user gets the login time, in place, and is signed in |
| Login.DefaultAdminMatches | src/pages/Login.tsx:16-19 | The seeded admin signs in with its e-mail in any case and its listed password |
| PsychologyCoreEdit.NewTopic | src/pages/PsychologyCoreEdit.tsx:118-130 | A new topic has id "t-" plus the stamp, title "New Topic" and no description |
| PsychologyCoreEdit.WithoutTopic | src/pages/PsychologyCoreEdit.tsx:139-150 | Exactly the topics with the id leave; the rest stay as often as they were stored and keep their order |
| PsychologyCoreEdit.Retitled | src/pages/PsychologyCoreEdit.tsx:132-137 | Only the topics with the selected id get the title |
| PsychologyCoreEdit.CoreSubjectEditor.constructor | src/pages/PsychologyCoreEdit.tsx:47-61 | The editor opens on the subject found, or a blank one, with the general panel selected |
| PsychologyCoreEdit.CoreSubjectEditor.AddTopic | src/pages/PsychologyCoreEdit.tsx:118-130 | One new topic is appended and selected |
| PsychologyCoreEdit.CoreSubjectEditor.UpdateTopicTitle | src/pages/PsychologyCoreEdit.tsx:132-137 | The selected topic is retitled and nothing else changes |
| PsychologyCoreEdit.CoreSubjectEditor.RequestDelete | src/pages/PsychologyCoreEdit.tsx:220 | The topic is remembered for the confirmation dialog |
| PsychologyCoreEdit.CoreSubjectEditor.ConfirmDeleteTopic | src/pages/PsychologyCoreEdit.tsx:139-150 | Without a pending id nothing changes. Otherwise the topic leaves the list, the general panel is selected only when the deleted topic was the selected one (any other selection stays), and the marker is cleared |
| PsychologyCoreEdit.RetitleKeepsRest | src/pages/PsychologyCoreEdit.tsx:132-137 | Retitling changes titles only, and retitling twice is retitling once |
| PsychologyCoreEdit.AddThenDeleteRestores | src/pages/PsychologyCoreEdit.tsx:118-150 | Deleting a topic just added under a fresh id gives back the topics as they were |
| PsychologyCoreEdit.WithEditorContent | src/pages/PsychologyCoreEdit.tsx:84-89 | With a topic selected and editor content present, only that topic's description takes the content; nothing else in the form changes |
| PsychologyCoreEdit.Redescribed | src/pages/PsychologyCoreEdit.tsx:84-89 | Only the topics with the id get the description |
| PsychologyCoreEdit.HandleSave | src/pages/PsychologyCoreEdit.tsx:77-116 | An unnamed subject is rejected. An edit replaces the route's entries and logs an update; a creation appends under "s-" plus the stamp and logs a creation |
| RoleAccess.InitialRoles | src/pages/RoleAccess.tsx:25-50 | Three system roles: Admin with every catalog action, Faculty with its defaults, and Student with dashboard and analytics |
| RoleAccess.FacultyDefaultsExtendFallback | src/pages/RoleAccess.tsx:31-40 | Faculty's defaults are eleven distinct permissions: the sidebar's Faculty fallback plus editing assessments and viewing student analytics |
| RoleAccess.Toggled | src/pages/RoleAccess.tsx:80-90 | A held permission is removed entirely and a missing one is appended; every other permission stays as often as it was held and in order |
| RoleAccess.ToggleTwice | src/pages/RoleAccess.tsx:80-90 | Toggling the same permission twice gives back the same set of permissions |
| RoleAccess.EnableModule | src/pages/RoleAccess.tsx:96-99 | Turning a module on keeps the role's permissions first and adds after them exactly the module's actions the role lacks, in module order and as often as the module lists them, without creating duplicates |
| RoleAccess.DisableModule | src/pages/RoleAccess.tsx:100-103 | Turning a module off removes exactly its actions; every other permission stays as often as it was held and in order |
| RoleAccess.EnableIdempotent | src/pages/RoleAccess.tsx:96-99 | Turning a module on twice is turning it on once |
| RoleAccess.DisableIdempotent | src/pages/RoleAccess.tsx:100-103 | Turning a module off twice is turning it off once |
| RoleAccess.RoleName | src/pages/RoleAccess.tsx:125-151 | A name is accepted exactly when it is not blank after trimming, and the trimmed name is used |
| RoleAccess.RoleMatrix.constructor | src/pages/RoleAccess.tsx:53-74 | The page opens on the stored roles, or the three initial ones, with the first role selected |
| RoleAccess.RoleMatrix.TogglePermission | src/pages/RoleAccess.tsx:80-90 | Only the selected role changes, and only in the toggled permission |
| RoleAccess.RoleMatrix.ToggleModulePermissions | src/pages/RoleAccess.tsx:92-107 | Only the selected role changes, by turning the module on or off |
| RoleAccess.RoleMatrix.AddRole | src/pages/RoleAccess.tsx:125-138 | A blank name changes nothing; otherwise a custom role with no permissions is appended and selected |
| RoleAccess.RoleMatrix.RenameRole | src/pages/RoleAccess.tsx:140-151 | A blank name changes nothing; otherwise only the selected role's name changes |
| RoleAccess.RoleMatrix.RequestDelete | src/pages/RoleAccess.tsx:233 | The role's index is remembered for the confirmation dialog |
| RoleAccess.RoleMatrix.DeleteRole | src/pages/RoleAccess.tsx:153-169 | The role at the index is removed, and the selection follows the selected role or falls back to the first |
| RoleAccess.RemoveAt | src/pages/RoleAccess.tsx:153-169 | Every role except the one at the index, in order |
| RoleAccess.SelectionAfterDelete | src/pages/RoleAccess.tsx:153-169 | Deleting the selected role selects the first; deleting an earlier role shifts the selection down by one |
| RoleAccess.DeleteKeepsSelectedRole | src/pages/RoleAccess.tsx:153-169 | Deleting another role leaves the same role selected |
| SecurityLogs.Search | src/pages/SecurityLogs.tsx:43-46 | Exactly the entries whose user or action matches, each as many times as it is stored, in order; an empty term keeps them all |
| SecurityLogs.EmptyTermMatchesAll | src/pages/SecurityLogs.tsx:43-46 | An empty search keeps every entry |
| SecurityLogs.TotalPages | src/pages/SecurityLogs.tsx:48 | Exactly enough pages for every match, and none when nothing matches |
| SecurityLogs.Paginated | src/pages/SecurityLogs.tsx:49-52 | Page `page` of the search result: the matches from position (page-1) times the page size on, at most a page size of them |
| Settings.LoadPermissions | src/pages/Settings.tsx:83-97 | A stored configuration, compared in lower case, gives its permissions. With nothing stored admins get the admin fallback and other roles keep what they had |
| Settings.RefreshUser | src/pages/Settings.tsx:105-111 | With a stored list holding the session user's id, the session becomes the first stored record with that id; otherwise it stays as it is |
| Settings.SavePreferences | src/pages/Settings.tsx:118-134 | With a stored list, the users with the edited id are replaced and the session is rewritten; the update is logged |
| Settings.MissingKeys | src/pages/Settings.tsx:204-209 | Exactly the required fields the backup lacks, in the required order; Settings.MissingMessage joins them with Settings.Join into the rejection text |
| Settings.AfterSave | src/pages/Settings.tsx:215-219 | An absent or null field writes nothing; text is stored verbatim and other values as JSON |
| Settings.Restored | src/pages/Settings.tsx:222-227 | A restore changes no key outside the restored pairs |
| Settings.RestoredKey | src/pages/Settings.tsx:222-227 | A restored key holds what its own field leaves when no later pair writes it |
| Settings.FirstByEmail | src/pages/Settings.tsx:242 | The user found is the first with exactly that e-mail; none is found exactly when nobody has it |
| Settings.BrowserStorage.ExportData | src/pages/Settings.tsx:149-182 | Export is refused without `manage_backup`; otherwise the backup holds the six stored entries in key order, where a missing or empty entry is exported as nothing |
| Settings.BrowserStorage.SaveToStorage | src/pages/Settings.tsx:215-219 | Storage changes as `AfterSave` says |
| Settings.BrowserStorage.SaveGlobal | src/pages/Settings.tsx:136-147 | Without `system_settings` nothing happens; otherwise the settings are stored and the change is logged |
| Settings.BrowserStorage.ImportData | src/pages/Settings.tsx:184-260 | Import is refused without `manage_backup`, and a backup missing required fields is rejected naming them; neither writes anything. Otherwise the six fields are restored, the session is rebound to the imported user with its e-mail, and the restore is logged |
| Settings.RestoreKeysDistinct | src/pages/Settings.tsx:222-227 | Each restored key is written by exactly one backup field, in export order |
| Settings.RestoreWritesText | src/pages/Settings.tsx:222-227 | Every key whose field holds text ends up holding that text |
| Settings.RestoreLeavesOthers | src/pages/Settings.tsx:222-227 | A restore leaves every key outside the backup, such as the session and the logs, untouched |
| Users.Toggled | src/pages/Users.tsx:102-109 | ACTIVE becomes INACTIVE and every other status becomes ACTIVE |
| Users.ToggleUserStatus | src/pages/Users.tsx:97-112 | Only users with the id change, and only in status |
| Users.ToggleTwice | src/pages/Users.tsx:97-112 | Toggling twice restores ACTIVE and INACTIVE users; a user awaiting activation ends INACTIVE |
| Users.DeleteUser | src/pages/Users.tsx:114-129 | Without a marked user nothing is written. Otherwise exactly the users with that id leave, every other one stays as often as it was stored and in order, and the deletion is logged with the name |
| Users.ChangePassword | src/pages/Users.tsx:131-150 | Nothing is written without a selected user or with an empty password; otherwise only that user's password changes |
| Users.SetPassword | src/pages/Users.tsx:139-144 | Only users with the id get the password |
| Users.AddUser | src/pages/Users.tsx:152-196 | The shared required fields come first, then each role's own, each failure with its message. A new user is appended ACTIVE with no login yet; admins carry no student number or department |
| Users.Search | src/pages/Users.tsx:198-201 | Exactly the users whose name or e-mail matches, each as many times as it is stored, in order |
| Users.TotalPages | src/pages/Users.tsx:204 | Enough pages for every match and not one more, so no empty trailing page; none when nothing matches |
| Users.Paginated | src/pages/Users.tsx:205-208 | Page `page` of the search result: the matches from position (page-1) times the page size on, at most a page size of them |
| Whitelist.Load | src/pages/Whitelist.tsx:78-86 | The stored whitelist, or the initial one, which is then written |
| Whitelist.Cell | src/pages/Whitelist.tsx:168-170 | A mapped cell that is present and not empty is taken; otherwise the fallback is used |
| Whitelist.EntryFromRow | src/pages/Whitelist.tsx:166-173 | An imported row becomes a PENDING entry dated today, from its mapped cells or the fallbacks |
| Whitelist.EntriesFromRows | src/pages/Whitelist.tsx:166-173 | One entry per row, in file order |
| Whitelist.FinalUpload | src/pages/Whitelist.tsx:156-186 | Refused until all three fields are mapped. Otherwise the current entries stay first, unchanged, followed in file order by exactly the imported entries whose student number no current entry has |
| Whitelist.FileDuplicatesKept | src/pages/Whitelist.tsx:175-177 | Two rows repeating a new student number are both imported, because only existing entries are compared |
| Whitelist.ConfirmDelete | src/pages/Whitelist.tsx:101-112 | Without a pending id nothing changes; otherwise exactly the entries with that id leave, and every other one stays as often as it was stored and in order |
| Whitelist.SaveEntry | src/pages/Whitelist.tsx:188-202 | Without an entry being edited nothing changes; otherwise the entries with its id are replaced and the rest kept |
| Whitelist.AddManual | src/pages/Whitelist.tsx:204-223 | One PENDING entry with the fixed name and e-mail, dated today, is appended after the current entries; its id is the decimal of the clock value, and its student number is "2024" followed by the decimal of the random draw, so one to four digits |
| Whitelist.Search | src/pages/Whitelist.tsx:225-229 | Exactly the entries matching by name, number or e-mail, each as many times as it is stored, in order; an empty term keeps them all |
| Whitelist.EmptyTermMatchesAll | src/pages/Whitelist.tsx:225-229 | An empty search keeps every entry |
| Whitelist.TotalPages | src/pages/Whitelist.tsx:231 | Enough pages for every match and not one more, so no empty trailing page; none when nothing matches |
| Whitelist.Paginated | src/pages/Whitelist.tsx:232-235 | Page `page` of the search result: the matches from position (page-1) times the page size on, at most a page size of them |

## Left out

- Browser storage, JSON text, `FileReader`, XLSX parsing and Blob downloads are not modelled. Stored lists are `Option<seq<…>>` values, already parsed; the one exception is the backup import, whose storage is a `map<string, string>`. A stored value that fails to parse is not modelled.
- The clock (`Date.now()`, ISO dates, `toLocaleString`) and `Math.random()` are parameters.
- `setTimeout` delays, toasts, modal flags and loading spinners are not modelled.
- Navigation is not modelled, except the return target of EditUser.HandleSave (EditUser.TargetPath) and the row routes of the list pages (Assessments.RowRoute, ContentManagement.RowAction, Curriculum.SubjectRoute). Some handlers redirect and return no target in the model: the saves in SubjectEdit.SaveAll, AssessmentEdit.HandleSave, ContentEdit.HandleAction and PsychologyCoreEdit.HandleSave, and the reviews in AssessmentView.AdminReview and ContentView.AdminReview. PsychologyCoreEdit's redirect when the route's subject is missing is also left out.
- The rich-text editor's HTML is an `Option<string>` parameter.
- `PERMISSION_MODULES` is imported from `src/constants.tsx` but is not part of this model; the catalog is a parameter.
- `LogService.LogRequest`: the entity id that `logActivity` takes is not stored in the entry, so it is not carried.
- Theme switching, CSS writes and the `switchFormat` preferences in Settings are left out. They touch only the page's appearance.
- Permissions.UpperAndLowerLookupsAgree: holds for the model's ASCII case folding only. JavaScript's `toUpperCase` and `toLowerCase` disagree on some non-ASCII letters (the long s `ſ` upper-cases to `S`, the dotless `ı` to `I`), so on such role names the sidebar's and the settings page's lookups can pick different configurations.
- Case folding covers ASCII letters only, and trimming covers ASCII white space, no-break space and the byte-order mark. JavaScript's full Unicode rules are not modelled.
- The analytics pages (`Analytics.tsx`, `StudentAnalytics.tsx`) show fixed sample data and are left out.
- Whitelist file processing (`processFile`, `handleFileDrop`) and header parsing are left out. The upload starts from already parsed rows.
- RoleAccess.RoleMatrix.AddRole, RoleAccess.RoleMatrix.RenameRole and RoleAccess.RoleMatrix.DeleteRole: the source also writes the new role list to `role_configs` at once (RoleAccess.tsx:132, 147 and 158). The matrix holds no storage, so those writes are not recorded.
- Settings.BrowserStorage.ImportData: a `users` or `global_settings` field that is a string but not valid JSON makes `JSON.parse` throw after the six writes. The source then neither rebinds the session nor logs the restore. The model has no parse step, so it takes the string to parse and logs in that case.
- RoleAccess.RoleMatrix.TogglePermission: requires a non-empty role list. With no roles the source would read a field of an undefined role and throw.
- RoleAccess.RoleMatrix.ToggleModulePermissions: requires a non-empty role list, for the same reason.
- RoleAccess.RoleMatrix.RenameRole: requires a non-empty role list, for the same reason.
- Dashboard: the statistics come from parsed lists, with an absent list read as empty; the figures for active exams and average readiness are the page's constants.

=== FILE: assessment_edit.dfy ===
/** The assessment editor: the uniqueness rules (one pre- and one
    post-assessment per subject, one quiz per topic), the question list kept in
    the form, the save guards, and the topic picker's flattened topic list. */
module AssessmentEdit {
  import opened Common
  import opened Types
  import opened TopicTree

  /** The assessment of this id takes part in a conflict: every stored one except
      the one being edited (the route id; none when creating). */
  predicate IsOther(a: Assessment, routeId: Option<string>) {
    routeId != Some(a.id)
  }

  /** `a` is for the chosen subject, by stored name or by stored id. */
  predicate SameSubject(a: Assessment, subject: string) {
    a.subject == subject || a.subjectId == subject
  }

  /** `a` takes the pre/post slot of this type for the subject. */
  predicate SlotTaken(a: Assessment, routeId: Option<string>, kind: AssessmentType, subject: string) {
    IsOther(a, routeId) && a.kind == kind && SameSubject(a, subject)
  }

  /** `a` is a quiz for the same subject and topic. */
  predicate QuizTaken(a: Assessment, routeId: Option<string>, subject: string, topicId: string) {
    IsOther(a, routeId) && a.kind == Quiz && SameSubject(a, subject) && a.topicId == topicId
  }

  function PrePostMessage(kind: AssessmentType): string {
    if kind == PreAssessment then "A Pre-Assessment already exists for this subject."
    else "A Post-Assessment already exists for this subject."
  }

  const QUIZ_MESSAGE: string := "A Quiz already exists for this specific topic."

  /** `validateConstraints`: the error shown for the form's type, subject and
      topic against the stored assessments, or none. */
  function ValidateConstraints(existing: seq<Assessment>, routeId: Option<string>, kind: Option<AssessmentType>,
                               subject: string, topicId: string): (r: Option<string>)
    ensures kind.None? || subject == [] ==> r == None
    ensures kind.Some? && kind.value != Quiz && subject != [] ==>
              (r.Some? <==> exists k :: 0 <= k < |existing| && SlotTaken(existing[k], routeId, kind.value, subject))
    ensures kind.Some? && kind.value != Quiz && r.Some? ==> r.value == PrePostMessage(kind.value)
    ensures kind == Some(Quiz) && topicId == [] ==> r == None
    ensures kind == Some(Quiz) && subject != [] && topicId != [] ==>
              (r.Some? <==> exists k :: 0 <= k < |existing| && QuizTaken(existing[k], routeId, subject, topicId))
    ensures kind == Some(Quiz) && r.Some? ==> r.value == QUIZ_MESSAGE
  {
    if kind.None? || subject == [] then None
    else
      if kind.value != Quiz then
        if Any(existing, (a: Assessment) => SlotTaken(a, routeId, kind.value, subject))
        then Some(PrePostMessage(kind.value)) else None
      else if topicId == [] then None
      else if Any(existing, (a: Assessment) => QuizTaken(a, routeId, subject, topicId)) then Some(QUIZ_MESSAGE)
      else None
  }

  /** The assessment being edited never conflicts with itself: the verdict is the
      same whether or not the stored list contains it. */
  lemma {:induction false} EditedNeverConflicts(existing: seq<Assessment>, self: Assessment, kind: Option<AssessmentType>,
                                                subject: string, topicId: string)
    ensures ValidateConstraints(existing + [self], Some(self.id), kind, subject, topicId)
         == ValidateConstraints(existing, Some(self.id), kind, subject, topicId)
  {
    var all := existing + [self];
    if kind.Some? && subject != [] {
      forall k | 0 <= k < |all| && IsOther(all[k], Some(self.id))
        ensures k < |existing| && all[k] == existing[k]
      {
      }
    }
  }

  // ---------------------------------------------------------------------------
  // Save

  datatype SaveOutcome = Rejected(message: string) | Saved(assessments: seq<Assessment>, assessment: Assessment)

  /** `handleSave(status)`: the guards in order (title, subject, a quiz's topic,
      the uniqueness rule); a saved assessment keeps its id (a new one gets
      `'as-' + stamp`), takes the requested status, counts its questions as
      `items`, keeps its creation date (a new one is created `now`), and replaces
      the entries with the route id or is appended. */
  function HandleSave(form: Assessment, routeId: Option<string>, stored: Option<seq<Assessment>>,
                      status: ContentStatus, stamp: string, now: string): (r: SaveOutcome)
    ensures form.title == [] ==> r == Rejected("Title is required.")
    ensures form.title != [] && form.subject == [] ==> r == Rejected("Please select a Subject.")
    ensures form.title != [] && form.subject != [] && form.kind == Quiz && form.topicId == [] ==>
              r == Rejected("Please select a Topic for the Quiz.")
    ensures r.Saved? <==>
              form.title != [] && form.subject != [] && !(form.kind == Quiz && form.topicId == [])
              && ValidateConstraints(stored.GetOr([]), routeId, Some(form.kind), form.subject, form.topicId).None?
    ensures r.Saved? ==>
              r.assessment == form.(id := if form.id != [] then form.id else "as-" + stamp,
                                    status := status,
                                    items := |form.questions|,
                                    dateCreated := if form.dateCreated != [] then form.dateCreated else now,
                                    lastUpdated := now)
    ensures r.Saved? && routeId.Some? ==>
              |r.assessments| == |stored.GetOr([])|
              && forall k :: 0 <= k < |r.assessments| ==>
                   r.assessments[k] == if stored.GetOr([])[k].id == routeId.value then r.assessment else stored.GetOr([])[k]
    ensures r.Saved? && routeId.None? ==> r.assessments == stored.GetOr([]) + [r.assessment]
  {
    var existing := stored.GetOr([]);
    if form.title == [] then Rejected("Title is required.")
    else if form.subject == [] then Rejected("Please select a Subject.")
    else if form.kind == Quiz && form.topicId == [] then Rejected("Please select a Topic for the Quiz.")
    else match ValidateConstraints(existing, routeId, Some(form.kind), form.subject, form.topicId)
      case Some(err) => Rejected("Validation Error: " + err)
      case None =>
        var a := form.(id := if form.id != [] then form.id else "as-" + stamp,
                       status := status,
                       items := |form.questions|,
                       lastUpdated := now,
                       dateCreated := if form.dateCreated != [] then form.dateCreated else now);
        var list := if routeId.Some? then ReplaceWhere(existing, (i: Assessment) => i.id == routeId.value, a)
                    else existing + [a];
        Saved(list, a)
  }

  // ---------------------------------------------------------------------------
  // Questions

  /** The fields an `updateQuestion` call may set. */
  datatype QuestionPatch = QuestionPatch(
    text: Option<string>,
    options: Option<seq<string>>,
    correctAnswer: Option<int>,
    points: Option<int>)

  /** `{ ...q, ...updates }`: a field the patch sets takes the patch's value,
      every other field (the id always) keeps the question's. */
  function ApplyQuestion(q: Question, p: QuestionPatch): (r: Question)
    ensures r.id == q.id
    ensures r.text == if p.text.Some? then p.text.value else q.text
    ensures r.options == if p.options.Some? then p.options.value else q.options
    ensures r.correctAnswer == if p.correctAnswer.Some? then p.correctAnswer.value else q.correctAnswer
    ensures r.points == if p.points.Some? then p.points.value else q.points
  {
    Question(q.id, p.text.GetOr(q.text), p.options.GetOr(q.options), p.correctAnswer.GetOr(q.correctAnswer), p.points.GetOr(q.points))
  }

  /** `addQuestion`'s new question: empty text, four empty options, the first
      option correct, one point. */
  function NewQuestion(stamp: string): (q: Question)
    ensures q.id == "q-" + stamp && q.text == [] && q.points == 1
    ensures |q.options| == 4 && forall k :: 0 <= k < 4 ==> q.options[k] == []
    ensures 0 <= q.correctAnswer < |q.options|
  {
    Question("q-" + stamp, "", ["", "", "", ""], 0, 1)
  }

  /** The selection value meaning "assessment settings" rather than a question. */
  const SETTINGS: string := "settings"

  /** The form a new assessment starts from, authored by the signed-in user. */
  function BlankAssessment(author: User): Assessment {
    Assessment("", "", Quiz, "", "", "", 0, 30, Draft, author.id, author.name, [], "", "", [])
  }

  function UpdateQuestions(qs: seq<Question>, qId: string, p: QuestionPatch): (r: seq<Question>)
    ensures |r| == |qs|
    ensures forall k :: 0 <= k < |qs| ==> r[k] == if qs[k].id == qId then ApplyQuestion(qs[k], p) else qs[k]
  {
    if qs == [] then []
    else [if qs[0].id == qId then ApplyQuestion(qs[0], p) else qs[0]] + UpdateQuestions(qs[1..], qId, p)
  }

  class AssessmentEditor {
    var assessment: Assessment
    /** A question id, or `SETTINGS`. */
    var selected: string
    /** The question awaiting delete confirmation; empty for none. */
    var questionToDelete: string

    /** The editor opens on the stored assessment the route names, if found, else
        on a blank quiz authored by the signed-in user. */
    constructor (found: Option<Assessment>, author: User)
      ensures assessment == found.GetOr(BlankAssessment(author))
      ensures selected == SETTINGS && questionToDelete == ""
    {
      assessment := found.GetOr(BlankAssessment(author));
      selected := SETTINGS;
      questionToDelete := "";
    }

    /** `addQuestion`: one new question at the end, `items` set to the old
        question count plus one, the new question selected. */
    method AddQuestion(stamp: string)
      modifies this
      ensures assessment == old(assessment).(questions := old(assessment.questions) + [NewQuestion(stamp)],
                                             items := |old(assessment.questions)| + 1)
      ensures assessment.items == |assessment.questions|
      ensures selected == "q-" + stamp && questionToDelete == old(questionToDelete)
    {
      var q := NewQuestion(stamp);
      assessment := assessment.(questions := assessment.questions + [q], items := |assessment.questions| + 1);
      selected := q.id;
    }

    /** `updateQuestion`: only questions with that id are merged with the
        update. */
    method UpdateQuestion(qId: string, p: QuestionPatch)
      modifies this
      ensures assessment == old(assessment).(questions := UpdateQuestions(old(assessment.questions), qId, p))
      ensures selected == old(selected) && questionToDelete == old(questionToDelete)
    {
      assessment := assessment.(questions := UpdateQuestions(assessment.questions, qId, p));
    }

    /** `removeQuestion`: remember the question for the confirmation dialog. */
    method RequestRemove(qId: string)
      modifies this
      ensures questionToDelete == qId
      ensures assessment == old(assessment) && selected == old(selected)
    {
      questionToDelete := qId;
    }

    /** `confirmRemoveQuestion`: the questions with that id are filtered out and
        `items` becomes the old question count less one (zero for an empty list);
        if the removed question was selected the settings panel is selected. */
    method ConfirmRemoveQuestion()
      modifies this
      ensures old(questionToDelete) == "" ==> assessment == old(assessment) && selected == old(selected)
      ensures old(questionToDelete) != "" ==>
                assessment == old(assessment).(
                  questions := Filter(old(assessment.questions), (q: Question) => q.id != old(questionToDelete)),
                  items := RemainingItems(|old(assessment.questions)|))
      ensures old(questionToDelete) != "" ==>
                selected == if old(selected) == old(questionToDelete) then SETTINGS else old(selected)
      ensures questionToDelete == ""
    {
      if questionToDelete == "" {
        return;
      }
      var gone := questionToDelete;
      assessment := assessment.(questions := Filter(assessment.questions, (q: Question) => q.id != gone),
                                items := RemainingItems(|assessment.questions|));
      if selected == gone {
        selected := SETTINGS;
      }
      questionToDelete := "";
    }
  }

  /** `(questions?.length || 1) - 1` */
  function RemainingItems(count: nat): (n: nat)
    ensures count > 0 ==> n == count - 1
    ensures count == 0 ==> n == 0
  {
    (if count == 0 then 1 else count) - 1
  }

  /** Removing a question whose id occurs exactly once removes that question and
      no other, in order, and `items` again equals the question count. */
  lemma RemoveUniqueQuestion(qs: seq<Question>, qId: string)
    requires |Filter(qs, (q: Question) => q.id == qId)| == 1
    ensures var rest := Filter(qs, (q: Question) => q.id != qId);
            |rest| == |qs| - 1 && RemainingItems(|qs|) == |rest| && IsSubsequence(rest, qs)
            && forall q :: q in rest <==> q in qs && q.id != qId
  {
    var gone := (q: Question) => q.id == qId;
    var keep := (q: Question) => q.id != qId;
    FilterSplits(qs, keep, gone);
    FilterMembers(qs, keep);
  }

  /** Every element passes exactly one of two complementary tests. */
  lemma {:induction false} FilterSplits<T(!new)>(xs: seq<T>, keep: T -> bool, drop: T -> bool)
    requires forall x :: keep(x) <==> !drop(x)
    ensures |Filter(xs, keep)| + |Filter(xs, drop)| == |xs|
  {
    if xs != [] {
      FilterSplits(xs[1..], keep, drop);
    }
  }

  // ---------------------------------------------------------------------------
  // Topic picker

  datatype TopicRef = TopicRef(id: string, title: string)

  function Refs(ns: seq<Topic>): (r: seq<TopicRef>)
    ensures |r| == |ns|
    ensures forall k :: 0 <= k < |ns| ==> r[k] == TopicRef(ns[k].id, ns[k].title)
  {
    if ns == [] then [] else [TopicRef(ns[0].id, ns[0].title)] + Refs(ns[1..])
  }

  lemma RefsAppend(a: seq<Topic>, b: seq<Topic>)
    ensures Refs(a + b) == Refs(a) + Refs(b)
  {
    assert forall k :: 0 <= k < |a + b| ==> Refs(a + b)[k] == (Refs(a) + Refs(b))[k];
  }

  lemma RefsStep(before: seq<Topic>, node: Topic, below: seq<Topic>)
    ensures Refs(before + ([node] + below)) == Refs(before) + ([TopicRef(node.id, node.title)] + Refs(below))
  {
    RefsAppend(before, [node] + below);
    RefsAppend([node], below);
  }

  /** `flattenTopics`: every topic at every depth, as id and title, in pre-order. */
  method FlattenTopics(nodes: seq<Topic>) returns (result: seq<TopicRef>)
    ensures result == Refs(Nodes(nodes))
    decreases nodes
  {
    result := [];
    var i := 0;
    while i < |nodes|
      invariant 0 <= i <= |nodes|
      invariant result == Refs(Nodes(nodes[..i]))
    {
      var node := nodes[i];
      var sub := [];
      match node.subTopics {
        case Present(ns) => sub := FlattenTopics(ns);
        case Absent =>
      }
      NodesPrefixStep(nodes, i);
      RefsStep(Nodes(nodes[..i]), node, Nodes(Kids(node)));
      result := result + ([TopicRef(node.id, node.title)] + sub);
      i := i + 1;
    }
    assert nodes[..i] == nodes;
  }

  /** The subject the form points at: the first whose name or id is the key
      (`subjects.find`). */
  function FindSubject(subjects: seq<Subject>, key: string): (r: Option<Subject>)
    ensures r.Some? ==> exists k :: 0 <= k < |subjects| && subjects[k] == r.value
                                    && (r.value.name == key || r.value.id == key)
                                    && forall j :: 0 <= j < k ==> subjects[j].name != key && subjects[j].id != key
    ensures r.None? <==> forall k :: 0 <= k < |subjects| ==> subjects[k].name != key && subjects[k].id != key
  {
    FirstWhere(subjects, (s: Subject) => s.name == key || s.id == key)
  }

  /** `availableTopics`: the flattened topics of the chosen subject, or none. */
  method AvailableTopics(subjects: seq<Subject>, key: string) returns (r: seq<TopicRef>)
    ensures FindSubject(subjects, key).None? ==> r == []
    ensures FindSubject(subjects, key).Some? ==> r == Refs(Nodes(FindSubject(subjects, key).value.topics))
  {
    match FindSubject(subjects, key) {
      case None => r := [];
      case Some(s) => r := FlattenTopics(s.topics);
    }
  }
}

=== FILE: assessment_view.dfy ===
/** The admin review of an assessment (publish, or send back for revision). */
module AssessmentView {
  import opened Common
  import opened Types
  import opened Workflow

  /** The reviewed assessment: the status follows the decision, the note is
      appended when written, and questions, type, subject and every other field are
      carried over. */
  function Reviewed(a: Assessment, action: ReviewAction, adminNote: string, reviewer: User, stamp: Stamp): (r: Assessment)
    ensures r.status == ReviewStatus(action)
    ensures r.revisionNotes == AppendNote(a.revisionNotes, adminNote, reviewer, stamp)
    ensures r == a.(status := r.status, revisionNotes := r.revisionNotes)
  {
    a.(status := ReviewStatus(action), revisionNotes := AppendNote(a.revisionNotes, adminNote, reviewer, stamp))
  }

  /** `handleAdminReview`: without a loaded assessment nothing is written;
      otherwise only the entries with its id are replaced in the stored list. */
  function AdminReview(a: Option<Assessment>, stored: Option<seq<Assessment>>, action: ReviewAction,
                       adminNote: string, reviewer: User, stamp: Stamp): (r: Option<seq<Assessment>>)
    ensures r.None? <==> a.None?
    ensures r.Some? ==> |r.value| == |stored.GetOr([])|
    ensures r.Some? ==> forall k :: 0 <= k < |r.value| ==>
              r.value[k] == if stored.GetOr([])[k].id == a.value.id
                            then Reviewed(a.value, action, adminNote, reviewer, stamp)
                            else stored.GetOr([])[k]
  {
    match a
    case None => None
    case Some(x) =>
      Some(ReplaceWhere(stored.GetOr([]), (i: Assessment) => i.id == x.id, Reviewed(x, action, adminNote, reviewer, stamp)))
  }
}

=== FILE: assessments.dfy ===
/** The assessment list: filter by title and type, paging, delete and the
    row routing. */
module Assessments {
  import opened Common
  import opened Types
  import LogService

  /** The type dropdown: `'ALL'` or one assessment type. */
  datatype TypeFilter = All | Only(kind: AssessmentType)

  /** One assessment against the search box and the type dropdown. */
  predicate Matches(a: Assessment, term: string, filter: TypeFilter) {
    ContainsIgnoreCase(a.title, term) && (filter == All || filter == Only(a.kind))
  }

  /** `filteredAssessments` */
  function Filtered(assessments: seq<Assessment>, term: string, filter: TypeFilter): (r: seq<Assessment>)
    ensures forall a :: a in r <==> a in assessments && Matches(a, term, filter)
    ensures IsSubsequence(r, assessments)
    ensures forall a :: multiset(r)[a] == if Matches(a, term, filter) then multiset(assessments)[a] else 0
  {
    FilterMembers(assessments, (a: Assessment) => Matches(a, term, filter));
    FilterMultiset(assessments, (a: Assessment) => Matches(a, term, filter));
    Filter(assessments, (a: Assessment) => Matches(a, term, filter))
  }

  /** `totalPages`: at least one page, even with no results. */
  function TotalPages(assessments: seq<Assessment>, term: string, filter: TypeFilter, pageSize: nat): (n: nat)
    requires pageSize > 0
    ensures n >= 1
    ensures n * pageSize >= |Filtered(assessments, term, filter)|
    ensures n > 1 ==> (n - 1) * pageSize < |Filtered(assessments, term, filter)|
  {
    var c := PageCount(|Filtered(assessments, term, filter)|, pageSize);
    if c < 1 then 1 else c
  }

  /** `paginatedItems`: page `page` of the matching assessments, so at most
      `pageSize` of them. */
  function Paginated(assessments: seq<Assessment>, term: string, filter: TypeFilter, page: nat, pageSize: nat)
    : (r: seq<Assessment>)
    requires page >= 1 && pageSize > 0
    ensures |r| <= pageSize
    ensures forall a :: a in r ==> a in assessments && Matches(a, term, filter)
    ensures PageOf(r, Filtered(assessments, term, filter), page, pageSize)
  {
    PageMembers(Filtered(assessments, term, filter), page, pageSize);
    Page(Filtered(assessments, term, filter), page, pageSize)
  }

  /** `confirmDelete`: without a pending id nothing is written (`None`);
      otherwise exactly the assessments with that id are removed, and the
      deletion is logged under the title of the first of them
      (`assessments.find`), if any. */
  function ConfirmDelete(assessments: seq<Assessment>, itemToDelete: string)
    : (r: Option<(seq<Assessment>, Option<LogService.LogRequest>)>)
    ensures r.None? <==> itemToDelete == []
    ensures r.Some? ==> forall a :: a in r.value.0 <==> a in assessments && a.id != itemToDelete
    ensures r.Some? ==> IsSubsequence(r.value.0, assessments)
    ensures r.Some? ==> forall a :: multiset(r.value.0)[a] == if a.id != itemToDelete then multiset(assessments)[a] else 0
    ensures r.Some? ==> (r.value.1.Some? <==> exists k :: 0 <= k < |assessments| && assessments[k].id == itemToDelete)
    ensures r.Some? && r.value.1.Some? ==> r.value.1.value.action == "Deleted Assessment"
    ensures r.Some? && r.value.1.Some? ==>
              exists k :: 0 <= k < |assessments| && assessments[k].id == itemToDelete
                          && r.value.1.value.entityName == assessments[k].title
                          && forall j :: 0 <= j < k ==> assessments[j].id != itemToDelete
  {
    if itemToDelete == [] then None
    else
      FilterMembers(assessments, (a: Assessment) => a.id != itemToDelete);
      FilterMultiset(assessments, (a: Assessment) => a.id != itemToDelete);
      var log := match FirstWhere(assessments, (a: Assessment) => a.id == itemToDelete)
                 case Some(a) => Some(LogService.LogRequest("Deleted Assessment", a.title))
                 case None => None;
      Some((Filter(assessments, (a: Assessment) => a.id != itemToDelete), log))
  }

  /** Where a row's open button leads. */
  datatype Route = ViewPage(id: string) | EditPage(id: string)

  /** Admins review an assessment; everyone else edits it. */
  function RowRoute(user: User, a: Assessment): (r: Route)
    ensures r.ViewPage? <==> user.role == Admin
    ensures r.id == a.id
  {
    if user.role == Admin then ViewPage(a.id) else EditPage(a.id)
  }
}

=== FILE: common.dfy ===
/** Shared vocabulary: an optional value, the string operations the pages use
    (case folding, `includes`, `trim`), list filtering and replacement by predicate,
    and page arithmetic. */
module Common {

  datatype Option<+T> = None | Some(value: T) {
    /** `x ?? fallback` */
    function GetOr(fallback: T): T {
      match this
      case Some(v) => v
      case None => fallback
    }
  }

  // ---------------------------------------------------------------------------
  // Text

  /** `toLowerCase` restricted to ASCII letters. */
  function LowerChar(c: char): char {
    if 'A' <= c <= 'Z' then (c as int + 32) as char else c
  }

  /** `toUpperCase` restricted to ASCII letters. */
  function UpperChar(c: char): char {
    if 'a' <= c <= 'z' then (c as int - 32) as char else c
  }

  function Lower(s: string): (r: string)
    ensures |r| == |s|
    ensures forall i :: 0 <= i < |s| ==> r[i] == LowerChar(s[i])
  {
    if s == [] then [] else [LowerChar(s[0])] + Lower(s[1..])
  }

  function Upper(s: string): (r: string)
    ensures |r| == |s|
    ensures forall i :: 0 <= i < |s| ==> r[i] == UpperChar(s[i])
  {
    if s == [] then [] else [UpperChar(s[0])] + Upper(s[1..])
  }

  /** Two characters fold to the same lower-case letter exactly when they fold to
      the same upper-case letter. */
  lemma FoldAgreesOnChars(a: char, b: char)
    ensures LowerChar(a) == LowerChar(b) <==> UpperChar(a) == UpperChar(b)
  {
  }

  /** Comparing `toUpperCase` images and comparing `toLowerCase` images decide the
      same thing (for the ASCII folding modelled here). */
  lemma {:induction false} UpperEqualIffLowerEqual(a: string, b: string)
    ensures Upper(a) == Upper(b) <==> Lower(a) == Lower(b)
  {
    if |a| == |b| {
      if Upper(a) == Upper(b) {
        forall i | 0 <= i < |a| ensures Lower(a)[i] == Lower(b)[i] {
          assert Upper(a)[i] == Upper(b)[i];
          FoldAgreesOnChars(a[i], b[i]);
        }
      }
      if Lower(a) == Lower(b) {
        forall i | 0 <= i < |a| ensures Upper(a)[i] == Upper(b)[i] {
          assert Lower(a)[i] == Lower(b)[i];
          FoldAgreesOnChars(a[i], b[i]);
        }
      }
    }
  }

  predicate IsPrefix(p: string, s: string) {
    |p| <= |s| && s[..|p|] == p
  }

  /** `s.includes(t)` */
  predicate Contains(s: string, t: string)
    decreases |s|
  {
    IsPrefix(t, s) || (s != [] && Contains(s[1..], t))
  }

  /** The empty search term is contained in every string. */
  lemma ContainsEmpty(s: string)
    ensures Contains(s, "")
  {
  }

  predicate OccursAt(s: string, t: string, i: int) {
    0 <= i <= |s| - |t| && s[i..i + |t|] == t
  }

  /** `Contains` is substring occurrence at some position. */
  lemma {:induction false} ContainsAt(s: string, t: string)
    ensures Contains(s, t) <==> exists i :: OccursAt(s, t, i)
  {
    if IsPrefix(t, s) {
      assert OccursAt(s, t, 0);
    }
    if s != [] {
      ContainsAt(s[1..], t);
      if Contains(s[1..], t) {
        var i :| OccursAt(s[1..], t, i);
        assert OccursAt(s, t, i + 1);
      }
      if i :| OccursAt(s, t, i) && i > 0 {
        assert OccursAt(s[1..], t, i - 1);
      }
    } else {
      if i :| OccursAt(s, t, i) {
        assert IsPrefix(t, s);
      }
    }
  }

  /** `searchTerm` matched case-insensitively, as `a.toLowerCase().includes(t.toLowerCase())`. */
  predicate ContainsIgnoreCase(s: string, t: string) {
    Contains(Lower(s), Lower(t))
  }

  predicate IsSpace(c: char) {
    c == ' ' || c == '\t' || c == '\n' || c == '\r' || c == '\U{000B}' || c == '\U{000C}'
    || c == '\U{00A0}' || c == '\U{FEFF}'
  }

  /** Number of white-space characters at the start of `s`. */
  function LeadingSpaces(s: string): (n: nat)
    ensures n <= |s|
    ensures forall i :: 0 <= i < n ==> IsSpace(s[i])
    ensures n == |s| || !IsSpace(s[n])
  {
    if s != [] && IsSpace(s[0]) then 1 + LeadingSpaces(s[1..]) else 0
  }

  /** Number of white-space characters at the end of `s`. */
  function TrailingSpaces(s: string): (n: nat)
    ensures n <= |s|
    ensures forall i :: |s| - n <= i < |s| ==> IsSpace(s[i])
    ensures n == |s| || !IsSpace(s[|s| - n - 1])
  {
    if s != [] && IsSpace(s[|s| - 1]) then 1 + TrailingSpaces(s[..|s| - 1]) else 0
  }

  /** `s.trim()`: `s` without its leading and trailing white space. */
  function Trim(s: string): (r: string)
    ensures r == [] || (!IsSpace(r[0]) && !IsSpace(r[|r| - 1]))
    ensures r == [] <==> forall i :: 0 <= i < |s| ==> IsSpace(s[i])
    ensures exists i, j :: 0 <= i <= j <= |s| && r == s[i..j]
  {
    var t := s[LeadingSpaces(s)..];
    var r := t[..|t| - TrailingSpaces(t)];
    assert r == s[LeadingSpaces(s)..LeadingSpaces(s) + |r|];
    r
  }

  // ---------------------------------------------------------------------------
  // Lists

  /** `a` can be obtained from `b` by deleting elements: order is preserved. */
  ghost predicate IsSubsequence<T>(a: seq<T>, b: seq<T>)
    decreases |b|
  {
    a == [] || (b != [] && ((a[0] == b[0] && IsSubsequence(a[1..], b[1..])) || IsSubsequence(a, b[1..])))
  }

  lemma {:induction false} SubsequenceRefl<T>(a: seq<T>)
    ensures IsSubsequence(a, a)
  {
    if a != [] {
      SubsequenceRefl(a[1..]);
    }
  }

  lemma {:induction false} SubsequenceAppend<T>(a1: seq<T>, b1: seq<T>, a2: seq<T>, b2: seq<T>)
    requires IsSubsequence(a1, b1) && IsSubsequence(a2, b2)
    ensures IsSubsequence(a1 + a2, b1 + b2)
    decreases |b1|
  {
    if a1 == [] {
      SubsequenceSuffix(a2, b1, b2);
      assert a1 + a2 == a2;
    } else {
      assert b1 != [];
      if a1[0] == b1[0] && IsSubsequence(a1[1..], b1[1..]) {
        SubsequenceAppend(a1[1..], b1[1..], a2, b2);
        assert (a1 + a2)[1..] == a1[1..] + a2;
        assert (b1 + b2)[1..] == b1[1..] + b2;
      } else {
        SubsequenceAppend(a1, b1[1..], a2, b2);
        assert (b1 + b2)[1..] == b1[1..] + b2;
      }
    }
  }

  /** A subsequence of a suffix is a subsequence of the whole. */
  lemma {:induction false} SubsequenceSuffix<T>(a: seq<T>, pre: seq<T>, b: seq<T>)
    requires IsSubsequence(a, b)
    ensures IsSubsequence(a, pre + b)
    decreases |pre|
  {
    if pre == [] {
      assert pre + b == b;
    } else {
      SubsequenceSuffix(a, pre[1..], b);
      assert (pre + b)[1..] == pre[1..] + b;
    }
  }

  /** `xs.filter(keep)` */
  function Filter<T(==,!new)>(xs: seq<T>, keep: T -> bool): (r: seq<T>)
    ensures |r| <= |xs|
    ensures forall k :: 0 <= k < |r| ==> keep(r[k])
  {
    if xs == [] then []
    else if keep(xs[0]) then [xs[0]] + Filter(xs[1..], keep)
    else Filter(xs[1..], keep)
  }

  /** Filter keeps every passing element as often as it occurs, and no other. */
  lemma {:induction false} FilterMultiset<T(!new)>(xs: seq<T>, keep: T -> bool)
    ensures forall x :: multiset(Filter(xs, keep))[x] == if keep(x) then multiset(xs)[x] else 0
  {
    if xs != [] {
      FilterMultiset(xs[1..], keep);
      assert xs == [xs[0]] + xs[1..];
    }
  }

  /** Filter keeps the order of what it keeps. */
  lemma {:induction false} FilterSubsequence<T(!new)>(xs: seq<T>, keep: T -> bool)
    ensures IsSubsequence(Filter(xs, keep), xs)
  {
    if xs != [] {
      FilterSubsequence(xs[1..], keep);
      var rest := Filter(xs[1..], keep);
      if keep(xs[0]) {
        assert ([xs[0]] + rest)[1..] == rest;
      }
    }
  }

  /** Filter keeps exactly the elements satisfying the predicate. */
  lemma FilterMembership<T(!new)>(xs: seq<T>, keep: T -> bool, x: T)
    ensures x in Filter(xs, keep) <==> x in xs && keep(x)
  {
    FilterMultiset(xs, keep);
    assert x in Filter(xs, keep) <==> multiset(Filter(xs, keep))[x] > 0;
    assert x in xs <==> multiset(xs)[x] > 0;
  }

  /** Filter keeps exactly the elements satisfying the predicate, in their
      order. */
  lemma FilterMembers<T(!new)>(xs: seq<T>, keep: T -> bool)
    ensures forall x :: x in Filter(xs, keep) <==> x in xs && keep(x)
    ensures IsSubsequence(Filter(xs, keep), xs)
  {
    forall x ensures x in Filter(xs, keep) <==> x in xs && keep(x) {
      FilterMembership(xs, keep, x);
    }
    FilterSubsequence(xs, keep);
  }

  /** Filtering with a test every element passes changes nothing. */
  lemma {:induction false} FilterAll<T(!new)>(xs: seq<T>, keep: T -> bool)
    requires forall k :: 0 <= k < |xs| ==> keep(xs[k])
    ensures Filter(xs, keep) == xs
  {
    if xs != [] {
      FilterAll(xs[1..], keep);
    }
  }

  /** Filtering with a test no element passes leaves nothing. */
  lemma {:induction false} FilterNone<T(!new)>(xs: seq<T>, keep: T -> bool)
    requires forall k :: 0 <= k < |xs| ==> !keep(xs[k])
    ensures Filter(xs, keep) == []
  {
    if xs != [] {
      FilterNone(xs[1..], keep);
    }
  }

  /** Filtering a list with one more element at the end. */
  lemma {:induction false} FilterSnoc<T(!new)>(xs: seq<T>, x: T, keep: T -> bool)
    ensures Filter(xs + [x], keep) == Filter(xs, keep) + (if keep(x) then [x] else [])
  {
    if xs == [] {
      assert xs + [x] == [x];
    } else {
      var ys := xs + [x];
      assert ys[1..] == xs[1..] + [x];
      FilterSnoc(xs[1..], x, keep);
    }
  }

  /** Filtering skips a run of rejected elements at the front. */
  lemma {:induction false} FilterSkip<T(!new)>(xs: seq<T>, keep: T -> bool, i: nat)
    requires i <= |xs|
    requires forall k :: 0 <= k < i ==> !keep(xs[k])
    ensures Filter(xs, keep) == Filter(xs[i..], keep)
  {
    if i > 0 {
      FilterSkip(xs[1..], keep, i - 1);
      assert xs[1..][i - 1..] == xs[i..];
    }
  }

  /** Three tests no element passes two of select at most all the elements
      between them. */
  lemma {:induction false} DisjointFilters<T(!new)>(xs: seq<T>, p: T -> bool, q: T -> bool, r: T -> bool)
    requires forall x :: !(p(x) && q(x)) && !(p(x) && r(x)) && !(q(x) && r(x))
    ensures |Filter(xs, p)| + |Filter(xs, q)| + |Filter(xs, r)| <= |xs|
  {
    if xs != [] {
      DisjointFilters(xs[1..], p, q, r);
    }
  }

  /** `xs.find(p)`: the first element passing the test, if any. */
  function FirstWhere<T>(xs: seq<T>, p: T -> bool): (r: Option<T>)
    ensures r.None? <==> forall k :: 0 <= k < |xs| ==> !p(xs[k])
    ensures r.Some? ==> exists k :: 0 <= k < |xs| && xs[k] == r.value && p(xs[k])
                                    && forall j :: 0 <= j < k ==> !p(xs[j])
  {
    if xs == [] then None
    else if p(xs[0]) then Some(xs[0])
    else
      var rest := FirstWhere(xs[1..], p);
      assert rest.Some? ==> exists k :: 1 <= k < |xs| && xs[k] == rest.value && p(xs[k])
                                        && forall j :: 0 <= j < k ==> !p(xs[j]) by {
        if rest.Some? {
          var k :| 0 <= k < |xs[1..]| && xs[1..][k] == rest.value && p(xs[1..][k])
                   && forall j :: 0 <= j < k ==> !p(xs[1..][j]);
          assert forall j :: 1 <= j < k + 1 ==> xs[j] == xs[1..][j - 1];
        }
      }
      rest
  }

  /** `xs.find(p) !== undefined`, `xs.some(p)` */
  function Any<T>(xs: seq<T>, p: T -> bool): (b: bool)
    ensures b <==> exists k :: 0 <= k < |xs| && p(xs[k])
  {
    if xs == [] then false
    else p(xs[0]) || (assert forall k :: 1 <= k < |xs| ==> xs[k] == xs[1..][k - 1]; Any(xs[1..], p))
  }

  /** `xs.map(x => matches(x) ? y : x)`: every element that matches is replaced by
      `y`; every other element stays where it was. */
  function ReplaceWhere<T>(xs: seq<T>, matches: T -> bool, y: T): (r: seq<T>)
    ensures |r| == |xs|
    ensures forall k :: 0 <= k < |xs| && matches(xs[k]) ==> r[k] == y
    ensures forall k :: 0 <= k < |xs| && !matches(xs[k]) ==> r[k] == xs[k]
  {
    if xs == [] then []
    else [if matches(xs[0]) then y else xs[0]] + ReplaceWhere(xs[1..], matches, y)
  }

  /** Replacing when nothing matches leaves the list as it was. */
  lemma ReplaceWhereNoMatch<T>(xs: seq<T>, matches: T -> bool, y: T)
    requires forall k :: 0 <= k < |xs| ==> !matches(xs[k])
    ensures ReplaceWhere(xs, matches, y) == xs
  {
  }

  lemma AppendAssoc<T>(x: seq<T>, y: seq<T>, z: seq<T>)
    ensures (x + y) + z == x + (y + z)
  {
  }

  /** `xs.slice(0, n)` */
  function Take<T>(xs: seq<T>, n: nat): (r: seq<T>)
    ensures |r| == if n < |xs| then n else |xs|
    ensures IsPrefixOf(r, xs)
  {
    if n < |xs| then xs[..n] else xs
  }

  ghost predicate IsPrefixOf<T>(a: seq<T>, b: seq<T>) {
    |a| <= |b| && b[..|a|] == a
  }

  /** Every value occurs at most once. */
  ghost predicate NoDuplicates<T(!new)>(xs: seq<T>) {
    forall x :: multiset(xs)[x] <= 1
  }

  /** What a page's load effect shows, and what it writes back when storage
      held nothing (the seed), or `None` when it writes nothing. */
  datatype Loaded<T> = Loaded(shown: seq<T>, written: Option<seq<T>>)

  /** `saved ? JSON.parse(saved) : (setItem(key, initial), initial)`: a stored
      list is shown as it is and nothing is written; without one the initial list
      is shown and seeded into storage. */
  function LoadOrSeed<T>(stored: Option<seq<T>>, initial: seq<T>): (r: Loaded<T>)
    ensures r.written.Some? <==> stored.None?
    ensures stored.Some? ==> r.shown == stored.value
    ensures stored.None? ==> r.shown == initial && r.written == Some(initial)
  {
    match stored
    case Some(xs) => Loaded(xs, None)
    case None => Loaded(initial, Some(initial))
  }

  /** Seeding happens once: after the seed is written, loading again shows the
      same list and writes nothing. */
  lemma SeedOnce<T>(stored: Option<seq<T>>, initial: seq<T>)
    ensures var first := LoadOrSeed(stored, initial);
            var storedAfter := if first.written.Some? then first.written else stored;
            LoadOrSeed(storedAfter, initial) == Loaded(first.shown, None)
  {
  }

  function DigitChar(d: nat): (c: char)
    requires d < 10
    ensures '0' <= c <= '9'
  {
    ('0' as int + d) as char
  }

  /** `n.toString()` for a non-negative integer: its decimal digits, without
      leading zeros. */
  function NatToString(n: nat): (r: string)
    ensures r != [] && forall k :: 0 <= k < |r| ==> '0' <= r[k] <= '9'
    ensures |r| > 1 ==> r[0] != '0'
    decreases n
  {
    if n < 10 then [DigitChar(n)] else NatToString(n / 10) + [DigitChar(n % 10)]
  }

  /** A number below ten thousand has at most four digits. */
  lemma {:induction false} NatToStringLength(n: nat)
    ensures n < 10 ==> |NatToString(n)| == 1
    ensures n < 100 ==> |NatToString(n)| <= 2
    ensures n < 1000 ==> |NatToString(n)| <= 3
    ensures n < 10000 ==> |NatToString(n)| <= 4
    decreases n
  {
    if n >= 10 {
      NatToStringLength(n / 10);
    }
  }

  // ---------------------------------------------------------------------------
  // Paging

  /** `Math.ceil(n / size)` for a positive page size. */
  function PageCount(n: nat, size: nat): (r: nat)
    requires size > 0
    ensures r * size >= n
    ensures r == 0 || (r - 1) * size < n
    ensures r == 0 <==> n == 0
  {
    (n + size - 1) / size
  }

  /** `xs.slice((page - 1) * size, page * size)` */
  function Page<T>(xs: seq<T>, page: nat, size: nat): (r: seq<T>)
    requires page >= 1 && size > 0
    ensures |r| <= size
    ensures forall k :: 0 <= k < |r| ==> (page - 1) * size + k < |xs| && r[k] == xs[(page - 1) * size + k]
    ensures (page - 1) * size < |xs| ==> |r| == if page * size <= |xs| then size else |xs| - (page - 1) * size
    ensures (page - 1) * size >= |xs| ==> r == []
    ensures PageOf(r, xs, page, size)
  {
    var lo := if (page - 1) * size < |xs| then (page - 1) * size else |xs|;
    var hi := if page * size < |xs| then page * size else |xs|;
    xs[lo..hi]
  }

  /** `r` is page `page` of `xs`: the elements from position `(page - 1) * size`
      on, as many as fit on a page or are left. */
  ghost predicate PageOf<T>(r: seq<T>, xs: seq<T>, page: nat, size: nat)
    requires page >= 1 && size > 0
  {
    var lo := (page - 1) * size;
    |r| == (if lo >= |xs| then 0 else if page * size <= |xs| then size else |xs| - lo)
    && forall k :: 0 <= k < |r| ==> lo + k < |xs| && r[k] == xs[lo + k]
  }

  /** Everything on a page comes from the list. */
  lemma PageMembers<T>(xs: seq<T>, page: nat, size: nat)
    requires page >= 1 && size > 0
    ensures forall x :: x in Page(xs, page, size) ==> x in xs
  {
    var r := Page(xs, page, size);
    forall x | x in r ensures x in xs {
      var k :| 0 <= k < |r| && r[k] == x;
      assert xs[(page - 1) * size + k] == x;
    }
  }
}

=== FILE: content_edit.dfy ===
/** The content editor's save: a draft save or a submission for approval. */
module ContentEdit {
  import opened Common
  import opened Types

  /** The two buttons of the editor. */
  datatype EditAction = SaveDraft | Submit

  /** The form a new item starts from. */
  function BlankItem(): ContentItem {
    ContentItem("", "", "General", "None", Module, Text, "", Draft, "", "", 0, 0, "", "", [])
  }

  datatype SaveOutcome = Rejected(message: string) | Saved(items: seq<ContentItem>, item: ContentItem)

  /** `handleAction(action)`. An untitled item is rejected. Otherwise the saved
      item keeps its id (a new one gets `stamp`) and creation date (a new one is
      created `today`), takes the editor's content when the editor is mounted
      (`editorHtml`), becomes DRAFT on a save and PENDING with one more submission
      on a submit, is authored by the signed-in user, and replaces the entries with
      the route id or is appended. */
  function HandleAction(form: ContentItem, action: EditAction, routeId: Option<string>, stored: Option<seq<ContentItem>>,
                        editorHtml: Option<string>, user: User, stamp: string, today: string): (r: SaveOutcome)
    ensures r.Rejected? <==> form.title == []
    ensures r.Rejected? ==> r.message == "Title is required."
    ensures r.Saved? ==>
              r.item.id == (if form.id != [] then form.id else stamp)
              && r.item.dateCreated == (if form.dateCreated != [] then form.dateCreated else today)
              && r.item.lastUpdated == today
              && r.item.content == editorHtml.GetOr(form.content)
              && r.item.authorId == user.id && r.item.authorName == user.name
    ensures r.Saved? && action == SaveDraft ==> r.item.status == Draft && r.item.submissionCount == form.submissionCount
    ensures r.Saved? && action == Submit ==> r.item.status == Pending && r.item.submissionCount == form.submissionCount + 1
    ensures r.Saved? ==>
              r.item == form.(id := r.item.id, content := r.item.content, status := r.item.status,
                              submissionCount := r.item.submissionCount, lastUpdated := r.item.lastUpdated,
                              dateCreated := r.item.dateCreated, authorId := r.item.authorId, authorName := r.item.authorName)
    ensures r.Saved? && routeId.Some? ==>
              |r.items| == |stored.GetOr([])|
              && forall k :: 0 <= k < |r.items| ==>
                   r.items[k] == if stored.GetOr([])[k].id == routeId.value then r.item else stored.GetOr([])[k]
    ensures r.Saved? && routeId.None? ==> r.items == stored.GetOr([]) + [r.item]
  {
    if form.title == [] then Rejected("Title is required.")
    else
      var item := form.(id := if form.id != [] then form.id else stamp,
                        content := editorHtml.GetOr(form.content),
                        status := if action == SaveDraft then Draft else Pending,
                        submissionCount := if action == Submit then form.submissionCount + 1 else form.submissionCount,
                        lastUpdated := today,
                        dateCreated := if form.dateCreated != [] then form.dateCreated else today,
                        authorId := user.id,
                        authorName := user.name);
      var items := stored.GetOr([]);
      Saved(if routeId.Some? then ReplaceWhere(items, (i: ContentItem) => i.id == routeId.value, item) else items + [item], item)
  }

  /** Saving a draft and then submitting it (the clock never gives an empty id or
      date) counts exactly one submission and
      leaves the item PENDING with the same id and creation date. */
  lemma SaveThenSubmit(form: ContentItem, routeId: Option<string>, stored: Option<seq<ContentItem>>, editorHtml: Option<string>,
                       user: User, stamp1: string, day1: string, stamp2: string, day2: string)
    requires form.title != [] && stamp1 != [] && day1 != []
    ensures var first := HandleAction(form, SaveDraft, routeId, stored, editorHtml, user, stamp1, day1);
            first.Saved? &&
            var second := HandleAction(first.item, Submit, routeId, Some(first.items), None, user, stamp2, day2);
            second.Saved? && second.item.status == Pending
            && second.item.submissionCount == form.submissionCount + 1
            && second.item.id == first.item.id && second.item.dateCreated == first.item.dateCreated
  {
  }
}

=== FILE: content_management.dfy ===
/** The content list: row routing, search, paging, the status summary and
    delete. */
module ContentManagement {
  import opened Common
  import opened Types
  import LogService

  /** Where a row click leads. */
  datatype Route = ViewPage(id: string) | EditPage(id: string)

  /** `handleRowAction`: an admin always reviews; anyone else edits their own
      material and views everyone else's. */
  function RowAction(user: User, item: ContentItem): (r: Route)
    ensures r.EditPage? <==> user.role != Admin && item.authorId == user.id
    ensures r.id == item.id
  {
    if user.role == Admin then ViewPage(item.id)
    else if item.authorId == user.id then EditPage(item.id)
    else ViewPage(item.id)
  }

  /** The search over one item: title or author name, up to case. */
  predicate Matches(i: ContentItem, term: string) {
    ContainsIgnoreCase(i.title, term) || ContainsIgnoreCase(i.authorName, term)
  }

  /** `searchedItems` */
  function Search(items: seq<ContentItem>, term: string): (r: seq<ContentItem>)
    ensures forall i :: i in r <==> i in items && Matches(i, term)
    ensures IsSubsequence(r, items)
    ensures forall i :: multiset(r)[i] == if Matches(i, term) then multiset(items)[i] else 0
  {
    FilterMembers(items, (i: ContentItem) => Matches(i, term));
    FilterMultiset(items, (i: ContentItem) => Matches(i, term));
    Filter(items, (i: ContentItem) => Matches(i, term))
  }

  /** `totalPages`: at least one page, even with no results. */
  function TotalPages(items: seq<ContentItem>, term: string, pageSize: nat): (n: nat)
    requires pageSize > 0
    ensures n >= 1
    ensures n * pageSize >= |Search(items, term)|
    ensures n > 1 ==> (n - 1) * pageSize < |Search(items, term)|
  {
    var c := PageCount(|Search(items, term)|, pageSize);
    if c < 1 then 1 else c
  }

  /** `paginatedItems`: page `page` of the matching items, so at most
      `pageSize` of them. */
  function Paginated(items: seq<ContentItem>, term: string, page: nat, pageSize: nat): (r: seq<ContentItem>)
    requires page >= 1 && pageSize > 0
    ensures |r| <= pageSize
    ensures forall i :: i in r ==> i in items && Matches(i, term)
    ensures PageOf(r, Search(items, term), page, pageSize)
  {
    PageMembers(Search(items, term), page, pageSize);
    Page(Search(items, term), page, pageSize)
  }

  datatype Stats = Stats(total: nat, approved: nat, pending: nat, revision: nat)

  function WithStatus(s: ContentStatus): ContentItem -> bool {
    (i: ContentItem) => i.status == s
  }

  /** `filteredForStats`: every item for an admin, otherwise the user's own. */
  function StatsScope(user: User, items: seq<ContentItem>): (r: seq<ContentItem>)
    ensures user.role == Admin ==> r == items
    ensures user.role != Admin ==> forall i :: i in r <==> i in items && i.authorId == user.id
    ensures IsSubsequence(r, items)
    ensures user.role != Admin ==> forall i :: multiset(r)[i] == if i.authorId == user.id then multiset(items)[i] else 0
  {
    SubsequenceRefl(items);
    FilterMembers(items, (i: ContentItem) => i.authorId == user.id);
    FilterMultiset(items, (i: ContentItem) => i.authorId == user.id);
    if user.role == Admin then items else Filter(items, (i: ContentItem) => i.authorId == user.id)
  }

  /** `stats`: the size of the scope and how many of it are approved, pending and
      sent back for revision; the three never add up to more than the total. */
  function ComputeStats(user: User, items: seq<ContentItem>): (r: Stats)
    ensures r.total == |StatsScope(user, items)|
    ensures r.approved == |Filter(StatsScope(user, items), WithStatus(Approved))|
    ensures r.pending == |Filter(StatsScope(user, items), WithStatus(Pending))|
    ensures r.revision == |Filter(StatsScope(user, items), WithStatus(RevisionRequested))|
    ensures r.approved + r.pending + r.revision <= r.total
  {
    var scope := StatsScope(user, items);
    DisjointFilters(scope, WithStatus(Approved), WithStatus(Pending), WithStatus(RevisionRequested));
    Stats(|scope|, |Filter(scope, WithStatus(Approved))|, |Filter(scope, WithStatus(Pending))|,
          |Filter(scope, WithStatus(RevisionRequested))|)
  }

  /** `confirmDelete`: without a pending id nothing is written (`None`);
      otherwise exactly the items with that id are removed, and the deletion is
      logged under the title of the first of them (`items.find`), if there is
      one. */
  function ConfirmDelete(items: seq<ContentItem>, itemToDelete: string)
    : (r: Option<(seq<ContentItem>, Option<LogService.LogRequest>)>)
    ensures r.None? <==> itemToDelete == []
    ensures r.Some? ==> forall i :: i in r.value.0 <==> i in items && i.id != itemToDelete
    ensures r.Some? ==> IsSubsequence(r.value.0, items)
    ensures r.Some? ==> forall i :: multiset(r.value.0)[i] == if i.id != itemToDelete then multiset(items)[i] else 0
    ensures r.Some? ==> (r.value.1.Some? <==> exists k :: 0 <= k < |items| && items[k].id == itemToDelete)
    ensures r.Some? && r.value.1.Some? ==> r.value.1.value.action == "Deleted Content"
    ensures r.Some? && r.value.1.Some? ==>
              exists k :: 0 <= k < |items| && items[k].id == itemToDelete
                          && r.value.1.value.entityName == items[k].title
                          && forall j :: 0 <= j < k ==> items[j].id != itemToDelete
  {
    if itemToDelete == [] then None
    else
      FilterMembers(items, (i: ContentItem) => i.id != itemToDelete);
      FilterMultiset(items, (i: ContentItem) => i.id != itemToDelete);
      var log := match FirstWhere(items, (i: ContentItem) => i.id == itemToDelete)
                 case Some(it) => Some(LogService.LogRequest("Deleted Content", it.title))
                 case None => None;
      Some((Filter(items, (i: ContentItem) => i.id != itemToDelete), log))
  }
}

=== FILE: content_view.dfy ===
/** The admin review of a content item (approve, or send back for revision). */
module ContentView {
  import opened Common
  import opened Types
  import opened Workflow

  /** The reviewed item: the status follows the decision, a revision request adds
      one to the revision counter, the note is appended when written, and every
      other field is carried over. */
  function Reviewed(item: ContentItem, action: ReviewAction, adminNote: string, reviewer: User, stamp: Stamp): (r: ContentItem)
    ensures r.status == ReviewStatus(action)
    ensures action == RevisionAction ==> r.revisionCount == item.revisionCount + 1
    ensures action == ApproveAction ==> r.revisionCount == item.revisionCount
    ensures r.revisionNotes == AppendNote(item.revisionNotes, adminNote, reviewer, stamp)
    ensures r == item.(status := r.status, revisionCount := r.revisionCount, revisionNotes := r.revisionNotes)
  {
    item.(status := ReviewStatus(action),
          revisionCount := if action == RevisionAction then item.revisionCount + 1 else item.revisionCount,
          revisionNotes := AppendNote(item.revisionNotes, adminNote, reviewer, stamp))
  }

  /** `handleAdminReview`: without a loaded item nothing is written (`None`);
      otherwise the stored list, read as empty when absent, is written back with
      every entry carrying the item's id replaced by the reviewed item and every
      other entry unchanged. */
  function AdminReview(item: Option<ContentItem>, stored: Option<seq<ContentItem>>, action: ReviewAction,
                       adminNote: string, reviewer: User, stamp: Stamp): (r: Option<seq<ContentItem>>)
    ensures r.None? <==> item.None?
    ensures r.Some? ==> |r.value| == |stored.GetOr([])|
    ensures r.Some? ==> forall k :: 0 <= k < |r.value| ==>
              r.value[k] == if stored.GetOr([])[k].id == item.value.id
                            then Reviewed(item.value, action, adminNote, reviewer, stamp)
                            else stored.GetOr([])[k]
  {
    match item
    case None => None
    case Some(it) =>
      var updated := Reviewed(it, action, adminNote, reviewer, stamp);
      Some(ReplaceWhere(stored.GetOr([]), (i: ContentItem) => i.id == it.id, updated))
  }
}

=== FILE: curriculum.dfy ===
/** The two subject lists over `psychology_core_subjects`: the institutional
    repository (with role-based routing) and the core hub. Both seed the four
    core subjects into an empty store and delete a subject after confirmation. */
module Curriculum {
  import opened Common
  import opened Types

  /** `INITIAL_CORE_SUBJECTS`: the four board exam core subjects, each without
      topics or status. */
  const INITIAL_CORE_SUBJECTS: seq<Subject> :=
    [ Subject("s-1", "Theories of Personality",
              "Comprehensive study of major personality theories and their applications in clinical and social contexts.",
              "#1e40af", [], None, "", None),
      Subject("s-2", "Abnormal Psychology",
              "Examination of psychopathology, diagnostic criteria, and various clinical perspectives on mental health.",
              "#b91c1c", [], None, "", None),
      Subject("s-3", "Industrial Psychology",
              "Psychological principles applied to organizational behavior, workforce management, and human resources.",
              "#047857", [], None, "", None),
      Subject("s-4", "Psychological Assessment",
              "Foundations of psychometrics, psychological testing methodologies, and professional evaluation standards.",
              "#7c3aed", [], None, "", None) ]

  function IdIsNot(id: string): Subject -> bool {
    (s: Subject) => s.id != id
  }

  /** `subjects.filter(s => s.id !== id)`: the subjects with that id leave the
      list; the others stay, in their order. */
  function Purged(subjects: seq<Subject>, id: string): (r: seq<Subject>)
    ensures forall s :: s in r <==> s in subjects && s.id != id
    ensures forall k :: 0 <= k < |r| ==> r[k].id != id
    ensures IsSubsequence(r, subjects)
    ensures forall s :: multiset(r)[s] == if s.id != id then multiset(subjects)[s] else 0
  {
    FilterMembers(subjects, IdIsNot(id));
    FilterMultiset(subjects, IdIsNot(id));
    Filter(subjects, IdIsNot(id))
  }

  /** Purging an id no subject has changes nothing, and purging twice is purging
      once. */
  lemma PurgeAbsentAndTwice(subjects: seq<Subject>, id: string)
    ensures (forall k :: 0 <= k < |subjects| ==> subjects[k].id != id) ==> Purged(subjects, id) == subjects
    ensures Purged(Purged(subjects, id), id) == Purged(subjects, id)
  {
    if forall k :: 0 <= k < |subjects| ==> subjects[k].id != id {
      FilterAll(subjects, IdIsNot(id));
    }
    FilterAll(Purged(subjects, id), IdIsNot(id));
  }

  /** `handleSubjectClick`: faculty open the editor, every other role the
      read-only view. */
  function SubjectRoute(role: UserRole, subjectId: string): (path: string)
    ensures role == Faculty ==> path == "/subjects/edit/" + subjectId
    ensures role != Faculty ==> path == "/subjects/view/" + subjectId
  {
    if role == Faculty then "/subjects/edit/" + subjectId else "/subjects/view/" + subjectId
  }

  /** The state of either subject list page, with the storage entry it reads and
      writes. */
  class SubjectHub {
    var subjects: seq<Subject>
    /** `subjectToDelete`; empty for none. */
    var subjectToDelete: string
    /** The value under `psychology_core_subjects`. */
    var stored: Option<seq<Subject>>

    /** The load effect: a stored list is shown as it is; an empty store is
        seeded with the core subjects, which are shown. */
    constructor (initialStore: Option<seq<Subject>>)
      ensures subjects == LoadOrSeed(initialStore, INITIAL_CORE_SUBJECTS).shown
      ensures stored == (if initialStore.Some? then initialStore else Some(INITIAL_CORE_SUBJECTS))
      ensures stored == Some(subjects)
      ensures subjectToDelete == ""
    {
      var loaded := LoadOrSeed(initialStore, INITIAL_CORE_SUBJECTS);
      subjects := loaded.shown;
      stored := if loaded.written.Some? then loaded.written else initialStore;
      subjectToDelete := "";
    }

    /** The trash button: remember the subject for the confirmation dialog. */
    method RequestDelete(id: string)
      modifies this
      ensures subjectToDelete == id
      ensures subjects == old(subjects) && stored == old(stored)
    {
      subjectToDelete := id;
    }

    /** `confirmDeleteSubject`: with nothing pending nothing happens; otherwise
        the subject leaves the shown list and storage (`syncSubjects`) and the
        pending marker is cleared. */
    method ConfirmDeleteSubject()
      modifies this
      ensures old(subjectToDelete) == "" ==> subjects == old(subjects) && stored == old(stored)
      ensures old(subjectToDelete) != "" ==>
                subjects == Purged(old(subjects), old(subjectToDelete)) && stored == Some(subjects)
      ensures subjectToDelete == ""
    {
      if subjectToDelete == "" {
        return;
      }
      subjects := Purged(subjects, subjectToDelete);
      stored := Some(subjects);
      subjectToDelete := "";
    }
  }
}

=== FILE: dashboard.dfy ===
/** The dashboard's load effect: the counters shown on the cards and the five
    newest log entries. */
module Dashboard {
  import opened Common
  import opened Types
  import opened TopicTree

  /** The mutable `totalUnits` counter that `countTopics` increments. */
  class UnitCounter {
    var totalUnits: nat

    constructor ()
      ensures totalUnits == 0
    {
      totalUnits := 0;
    }

    /** `countTopics(nodes)`: one increment per node, then the node's children,
        sibling by sibling; it adds the number of nodes in the forest. */
    method CountTopics(nodes: seq<Topic>)
      modifies this
      ensures totalUnits == old(totalUnits) + |Nodes(nodes)|
      decreases nodes
    {
      var i := 0;
      while i < |nodes|
        invariant 0 <= i <= |nodes|
        invariant totalUnits == old(totalUnits) + |Nodes(nodes[..i])|
      {
        var node := nodes[i];
        NodesPrefixStep(nodes, i);
        totalUnits := totalUnits + 1;
        match node.subTopics {
          case Present(ns) => CountTopics(ns);
          case Absent =>
        }
        i := i + 1;
      }
      assert nodes[..i] == nodes;
    }
  }

  /** Every topic node, at every depth, of every subject. */
  function UnitsIn(subjects: seq<Subject>): (n: nat)
    ensures subjects == [] ==> n == 0
  {
    if subjects == [] then 0 else |Nodes(subjects[0].topics)| + UnitsIn(subjects[1..])
  }

  lemma UnitsInAppend(a: seq<Subject>, s: Subject)
    ensures UnitsIn(a + [s]) == UnitsIn(a) + |Nodes(s.topics)|
  {
    if a != [] {
      assert (a + [s])[1..] == a[1..] + [s];
      UnitsInAppend(a[1..], s);
    } else {
      assert (a + [s])[1..] == [];
    }
  }

  /** `subjects.forEach(s => countTopics(s.topics))` with a fresh counter. */
  method CountUnits(subjects: seq<Subject>) returns (units: nat)
    ensures units == UnitsIn(subjects)
  {
    var counter := new UnitCounter();
    var j := 0;
    while j < |subjects|
      invariant 0 <= j <= |subjects|
      invariant counter.totalUnits == UnitsIn(subjects[..j])
    {
      assert subjects[..j + 1] == subjects[..j] + [subjects[j]];
      UnitsInAppend(subjects[..j], subjects[j]);
      counter.CountTopics(subjects[j].topics);
      j := j + 1;
    }
    assert subjects[..j] == subjects;
    units := counter.totalUnits;
  }

  datatype Stats = Stats(
    totalStudents: nat,
    activeExams: nat,
    readinessAvg: nat,
    pendingApprovals: nat,
    totalMaterials: nat,
    subjectShells: nat,
    modularUnits: nat)

  /** The load effect over the parsed lists (each empty when nothing is stored)
      and the stored log: students are the users with the STUDENT role, pending
      approvals the PENDING materials, units every topic node of every subject,
      and the recent activity the first (newest) five log entries. The exam
      count and readiness average are the page's fixed figures. */
  method Load(users: seq<User>, content: seq<ContentItem>, subjects: seq<Subject>, logs: seq<ActivityLog>)
    returns (stats: Stats, recent: seq<ActivityLog>)
    ensures stats.totalStudents == |Filter(users, (u: User) => u.role == Student)|
    ensures stats.pendingApprovals == |Filter(content, (c: ContentItem) => c.status == Pending)|
    ensures stats.pendingApprovals <= stats.totalMaterials == |content|
    ensures stats.subjectShells == |subjects|
    ensures stats.modularUnits == UnitsIn(subjects)
    ensures stats.activeExams == 8 && stats.readinessAvg == 76
    ensures |recent| == (if |logs| < 5 then |logs| else 5) && IsPrefixOf(recent, logs)
  {
    var studentCount := |Filter(users, (u: User) => u.role == Student)|;
    var pendingCount := |Filter(content, (c: ContentItem) => c.status == Pending)|;
    var units := CountUnits(subjects);
    stats := Stats(studentCount, 8, 76, pendingCount, |content|, |subjects|, units);
    recent := Take(logs, 5);
  }
}

=== FILE: edit_user.dfy ===
/** The profile editor: saving a user record, with the session record kept in
    step when users edit themselves, and where the page returns to. */
module EditUser {
  import opened Common
  import opened Types

  /** `targetPath`: admins go back to the user list, everyone else to the
      dashboard. */
  function TargetPath(loggedIn: User): (p: string)
    ensures p == "/users" <==> loggedIn.role == Admin
    ensures p != "/users" ==> p == "/dashboard"
  {
    if loggedIn.role == Admin then "/users" else "/dashboard"
  }

  /** `newPassword || userData.password`: a blank new password keeps the old
      one. */
  function Updated(userData: User, newPassword: string): (u: User)
    ensures newPassword == [] ==> u == userData
    ensures newPassword != [] ==> u == userData.(password := Some(newPassword))
  {
    userData.(password := if newPassword != [] then Some(newPassword) else userData.password)
  }

  /** What `handleSave` writes: the user list and, for a self-edit, the session
      record; and where it then leads. */
  datatype SaveResult = SaveResult(users: seq<User>, session: Option<User>, target: string)

  /** `handleSave`. Nothing is written before the profile is loaded or when no
      user list is stored. Otherwise the users with the edited id are replaced
      by the updated record, the session record is rewritten exactly when the
      route's id is the signed-in user's own, and the page redirects by role. */
  function HandleSave(loggedIn: User, routeId: Option<string>, userData: Option<User>, stored: Option<seq<User>>,
                      newPassword: string): (r: Option<SaveResult>)
    ensures r.None? <==> userData.None? || stored.None?
    ensures r.Some? ==> |r.value.users| == |stored.value| && forall k :: 0 <= k < |stored.value| ==>
              r.value.users[k] == if stored.value[k].id == userData.value.id then Updated(userData.value, newPassword)
                                  else stored.value[k]
    ensures r.Some? ==> (r.value.session.Some? <==> routeId == Some(loggedIn.id))
    ensures r.Some? && r.value.session.Some? ==> r.value.session.value == Updated(userData.value, newPassword)
    ensures r.Some? ==> r.value.target == TargetPath(loggedIn)
  {
    if userData.None? || stored.None? then None
    else
      var u := Updated(userData.value, newPassword);
      var users := ReplaceWhere(stored.value, (x: User) => x.id == userData.value.id, u);
      Some(SaveResult(users, if routeId == Some(loggedIn.id) then Some(u) else None, TargetPath(loggedIn)))
  }

  /** `goBack` leads where a save leads. */
  lemma GoBackMatchesSave(loggedIn: User, routeId: Option<string>, userData: User, stored: seq<User>, newPassword: string)
    ensures HandleSave(loggedIn, routeId, Some(userData), Some(stored), newPassword).value.target == TargetPath(loggedIn)
  {
  }
}

=== FILE: layout.dfy ===
/** The application shell: which permissions the signed-in role has, which
    sidebar entries it sees, and which entry is highlighted for the current
    path. */
module Layout {
  import opened Common
  import opened Types
  import opened Permissions

  /** The fallback for FACULTY when no role configuration is stored (nine
      permissions; the role matrix's own FACULTY defaults differ). */
  const FACULTY_FALLBACK: seq<string> := [
    "view_dashboard",
    "view_subjects", "edit_subjects",
    "view_content", "create_content", "edit_content",
    "view_assessments", "create_assessments",
    "view_analytics"]

  /** The fallback for every other non-admin role. */
  const STUDENT_FALLBACK: seq<string> := ["view_dashboard", "view_analytics"]

  /** The permission-resolution effect. `current` is the permission state before
      the effect runs (empty on first render), `stored` the parsed `role_configs`.
      A stored configuration whose name equals the role's up to case is used as
      is; stored configurations without such a match leave the state as it was;
      with nothing stored, ADMIN gets the whole catalog, FACULTY its nine-entry
      fallback and anyone else the student fallback. */
  function ResolvePermissions(current: seq<string>, stored: Option<seq<RoleConfig>>, role: UserRole,
                              catalog: seq<PermissionModule>): (r: seq<string>)
    ensures stored.Some? ==>
              match FindConfig(stored.value, (c: RoleConfig) => NameMatchesUpper(c, role))
              case Some(c) => r == c.permissions
              case None => r == current
    ensures stored.None? && role == Admin ==> forall a :: a in r <==> exists m :: m in catalog && a in m.actions
    ensures stored.None? && role == Faculty ==> r == FACULTY_FALLBACK
    ensures stored.None? && role == Student ==> r == STUDENT_FALLBACK
  {
    match stored
    case Some(configs) =>
      (match FindConfig(configs, (c: RoleConfig) => NameMatchesUpper(c, role))
       case Some(c) => c.permissions
       case None => current)
    case None =>
      if role == Admin then AllActions(catalog)
      else if role == Faculty then FACULTY_FALLBACK
      else STUDENT_FALLBACK
  }

  /** With configurations stored, a role none of them names has no permissions
      on first render, whatever the catalog. */
  lemma UnmatchedRoleHasNothing(configs: seq<RoleConfig>, role: UserRole, catalog: seq<PermissionModule>)
    requires forall k :: 0 <= k < |configs| ==> Upper(configs[k].name) != Upper(role.Name())
    ensures ResolvePermissions([], Some(configs), role, catalog) == []
  {
  }

  /** A sidebar entry: its id (the first path segment) and the permission it
      needs. Labels and icons are presentation only. */
  datatype NavItem = NavItem(id: string, requiredPermission: string)

  const NAVIGATION_ITEMS: seq<NavItem> := [
    NavItem("dashboard", "view_dashboard"),
    NavItem("subjects", "manage_curriculum"),
    NavItem("users", "view_users"),
    NavItem("whitelist", "manage_whitelist"),
    NavItem("assessments", "create_exams"),
    NavItem("analytics", "view_analytics"),
    NavItem("security", "system_settings")]

  /** `filteredNavItems`: the entries whose permission the role has, in menu
      order. */
  function FilteredNavItems(perms: seq<string>): (r: seq<NavItem>)
    ensures IsSubsequence(r, NAVIGATION_ITEMS)
    ensures forall it :: it in r <==> it in NAVIGATION_ITEMS && it.requiredPermission in perms
  {
    FilterMembers(NAVIGATION_ITEMS, Visible(perms));
    Filter(NAVIGATION_ITEMS, Visible(perms))
  }

  /** `rolePermissions.includes(item.requiredPermission)` */
  function Visible(perms: seq<string>): NavItem -> bool {
    (it: NavItem) => it.requiredPermission in perms
  }

  /** Under the student fallback only Dashboard and Analytics are shown. */
  lemma {:induction false} StudentMenu()
    ensures FilteredNavItems(STUDENT_FALLBACK) == [NAVIGATION_ITEMS[0], NAVIGATION_ITEMS[5]]
  {
    OnlyDashboardAndAnalytics(STUDENT_FALLBACK);
  }

  /** Under the FACULTY fallback, too, only Dashboard and Analytics are shown:
      none of its nine permissions is one the other entries need. */
  lemma {:induction false} FacultyMenu()
    ensures FilteredNavItems(FACULTY_FALLBACK) == [NAVIGATION_ITEMS[0], NAVIGATION_ITEMS[5]]
  {
    OnlyDashboardAndAnalytics(FACULTY_FALLBACK);
  }

  lemma {:induction false} OnlyDashboardAndAnalytics(perms: seq<string>)
    requires "view_dashboard" in perms && "view_analytics" in perms
    requires "manage_curriculum" !in perms && "view_users" !in perms && "manage_whitelist" !in perms
    requires "create_exams" !in perms && "system_settings" !in perms
    ensures FilteredNavItems(perms) == [NAVIGATION_ITEMS[0], NAVIGATION_ITEMS[5]]
  {
    var keep := Visible(perms);
    var n := NAVIGATION_ITEMS;
    assert keep(n[0]) && keep(n[5]);
    assert !keep(n[1]) && !keep(n[2]) && !keep(n[3]) && !keep(n[4]) && !keep(n[6]);
    KeepsFirstAndSixth(n, keep);
  }

  /** Which of seven entries a filter keeps, when only the first and the sixth
      pass. */
  lemma {:induction false} KeepsFirstAndSixth<T(!new)>(xs: seq<T>, keep: T -> bool)
    requires |xs| == 7 && keep(xs[0]) && keep(xs[5])
    requires !keep(xs[1]) && !keep(xs[2]) && !keep(xs[3]) && !keep(xs[4]) && !keep(xs[6])
    ensures Filter(xs, keep) == [xs[0], xs[5]]
  {
    FilterStep(xs, keep);
    FilterSkip(xs[1..], keep, 4);
    assert xs[1..][4..] == xs[5..];
    FilterStep(xs[5..], keep);
    assert xs[5..][1..] == xs[6..];
    FilterNone(xs[6..], keep);
  }

  /** One step of `Filter`. */
  lemma FilterStep<T(!new)>(xs: seq<T>, keep: T -> bool)
    requires xs != []
    ensures Filter(xs, keep) == (if keep(xs[0]) then [xs[0]] else []) + Filter(xs[1..], keep)
  {
  }

  /** `isItemActive(itemId)` on the current path: the root path counts as
      `/dashboard`; the dashboard entry is active only on exactly that path, any
      other entry whenever the path starts with `/` and its id. */
  function IsItemActive(path: string, itemId: string): (b: bool)
    ensures itemId == "dashboard" ==> (b <==> path == "/dashboard" || path == "/" || path == "")
    ensures itemId != "dashboard" && path != "/" && path != "" ==> (b <==> IsPrefix("/" + itemId, path))
    ensures itemId != "dashboard" && (path == "/" || path == "") ==> (b <==> IsPrefix("/" + itemId, "/dashboard"))
  {
    var normalized := if path == "/" || path == "" then "/dashboard" else path;
    if itemId == "dashboard" then normalized == "/dashboard"
    else IsPrefix("/" + itemId, normalized)
  }

  /** On the root path exactly the dashboard entry is highlighted. */
  lemma RootHighlightsDashboardOnly()
    ensures forall k :: 0 <= k < |NAVIGATION_ITEMS| ==> (IsItemActive("/", NAVIGATION_ITEMS[k].id) <==> k == 0)
  {
    forall k | 1 <= k < |NAVIGATION_ITEMS| ensures !IsItemActive("/", NAVIGATION_ITEMS[k].id) {
      var p := "/" + NAVIGATION_ITEMS[k].id;
      assert p[1] != 'd';
    }
  }
}

=== FILE: log_service.dfy ===
/** The activity log kept under `system_logs`: newest entry first, at most 200
    entries. Handlers that log return a `LogRequest`; `Record` is what
    `logActivity` then writes. */
module LogService {
  import opened Common
  import opened Types

  const MAX_LOGS: nat := 200

  /** The arguments of `logActivity(action, entityName, entityId)`. The entity id
      is accepted but not stored in the entry, so it is not carried. */
  datatype LogRequest = LogRequest(action: string, entityName: string)

  /** The values `logActivity` takes from the clock: the entry id
      (`Date.now().toString()`) and the ISO timestamp. */
  datatype Clock = Clock(entryId: string, timestamp: string)

  /** The entry written for `req` by the signed-in `user`. */
  function Entry(user: User, req: LogRequest, clock: Clock): (e: ActivityLog)
    ensures e.action == req.action + ": " + req.entityName
    ensures e.userId == user.id && e.userName == user.name
  {
    ActivityLog(clock.entryId, user.id, user.name, req.action + ": " + req.entityName, clock.timestamp)
  }

  /** `getLogs`: the stored entries, or none. */
  function GetLogs(stored: Option<seq<ActivityLog>>): (r: seq<ActivityLog>)
    ensures stored.None? ==> r == []
    ensures stored.Some? ==> r == stored.value
  {
    stored.GetOr([])
  }

  /** `logActivity`: with nobody signed in (`mastery_user` absent) the stored log
      is left as it was; otherwise the new entry is put first, the previous
      entries follow in their order, and only the first 200 are kept. */
  function Record(session: Option<User>, stored: Option<seq<ActivityLog>>, req: LogRequest, clock: Clock)
    : (r: Option<seq<ActivityLog>>)
    ensures session.None? ==> r == stored
    ensures session.Some? ==> r.Some?
    ensures session.Some? ==> 1 <= |r.value| <= MAX_LOGS
    ensures session.Some? ==> r.value[0] == Entry(session.value, req, clock)
    ensures session.Some? ==> r.value[1..] == Take(GetLogs(stored), MAX_LOGS - 1)
  {
    match session
    case None => stored
    case Some(user) => Some(Take([Entry(user, req, clock)] + GetLogs(stored), MAX_LOGS))
  }

  /** Two entries logged in a row appear newest first, ahead of the earlier log,
      cut to 200 entries: dropping happens only at the old end. */
  lemma {:induction false} RecordTwice(user: User, stored: Option<seq<ActivityLog>>, first: LogRequest, c1: Clock,
                                       second: LogRequest, c2: Clock)
    ensures Record(Some(user), Record(Some(user), stored, first, c1), second, c2)
         == Some(Take([Entry(user, second, c2), Entry(user, first, c1)] + GetLogs(stored), MAX_LOGS))
  {
    var e1, e2 := Entry(user, first, c1), Entry(user, second, c2);
    var l := GetLogs(stored);
    var once := Take([e1] + l, MAX_LOGS);
    assert [e2] + once == Take([e2, e1] + l, MAX_LOGS + 1) by {
      assert [e2] + ([e1] + l) == [e2, e1] + l;
    }
    assert Take([e2] + once, MAX_LOGS) == Take([e2, e1] + l, MAX_LOGS);
  }
}

=== FILE: login.dfy ===
/** Sign-in: the default accounts seeded on first visit, and credential matching
    over the stored user array, which is updated in place on success. */
module Login {
  import opened Common
  import opened Types

  /** `DEFAULT_USERS` */
  const DEFAULT_USERS: seq<User> := [
    User("1", "admin@cvsu.edu.ph", "ADMIN", Some("password123"), Admin, Active, None, None, "Never"),
    User("2", "faculty@cvsu.edu.ph", "PROFESSOR", Some("password123"), Faculty, Active, None, None, "Never")]

  /** The seeding effect: what is written under `registered_users`, only when
      nothing is stored there. */
  function SeedUsers(stored: Option<seq<User>>): (written: Option<seq<User>>)
    ensures written.Some? <==> stored.None?
    ensures written.Some? ==> written.value == DEFAULT_USERS
  {
    LoadOrSeed(stored, DEFAULT_USERS).written
  }

  /** The e-mail matches up to case and the password exactly (an account without
      a password never matches). */
  predicate Credentials(u: User, email: string, password: string) {
    Lower(u.email) == Lower(email) && u.password == Some(password)
  }

  /** `findIndex`: the first user with matching credentials, or -1. */
  method FindIndex(users: array<User>, email: string, password: string) returns (i: int)
    ensures -1 <= i < users.Length
    ensures i == -1 <==> forall k :: 0 <= k < users.Length ==> !Credentials(users[k], email, password)
    ensures 0 <= i ==> Credentials(users[i], email, password)
                       && forall k :: 0 <= k < i ==> !Credentials(users[k], email, password)
  {
    i := 0;
    while i < users.Length
      invariant 0 <= i <= users.Length
      invariant forall k :: 0 <= k < i ==> !Credentials(users[k], email, password)
    {
      if Credentials(users[i], email, password) {
        return;
      }
      i := i + 1;
    }
    i := -1;
  }

  datatype LoginOutcome =
    | InvalidCredentials
    | AccountInactive
    | SignedIn(user: User)

  /** `handleSubmit` over the parsed user list (`now` is the formatted clock).
      With no match, or a match that is not ACTIVE, nothing is written; otherwise
      the first matching user alone gets `lastLogin := now` and is signed in. */
  method HandleSubmit(savedUsers: array<User>, email: string, password: string, now: string)
    returns (r: LoginOutcome)
    modifies savedUsers
    ensures r.InvalidCredentials? <==>
              forall k :: 0 <= k < savedUsers.Length ==> !Credentials(old(savedUsers[k]), email, password)
    ensures !r.SignedIn? ==> savedUsers[..] == old(savedUsers[..])
    ensures r.AccountInactive? ==> exists i :: 0 <= i < savedUsers.Length && FirstMatchAt(old(savedUsers[..]), email, password, i)
                                              && savedUsers[i].status != Active
    ensures r.SignedIn? ==> exists i :: 0 <= i < savedUsers.Length && FirstMatchAt(old(savedUsers[..]), email, password, i)
                                        && old(savedUsers[i]).status == Active
                                        && r.user == old(savedUsers[i]).(lastLogin := now)
                                        && savedUsers[..] == old(savedUsers[..])[i := r.user]
  {
    var i := FindIndex(savedUsers, email, password);
    if i == -1 {
      return InvalidCredentials;
    }
    var found := savedUsers[i];
    assert FirstMatchAt(savedUsers[..], email, password, i);
    if found.status != Active {
      return AccountInactive;
    }
    var updated := found.(lastLogin := now);
    savedUsers[i] := updated;
    r := SignedIn(updated);
  }

  /** Index `i` holds the first user of `users` with matching credentials. */
  ghost predicate FirstMatchAt(users: seq<User>, email: string, password: string, i: int) {
    0 <= i < |users| && Credentials(users[i], email, password)
    && forall k :: 0 <= k < i ==> !Credentials(users[k], email, password)
  }

  /** The seeded accounts sign in with their listed e-mail (in any case) and
      password. */
  lemma DefaultAdminMatches(email: string)
    ensures Lower(email) == Lower("admin@cvsu.edu.ph") ==> FirstMatchAt(DEFAULT_USERS, email, "password123", 0)
  {
  }
}

=== FILE: permissions.dfy ===
/** The permission catalog and the lookup of a role's stored configuration,
    shared by the sidebar, the role matrix and the settings page. The catalog
    itself (`PERMISSION_MODULES`) is not part of this model: every member takes
    it as a parameter. */
module Permissions {
  import opened Common
  import opened Types

  /** One module of the catalog and the ids of its actions. */
  datatype PermissionModule = PermissionModule(id: string, actions: seq<string>)

  /** `PERMISSION_MODULES.flatMap(m => m.actions.map(a => a.id))`: every action id
      of every module, module by module. */
  function AllActions(catalog: seq<PermissionModule>): (r: seq<string>)
    ensures forall a :: a in r <==> exists m :: m in catalog && a in m.actions
  {
    if catalog == [] then []
    else
      var rest := AllActions(catalog[1..]);
      assert forall m :: m in catalog <==> m == catalog[0] || m in catalog[1..];
      catalog[0].actions + rest
  }

  /** `configs.find(p)`: the first configuration satisfying `p`. */
  function FindConfig(configs: seq<RoleConfig>, p: RoleConfig -> bool): (r: Option<RoleConfig>)
    decreases |configs|, 1
    ensures r.None? <==> forall k :: 0 <= k < |configs| ==> !p(configs[k])
    ensures r.Some? ==> exists k :: 0 <= k < |configs| && configs[k] == r.value && p(configs[k])
                                    && forall j :: 0 <= j < k ==> !p(configs[j])
  {
    if configs == [] then None
    else if p(configs[0]) then Some(configs[0])
    else
      FindConfigLater(configs, p);
      FindConfig(configs[1..], p)
  }

  /** A match in the later configurations is a match at one index further on. */
  lemma FindConfigLater(configs: seq<RoleConfig>, p: RoleConfig -> bool)
    requires configs != [] && !p(configs[0])
    ensures var r := FindConfig(configs[1..], p);
            r.Some? ==> exists k :: 0 <= k < |configs| && configs[k] == r.value && p(configs[k])
                                    && forall j :: 0 <= j < k ==> !p(configs[j])
    decreases |configs|, 0
  {
    var r := FindConfig(configs[1..], p);
    if r.Some? {
      var k :| 0 <= k < |configs[1..]| && configs[1..][k] == r.value && p(configs[1..][k])
               && forall j :: 0 <= j < k ==> !p(configs[1..][j]);
      assert configs[k + 1] == r.value;
      forall j | 0 <= j < k + 1 ensures !p(configs[j]) {
        if j > 0 {
          assert configs[j] == configs[1..][j - 1];
        }
      }
    }
  }

  /** Two tests that agree on every configuration find the same one. */
  lemma {:induction false} FindConfigAgrees(configs: seq<RoleConfig>, p: RoleConfig -> bool, q: RoleConfig -> bool)
    requires forall c :: p(c) == q(c)
    ensures FindConfig(configs, p) == FindConfig(configs, q)
  {
    if configs != [] {
      FindConfigAgrees(configs[1..], p, q);
    }
  }

  /** `c.name.toUpperCase() === role.toUpperCase()` */
  predicate NameMatchesUpper(c: RoleConfig, role: UserRole) {
    Upper(c.name) == Upper(role.Name())
  }

  /** `c.name.toLowerCase() === role.toLowerCase()` */
  predicate NameMatchesLower(c: RoleConfig, role: UserRole) {
    Lower(c.name) == Lower(role.Name())
  }

  /** The sidebar folds names to upper case and the settings page to lower case;
      both pick the same stored configuration for a role. */
  lemma UpperAndLowerLookupsAgree(configs: seq<RoleConfig>, role: UserRole)
    ensures FindConfig(configs, (c: RoleConfig) => NameMatchesUpper(c, role))
         == FindConfig(configs, (c: RoleConfig) => NameMatchesLower(c, role))
  {
    forall c: RoleConfig ensures NameMatchesUpper(c, role) == NameMatchesLower(c, role) {
      UpperEqualIffLowerEqual(c.name, role.Name());
    }
    FindConfigAgrees(configs, (c: RoleConfig) => NameMatchesUpper(c, role), (c: RoleConfig) => NameMatchesLower(c, role));
  }
}

=== FILE: psychology_core_edit.dfy ===
/** The core-subject editor: a subject whose topics are a flat list. The form,
    the selected topic and the topic awaiting deletion are component state the
    handlers update in place; saving writes `psychology_core_subjects`. */
module PsychologyCoreEdit {
  import opened Common
  import opened Types
  import LogService

  /** The selection value meaning "the subject's general details". */
  const GENERAL: string := "general"

  /** The form a new core subject starts from. */
  function BlankSubject(): Subject {
    Subject("", "", "", "#1e40af", [], None, "", None)
  }

  /** `addTopic`'s new topic; `stamp` is `Date.now()`. */
  function NewTopic(stamp: string): (t: Topic)
    ensures t.id == "t-" + stamp && t.title == "New Topic" && t.description == ""
  {
    Topic("t-" + stamp, "New Topic", "", None, Absent)
  }

  function IdIsNot(id: string): Topic -> bool {
    (t: Topic) => t.id != id
  }

  /** The topics after `confirmDeleteTopic` removes `id`. */
  function WithoutTopic(ts: seq<Topic>, id: string): (r: seq<Topic>)
    ensures forall t :: t in r <==> t in ts && t.id != id
    ensures IsSubsequence(r, ts)
    ensures forall t :: multiset(r)[t] == if t.id != id then multiset(ts)[t] else 0
  {
    FilterMembers(ts, IdIsNot(id));
    FilterMultiset(ts, IdIsNot(id));
    Filter(ts, IdIsNot(id))
  }

  /** `{ ...t, title }` on the topics with the selected id. */
  function Retitled(ts: seq<Topic>, id: string, title: string): (r: seq<Topic>)
    ensures |r| == |ts|
    ensures forall k :: 0 <= k < |ts| ==>
              r[k] == if ts[k].id == id then ts[k].(title := title) else ts[k]
  {
    if ts == [] then []
    else [if ts[0].id == id then ts[0].(title := title) else ts[0]] + Retitled(ts[1..], id, title)
  }

  class CoreSubjectEditor {
    var subject: Subject
    /** `selectedTopicId`: a topic id or `GENERAL`. */
    var selected: string
    /** `topicToDelete`; empty for none. */
    var topicToDelete: string

    /** The editor opens on the stored subject the route names, if found, else on
        the blank form, with the general details selected. */
    constructor (found: Option<Subject>)
      ensures subject == found.GetOr(BlankSubject())
      ensures selected == GENERAL && topicToDelete == ""
    {
      subject := found.GetOr(BlankSubject());
      selected := GENERAL;
      topicToDelete := "";
    }

    /** `addTopic`: one topic appended at the end of the list, and selected. */
    method AddTopic(stamp: string)
      modifies this
      ensures subject == old(subject).(topics := old(subject.topics) + [NewTopic(stamp)])
      ensures selected == NewTopic(stamp).id
      ensures topicToDelete == old(topicToDelete)
    {
      var t := NewTopic(stamp);
      subject := subject.(topics := subject.topics + [t]);
      selected := t.id;
    }

    /** `updateTopicTitle`: the topics with the selected id get the new title;
        every other topic and every other field stays as it was. */
    method UpdateTopicTitle(title: string)
      modifies this
      ensures subject == old(subject).(topics := Retitled(old(subject.topics), old(selected), title))
      ensures selected == old(selected) && topicToDelete == old(topicToDelete)
    {
      subject := subject.(topics := Retitled(subject.topics, selected, title));
    }

    /** The trash button: remember the topic for the confirmation dialog. */
    method RequestDelete(id: string)
      modifies this
      ensures topicToDelete == id
      ensures subject == old(subject) && selected == old(selected)
    {
      topicToDelete := id;
    }

    /** `confirmDeleteTopic`: with no topic pending nothing happens; otherwise the
        topics with that id leave the list, the rest keep their order, the
        selection falls back to the general details if it was that topic, and
        the pending marker is cleared. */
    method ConfirmDeleteTopic()
      modifies this
      ensures old(topicToDelete) == "" ==>
                subject == old(subject) && selected == old(selected) && topicToDelete == ""
      ensures old(topicToDelete) != "" ==>
                subject == old(subject).(topics := WithoutTopic(old(subject.topics), old(topicToDelete)))
                && selected == (if old(selected) == old(topicToDelete) then GENERAL else old(selected))
                && topicToDelete == ""
    {
      if topicToDelete == "" {
        return;
      }
      subject := subject.(topics := WithoutTopic(subject.topics, topicToDelete));
      if selected == topicToDelete {
        selected := GENERAL;
      }
      topicToDelete := "";
    }
  }

  /** Retitling touches nothing but titles: ids, descriptions, statuses and
      children are kept, and doing it twice is doing it once. */
  lemma RetitleKeepsRest(ts: seq<Topic>, id: string, title: string)
    ensures forall k :: 0 <= k < |ts| ==>
              Retitled(ts, id, title)[k] == ts[k].(title := Retitled(ts, id, title)[k].title)
    ensures Retitled(Retitled(ts, id, title), id, title) == Retitled(ts, id, title)
  {
  }

  /** Deleting a topic just added, under an id no earlier topic has, gives back
      the list from before. */
  lemma AddThenDeleteRestores(ts: seq<Topic>, stamp: string)
    requires forall k :: 0 <= k < |ts| ==> ts[k].id != NewTopic(stamp).id
    ensures WithoutTopic(ts + [NewTopic(stamp)], NewTopic(stamp).id) == ts
  {
    var id := NewTopic(stamp).id;
    FilterAll(ts, IdIsNot(id));
    FilterSnoc(ts, NewTopic(stamp), IdIsNot(id));
  }

  /** What `handleSave` writes, or why it writes nothing. */
  datatype SaveOutcome =
    | Rejected(message: string)
    | Saved(subjects: seq<Subject>, subject: Subject, log: LogService.LogRequest)

  /** The form as `handleSave` saves it: when a topic is selected and the editor
      is mounted (`editorHtml`), that topic takes the editor's HTML as its
      description. */
  function WithEditorContent(form: Subject, selected: string, editorHtml: Option<string>): (s: Subject)
    ensures |s.topics| == |form.topics|
    ensures forall k :: 0 <= k < |form.topics| ==>
              s.topics[k] == if selected != GENERAL && editorHtml.Some? && form.topics[k].id == selected
                             then form.topics[k].(description := editorHtml.value) else form.topics[k]
    ensures s == form.(topics := s.topics)
  {
    if selected != GENERAL && editorHtml.Some? then form.(topics := Redescribed(form.topics, selected, editorHtml.value))
    else form
  }

  /** `{ ...t, description: html }` on the topics with the selected id. */
  function Redescribed(ts: seq<Topic>, id: string, html: string): (r: seq<Topic>)
    ensures |r| == |ts|
    ensures forall k :: 0 <= k < |ts| ==>
              r[k] == if ts[k].id == id then ts[k].(description := html) else ts[k]
  {
    if ts == [] then []
    else [if ts[0].id == id then ts[0].(description := html) else ts[0]] + Redescribed(ts[1..], id, html)
  }

  /** `handleSave`. An unnamed subject is rejected and nothing is written.
      Otherwise, editing (a route id) replaces the stored subjects with that id
      by the form as it stands; creating appends it with id `'s-' + stamp`. The
      stored list reads as empty when absent. */
  function HandleSave(form: Subject, selected: string, editorHtml: Option<string>, routeId: Option<string>,
                      stored: Option<seq<Subject>>, stamp: string): (r: SaveOutcome)
    ensures form.name == [] <==> r.Rejected?
    ensures r.Rejected? ==> r.message == "Subject name is required."
    ensures r.Saved? ==> r.subject.name == form.name && r.subject.description == form.description
                         && r.subject.color == form.color && |r.subject.topics| == |form.topics|
    ensures r.Saved? && routeId.Some? ==>
              r.subject == WithEditorContent(form, selected, editorHtml)
              && |r.subjects| == |stored.GetOr([])|
              && (forall k :: 0 <= k < |r.subjects| ==>
                    r.subjects[k] == if stored.GetOr([])[k].id == routeId.value then r.subject else stored.GetOr([])[k])
              && r.log == LogService.LogRequest("Updated Core Subject", form.name)
    ensures r.Saved? && routeId.None? ==>
              r.subject == WithEditorContent(form, selected, editorHtml).(id := "s-" + stamp)
              && r.subjects == stored.GetOr([]) + [r.subject]
              && r.log == LogService.LogRequest("Created Core Subject", form.name)
  {
    if form.name == [] then Rejected("Subject name is required.")
    else
      var s := WithEditorContent(form, selected, editorHtml);
      var list := stored.GetOr([]);
      match routeId
      case Some(id) =>
        Saved(ReplaceWhere(list, (x: Subject) => x.id == id, s), s, LogService.LogRequest("Updated Core Subject", s.name))
      case None =>
        var created := s.(id := "s-" + stamp);
        Saved(list + [created], created, LogService.LogRequest("Created Core Subject", created.name))
  }
}

=== FILE: role_access.dfy ===
/** The role/permission matrix editor: the list of role configurations and the
    selected role are page state that the handlers update in place. */
module RoleAccess {
  import opened Common
  import opened Types
  import opened Permissions
  import Layout

  /** The permissions the matrix grants Faculty before anything is stored. */
  const FACULTY_DEFAULTS: seq<string> := [
    "view_dashboard",
    "view_subjects", "edit_subjects",
    "view_content", "create_content", "edit_content",
    "view_assessments", "create_assessments", "edit_assessments",
    "view_analytics", "view_student_analytics"]

  /** Faculty's defaults are eleven distinct permissions: the sidebar's Faculty
      fallback plus editing assessments and viewing student analytics. */
  lemma FacultyDefaultsExtendFallback()
    ensures |FACULTY_DEFAULTS| == 11
    ensures forall i, j :: 0 <= i < j < |FACULTY_DEFAULTS| ==> FACULTY_DEFAULTS[i] != FACULTY_DEFAULTS[j]
    ensures forall x :: x in FACULTY_DEFAULTS <==>
              x in Layout.FACULTY_FALLBACK || x == "edit_assessments" || x == "view_student_analytics"
  {
  }

  /** `INITIAL_ROLES`: the three system roles. Admin holds every action of the
      catalog; Faculty holds the defaults above; Student may view the dashboard
      and analytics. */
  function InitialRoles(catalog: seq<PermissionModule>): (r: seq<RoleConfig>)
    ensures |r| == 3 && forall k :: 0 <= k < 3 ==> r[k].isSystem
    ensures r[0].name == "Admin" && forall a :: a in r[0].permissions <==> exists m :: m in catalog && a in m.actions
    ensures r[1].name == "Faculty" && r[1].permissions == FACULTY_DEFAULTS
    ensures r[2] == RoleConfig("Student", ["view_dashboard", "view_analytics"], true)
  {
    [RoleConfig("Admin", AllActions(catalog), true),
     RoleConfig("Faculty", FACULTY_DEFAULTS, true),
     RoleConfig("Student", ["view_dashboard", "view_analytics"], true)]
  }

  /** `togglePermission`'s new list: every occurrence removed when present,
      appended at the end when absent. */
  function Toggled(perms: seq<string>, p: string): (r: seq<string>)
    ensures p in perms ==> p !in r
    ensures p !in perms ==> r == perms + [p]
    ensures forall x :: x != p ==> (x in r <==> x in perms)
    ensures p in perms ==> IsSubsequence(r, perms)
    ensures p in perms ==> forall x :: multiset(r)[x] == if x == p then 0 else multiset(perms)[x]
  {
    FilterMembers(perms, (q: string) => q != p);
    FilterMultiset(perms, (q: string) => q != p);
    if p in perms then Filter(perms, (q: string) => q != p) else perms + [p]
  }

  /** Toggling the same permission twice gives back the same permissions (the
      removed one may come back at a different position). */
  lemma ToggleTwice(perms: seq<string>, p: string)
    ensures forall x :: x in Toggled(Toggled(perms, p), p) <==> x in perms
  {
  }

  /** The module switch turned on: the module's actions the role lacks are
      appended, in module order. */
  function EnableModule(perms: seq<string>, actions: seq<string>): (r: seq<string>)
    ensures |r| >= |perms| && r[..|perms|] == perms
    ensures forall x :: x in r <==> x in perms || x in actions
    ensures IsSubsequence(r[|perms|..], actions)
    ensures forall x :: multiset(r[|perms|..])[x] == if x in perms then 0 else multiset(actions)[x]
    ensures NoDuplicates(perms) && NoDuplicates(actions) ==> NoDuplicates(r)
  {
    var missing := Filter(actions, (a: string) => a !in perms);
    FilterMembers(actions, (a: string) => a !in perms);
    FilterMultiset(actions, (a: string) => a !in perms);
    assert (perms + missing)[|perms|..] == missing;
    assert multiset(perms + missing) == multiset(perms) + multiset(missing);
    perms + missing
  }

  /** The module switch turned off: every action of the module is removed, the
      other permissions keep their order. */
  function DisableModule(perms: seq<string>, actions: seq<string>): (r: seq<string>)
    ensures forall x :: x in r <==> x in perms && x !in actions
    ensures IsSubsequence(r, perms)
    ensures forall x :: multiset(r)[x] == if x in actions then 0 else multiset(perms)[x]
  {
    FilterMembers(perms, (p: string) => p !in actions);
    FilterMultiset(perms, (p: string) => p !in actions);
    Filter(perms, (p: string) => p !in actions)
  }

  /** Turning a module on twice is turning it on once. */
  lemma EnableIdempotent(perms: seq<string>, actions: seq<string>)
    ensures EnableModule(EnableModule(perms, actions), actions) == EnableModule(perms, actions)
  {
    var once := EnableModule(perms, actions);
    FilterNone(actions, (a: string) => a !in once);
    assert once + [] == once;
  }

  /** Turning a module off twice is turning it off once. */
  lemma DisableIdempotent(perms: seq<string>, actions: seq<string>)
    ensures DisableModule(DisableModule(perms, actions), actions) == DisableModule(perms, actions)
  {
    var once := DisableModule(perms, actions);
    FilterAll(once, (p: string) => p !in actions);
  }

  /** The name the add and rename dialogs accept, or none when it is blank. */
  function RoleName(input: string): (r: Option<string>)
    ensures r.None? <==> Trim(input) == []
    ensures r.Some? ==> r.value == Trim(input)
  {
    if Trim(input) == [] then None else Some(Trim(input))
  }

  class RoleMatrix {
    var roles: seq<RoleConfig>
    /** `selectedRoleIndex` */
    var selected: nat
    /** The index awaiting delete confirmation, if any. */
    var roleToDelete: Option<nat>

    /** The selection names a role, or is 0 when no role is left. */
    ghost predicate Valid()
      reads this
    {
      selected < |roles| || (roles == [] && selected == 0)
    }

    /** The page opens on the stored configurations, if any, else on the three
        system roles, with the first role selected. */
    constructor (stored: Option<seq<RoleConfig>>, catalog: seq<PermissionModule>)
      ensures roles == stored.GetOr(InitialRoles(catalog))
      ensures selected == 0 && roleToDelete.None?
      ensures Valid()
    {
      roles := stored.GetOr(InitialRoles(catalog));
      selected := 0;
      roleToDelete := None;
    }

    /** `togglePermission`: only the selected role changes, and only in whether
        it holds that permission. */
    method TogglePermission(permId: string)
      requires Valid() && roles != []
      modifies this
      ensures roles == old(roles)[old(selected) := old(roles[selected]).(permissions := Toggled(old(roles[selected].permissions), permId))]
      ensures selected == old(selected) && roleToDelete == old(roleToDelete)
      ensures Valid()
    {
      var role := roles[selected];
      roles := roles[selected := role.(permissions := Toggled(role.permissions, permId))];
    }

    /** `toggleModulePermissions`: the selected role's permissions with the
        module's actions added or removed. */
    method ToggleModulePermissions(actions: seq<string>, shouldEnable: bool)
      requires Valid() && roles != []
      modifies this
      ensures var ps := old(roles[selected].permissions);
              roles == old(roles)[old(selected) := old(roles[selected]).(permissions :=
                         if shouldEnable then EnableModule(ps, actions) else DisableModule(ps, actions))]
      ensures selected == old(selected) && roleToDelete == old(roleToDelete)
      ensures Valid()
    {
      var role := roles[selected];
      var ps := if shouldEnable then EnableModule(role.permissions, actions) else DisableModule(role.permissions, actions);
      roles := roles[selected := role.(permissions := ps)];
    }

    /** `handleAddRole`: a blank name changes nothing; otherwise a custom role
        with that trimmed name and no permissions is appended and selected. */
    method AddRole(newRoleName: string)
      requires Valid()
      modifies this
      ensures RoleName(newRoleName).None? ==> roles == old(roles) && selected == old(selected)
      ensures RoleName(newRoleName).Some? ==>
                roles == old(roles) + [RoleConfig(Trim(newRoleName), [], false)] && selected == |roles| - 1
      ensures roleToDelete == old(roleToDelete)
      ensures Valid()
    {
      if Trim(newRoleName) == [] {
        return;
      }
      roles := roles + [RoleConfig(Trim(newRoleName), [], false)];
      selected := |roles| - 1;
    }

    /** `handleRenameRole`: a blank name changes nothing; otherwise the selected
        role takes the trimmed name and keeps its permissions. */
    method RenameRole(renameRoleName: string)
      requires Valid() && roles != []
      modifies this
      ensures RoleName(renameRoleName).None? ==> roles == old(roles)
      ensures RoleName(renameRoleName).Some? ==>
                roles == old(roles)[old(selected) := old(roles[selected]).(name := Trim(renameRoleName))]
      ensures selected == old(selected) && roleToDelete == old(roleToDelete)
      ensures Valid()
    {
      if Trim(renameRoleName) == [] {
        return;
      }
      roles := roles[selected := roles[selected].(name := Trim(renameRoleName))];
    }

    /** Opening the delete dialog for a role. */
    method RequestDelete(index: nat)
      modifies this
      ensures roleToDelete == Some(index)
      ensures roles == old(roles) && selected == old(selected)
    {
      roleToDelete := Some(index);
    }

    /** `handleDeleteRole`: the role at that index is removed; the selection
        moves to the first role when it was the deleted one, one place up when
        it was after it, and stays otherwise. */
    method DeleteRole()
      requires Valid()
      modifies this
      ensures old(roleToDelete).None? ==> roles == old(roles) && selected == old(selected)
      ensures old(roleToDelete).Some? ==> roles == RemoveAt(old(roles), old(roleToDelete).value)
      ensures old(roleToDelete).Some? ==>
                selected == SelectionAfterDelete(old(selected), old(roleToDelete).value)
      ensures roleToDelete.None?
      ensures Valid()
    {
      if roleToDelete.None? {
        return;
      }
      var gone := roleToDelete.value;
      roles := RemoveAt(roles, gone);
      if selected == gone {
        selected := 0;
      } else if selected > gone {
        selected := selected - 1;
      }
      roleToDelete := None;
    }
  }

  /** `roles.filter((_, idx) => idx !== i)`: every role except the one at `i`, in
      order (all of them when `i` is past the end). */
  function RemoveAt(rs: seq<RoleConfig>, i: nat): (r: seq<RoleConfig>)
    ensures i < |rs| ==> |r| == |rs| - 1
    ensures i >= |rs| ==> r == rs
    ensures forall k :: 0 <= k < |r| ==> r[k] == if k < i then rs[k] else rs[k + 1]
  {
    if i < |rs| then rs[..i] + rs[i + 1..] else rs
  }

  /** The selection after removing index `gone`. */
  function SelectionAfterDelete(selected: nat, gone: nat): (s: nat)
    ensures selected == gone ==> s == 0
    ensures selected > gone ==> s == selected - 1
    ensures selected < gone ==> s == selected
  {
    if selected == gone then 0 else if selected > gone then selected - 1 else selected
  }

  /** Deleting another role keeps the same role selected. */
  lemma DeleteKeepsSelectedRole(rs: seq<RoleConfig>, selected: nat, gone: nat)
    requires selected < |rs| && gone < |rs| && selected != gone
    ensures RemoveAt(rs, gone)[SelectionAfterDelete(selected, gone)] == rs[selected]
  {
  }
}

=== FILE: security_logs.dfy ===
/** The security log page: a case-insensitive search over the activity log and
    its pages. */
module SecurityLogs {
  import opened Common
  import opened Types

  /** A log matches when the actor's name or the action contains the term,
      ignoring case. */
  predicate Matches(log: ActivityLog, term: string) {
    ContainsIgnoreCase(log.userName, term) || ContainsIgnoreCase(log.action, term)
  }

  /** `filteredLogs`: the matching logs in their order; an empty term keeps
      them all. */
  function Search(logs: seq<ActivityLog>, term: string): (r: seq<ActivityLog>)
    ensures forall l :: l in r <==> l in logs && Matches(l, term)
    ensures IsSubsequence(r, logs)
    ensures term == [] ==> r == logs
    ensures forall l :: multiset(r)[l] == if Matches(l, term) then multiset(logs)[l] else 0
  {
    FilterMembers(logs, (l: ActivityLog) => Matches(l, term));
    FilterMultiset(logs, (l: ActivityLog) => Matches(l, term));
    EmptyTermMatchesAll(logs, term);
    Filter(logs, (l: ActivityLog) => Matches(l, term))
  }

  lemma EmptyTermMatchesAll(logs: seq<ActivityLog>, term: string)
    ensures term == [] ==> Filter(logs, (l: ActivityLog) => Matches(l, term)) == logs
  {
    if term == [] {
      forall k | 0 <= k < |logs| ensures Matches(logs[k], term) {
        ContainsEmpty(Lower(logs[k].userName));
      }
      FilterAll(logs, (l: ActivityLog) => Matches(l, term));
    }
  }

  /** `totalPages = Math.ceil(filtered / pageSize)`: enough pages for every match,
      not one more, and none when nothing matches. */
  function TotalPages(logs: seq<ActivityLog>, term: string, pageSize: nat): (n: nat)
    requires pageSize > 0
    ensures n * pageSize >= |Search(logs, term)|
    ensures n == 0 || (n - 1) * pageSize < |Search(logs, term)|
    ensures n == 0 <==> Search(logs, term) == []
  {
    PageCount(|Search(logs, term)|, pageSize)
  }

  /** `paginatedLogs`: page `page` of the matching logs, so at most `pageSize`
      of them. */
  function Paginated(logs: seq<ActivityLog>, term: string, page: nat, pageSize: nat): (r: seq<ActivityLog>)
    requires page >= 1 && pageSize > 0
    ensures |r| <= pageSize
    ensures forall l :: l in r ==> l in logs && Matches(l, term)
    ensures PageOf(r, Search(logs, term), page, pageSize)
  {
    var s := Search(logs, term);
    PageMembers(s, page, pageSize);
    Page(s, page, pageSize)
  }
}

=== FILE: settings.dfy ===
/** The settings page: the permissions it loads for the signed-in role, saving
    the user's preferences and the institutional settings, and the backup export
    and restore over browser storage. */
module Settings {
  import opened Common
  import opened Types
  import opened Permissions
  import LogService

  /** The ADMIN fallback when no role configuration is stored. */
  const ADMIN_FALLBACK: seq<string> := ["view_dashboard", "system_settings", "manage_backup", "manage_curriculum", "view_users"]

  /** The permission-loading part of the load effect: a stored configuration
      whose name equals the role's up to case is used as is; stored
      configurations without such a match, and a non-admin role with nothing
      stored, leave `current` (empty on first render) as it was. */
  function LoadPermissions(current: seq<string>, stored: Option<seq<RoleConfig>>, role: UserRole): (r: seq<string>)
    ensures stored.Some? ==>
              match FindConfig(stored.value, (c: RoleConfig) => NameMatchesLower(c, role))
              case Some(c) => r == c.permissions
              case None => r == current
    ensures stored.None? && role == Admin ==> r == ADMIN_FALLBACK
    ensures stored.None? && role != Admin ==> r == current
  {
    match stored
    case Some(configs) =>
      (match FindConfig(configs, (c: RoleConfig) => NameMatchesLower(c, role))
       case Some(c) => c.permissions
       case None => current)
    case None => if role == Admin then ADMIN_FALLBACK else current
  }

  /** The user-refresh part of the load effect: the first stored record with
      the session user's id (`users.find`), if any, else the session record. */
  function RefreshUser(session: User, stored: Option<seq<User>>): (r: User)
    ensures r.id == session.id
    ensures stored.None? ==> r == session
    ensures stored.Some? && (forall k :: 0 <= k < |stored.value| ==> stored.value[k].id != session.id) ==> r == session
    ensures stored.Some? && (exists k :: 0 <= k < |stored.value| && stored.value[k].id == session.id) ==>
              exists k :: 0 <= k < |stored.value| && stored.value[k] == r
                          && forall j :: 0 <= j < k ==> stored.value[j].id != session.id
  {
    match stored
    case None => session
    case Some(users) =>
      match FirstWhere(users, (u: User) => u.id == session.id)
      case Some(u) => u
      case None => session
  }

  /** `handleSavePreferences`: with a stored user list, the users with the edited
      user's id are replaced by it and it becomes the session record; the change
      is logged in any case. */
  function SavePreferences(stored: Option<seq<User>>, userState: User)
    : (r: (Option<seq<User>>, Option<User>, LogService.LogRequest))
    ensures r.0.None? <==> stored.None?
    ensures r.1.None? <==> stored.None?
    ensures r.0.Some? ==> |r.0.value| == |stored.value| && forall k :: 0 <= k < |stored.value| ==>
              r.0.value[k] == if stored.value[k].id == userState.id then userState else stored.value[k]
    ensures r.1.Some? ==> r.1.value == userState
    ensures r.2 == LogService.LogRequest("Updated Settings", "User Preferences")
  {
    var log := LogService.LogRequest("Updated Settings", "User Preferences");
    match stored
    case None => (None, None, log)
    case Some(users) => (Some(ReplaceWhere(users, (u: User) => u.id == userState.id, userState)), Some(userState), log)
  }

  // ---------------------------------------------------------------------------
  // Storage, export and restore

  /** A value of the parsed backup file. Text is stored verbatim; anything else
      structured is stored as its serialisation, which is given. */
  datatype BackupValue = Null | Text(s: string) | Structured(json: string)

  /** The backup's top-level fields. */
  type Backup = map<string, BackupValue>

  /** `requiredKeys` */
  const REQUIRED_KEYS: seq<string> := ["users", "content", "assessments", "subjects", "whitelist"]

  /** The storage key each backup field is restored to, in restore order. */
  const RESTORE_ORDER: seq<(string, string)> := [
    ("registered_users", "users"),
    ("system_content", "content"),
    ("system_assessments", "assessments"),
    ("psychology_core_subjects", "subjects"),
    ("whitelist_entries", "whitelist"),
    ("global_system_settings", "global_settings")]

  /** `missingKeys`: the required fields the backup lacks, in the required order. */
  function MissingKeys(backup: Backup): (r: seq<string>)
    ensures forall k :: k in r <==> k in REQUIRED_KEYS && k !in backup
    ensures IsSubsequence(r, REQUIRED_KEYS)
  {
    FilterMembers(REQUIRED_KEYS, (k: string) => k !in backup);
    Filter(REQUIRED_KEYS, (k: string) => k !in backup)
  }

  /** What `saveToStorage(key, data)` leaves in storage: nothing changes for an
      absent or null value; text is stored as is; anything else serialised. */
  function AfterSave(items: map<string, string>, key: string, data: Option<BackupValue>): (r: map<string, string>)
    ensures data.None? || data == Some(Null) ==> r == items
    ensures data.Some? && data.value.Text? ==> r == items[key := data.value.s]
    ensures data.Some? && data.value.Structured? ==> r == items[key := data.value.json]
  {
    match data
    case None => items
    case Some(Null) => items
    case Some(Text(s)) => items[key := s]
    case Some(Structured(j)) => items[key := j]
  }

  function Field(backup: Backup, name: string): Option<BackupValue> {
    if name in backup then Some(backup[name]) else None
  }

  /** Storage after restoring each (storage key, field) pair in order. */
  function Restored(items: map<string, string>, backup: Backup, pairs: seq<(string, string)>): (r: map<string, string>)
    ensures forall key :: (forall k :: 0 <= k < |pairs| ==> pairs[k].0 != key) ==>
              (key in r <==> key in items) && (key in items ==> r[key] == items[key])
    decreases |pairs|
  {
    if pairs == [] then items
    else Restored(AfterSave(items, pairs[0].0, Field(backup, pairs[0].1)), backup, pairs[1..])
  }

  /** The value a restore leaves under the storage key of pair `k`, when no later
      pair writes the same key: the field's text or serialisation, or the old
      value when the field is absent or null. */
  lemma {:induction false} RestoredKey(items: map<string, string>, backup: Backup, pairs: seq<(string, string)>, k: nat)
    requires k < |pairs|
    requires forall j :: k < j < |pairs| ==> pairs[j].0 != pairs[k].0
    ensures var key := pairs[k].0;
            var before := Restored(items, backup, pairs[..k]);
            Restored(items, backup, pairs) == Restored(AfterSave(before, key, Field(backup, pairs[k].1)), backup, pairs[k + 1..])
            && match Field(backup, pairs[k].1)
               case Some(Text(s)) => key in Restored(items, backup, pairs) && Restored(items, backup, pairs)[key] == s
               case Some(Structured(j)) => key in Restored(items, backup, pairs) && Restored(items, backup, pairs)[key] == j
               case _ => (key in Restored(items, backup, pairs) <==> key in before)
                         && (key in before ==> Restored(items, backup, pairs)[key] == before[key])
    decreases k
  {
    if k == 0 {
      assert pairs[..0] == [];
      assert pairs[1..] == pairs[k + 1..];
    } else {
      var items1 := AfterSave(items, pairs[0].0, Field(backup, pairs[0].1));
      RestoredKey(items1, backup, pairs[1..], k - 1);
      assert pairs[1..][..k - 1] == pairs[..k][1..];
      assert pairs[1..][k - 1 + 1..] == pairs[k + 1..];
      forall j | k - 1 < j < |pairs[1..]| ensures pairs[1..][j].0 != pairs[1..][k - 1].0 {
        assert pairs[1..][j] == pairs[j + 1];
      }
    }
  }

  datatype ImportOutcome =
    | AccessDenied
    | InvalidBackup(message: string)
    | Imported(session: Option<User>, log: LogService.LogRequest)

  /** JavaScript truthiness of a backup value. */
  predicate Truthy(v: BackupValue) {
    match v
    case Null => false
    case Text(s) => s != []
    case Structured(_) => true
  }

  function MissingMessage(missing: seq<string>): string {
    "Invalid backup format. Missing keys: " + Join(missing)
  }

  /** `missingKeys.join(', ')` */
  function Join(xs: seq<string>): string {
    if xs == [] then [] else if |xs| == 1 then xs[0] else xs[0] + ", " + Join(xs[1..])
  }

  /** `users.find(u => u.email === email)`: the first user with exactly that
      e-mail. */
  function FirstByEmail(users: seq<User>, email: string): (r: Option<User>)
    ensures r.None? <==> forall k :: 0 <= k < |users| ==> users[k].email != email
    ensures r.Some? ==> exists k :: 0 <= k < |users| && users[k] == r.value && r.value.email == email
                                    && forall j :: 0 <= j < k ==> users[j].email != email
  {
    FirstWhere(users, (u: User) => u.email == email)
  }

  /** The six storage keys a backup holds. */
  const EXPORT_KEYS: seq<string> := ["registered_users", "system_content", "system_assessments",
                                     "psychology_core_subjects", "whitelist_entries", "global_system_settings"]

  class BrowserStorage {
    /** `localStorage`: key to stored text. */
    var items: map<string, string>

    constructor (initial: map<string, string>)
      ensures items == initial
    {
      items := initial;
    }

    /** `exportData`: refused without `manage_backup`; otherwise the stored text
        under each backed-up key, where an absent key and an empty text both
        read as nothing (`data ? JSON.parse(data) : null`). Nothing changes. */
    function ExportData(perms: seq<string>): (r: Option<seq<Option<string>>>)
      reads this
      ensures r.None? <==> "manage_backup" !in perms
      ensures r.Some? ==> |r.value| == |EXPORT_KEYS| && forall k :: 0 <= k < |EXPORT_KEYS| ==>
                r.value[k] == if EXPORT_KEYS[k] in items && items[EXPORT_KEYS[k]] != [] then Some(items[EXPORT_KEYS[k]]) else None
      ensures r.Some? ==> forall k :: 0 <= k < |EXPORT_KEYS| ==> r.value[k] != Some([])
    {
      if "manage_backup" !in perms then None
      else Some(seq(|EXPORT_KEYS|, k requires 0 <= k < |EXPORT_KEYS| reads this =>
                      if EXPORT_KEYS[k] in items && items[EXPORT_KEYS[k]] != [] then Some(items[EXPORT_KEYS[k]]) else None))
    }

    /** `saveToStorage(key, data)` */
    method SaveToStorage(key: string, data: Option<BackupValue>)
      modifies this
      ensures items == AfterSave(old(items), key, data)
    {
      match data {
        case None =>
        case Some(Null) =>
        case Some(Text(s)) => items := items[key := s];
        case Some(Structured(j)) => items := items[key := j];
      }
    }

    /** `handleSaveGlobal`: without `system_settings` nothing happens; otherwise
        the institutional settings are stored and the change logged. */
    method SaveGlobal(perms: seq<string>, settingsJson: string) returns (log: Option<LogService.LogRequest>)
      modifies this
      ensures "system_settings" !in perms ==> items == old(items) && log.None?
      ensures "system_settings" in perms ==>
                items == old(items)["global_system_settings" := settingsJson]
                && log == Some(LogService.LogRequest("Modified Global Settings", "System Controls"))
    {
      if "system_settings" !in perms {
        return None;
      }
      items := items["global_system_settings" := settingsJson];
      log := Some(LogService.LogRequest("Modified Global Settings", "System Controls"));
    }

    /** `importData` once the file is parsed into `backup` (`users` is the parse
        of its `users` field; `encode` serialises a user record). Refused without
        `manage_backup`, and rejected before any write when a required field is
        missing. Otherwise the six fields are restored in order, and the session
        is rebound to the imported user with the session's e-mail when there is
        one; the restore is logged. */
    method ImportData(perms: seq<string>, backup: Backup, users: seq<User>, session: User, encode: User -> string)
      returns (r: ImportOutcome)
      modifies this
      ensures "manage_backup" !in perms ==> r == AccessDenied && items == old(items)
      ensures "manage_backup" in perms && MissingKeys(backup) != [] ==>
                r == InvalidBackup(MissingMessage(MissingKeys(backup))) && items == old(items)
      ensures r.Imported? <==> "manage_backup" in perms && MissingKeys(backup) == []
      ensures r.Imported? ==>
                var restored := Restored(old(items), backup, RESTORE_ORDER);
                var rebind := if Truthy(backup["users"]) then FirstByEmail(users, session.email) else None;
                r.session == rebind
                && items == (if rebind.Some? then restored["mastery_user" := encode(rebind.value)] else restored)
                && r.log == LogService.LogRequest("System Restore", "Institutional Data Import (Atomic)")
    {
      if "manage_backup" !in perms {
        return AccessDenied;
      }
      var missing := MissingKeys(backup);
      if missing != [] {
        return InvalidBackup(MissingMessage(missing));
      }
      ghost var start := items;
      SaveToStorage("registered_users", Field(backup, "users"));
      SaveToStorage("system_content", Field(backup, "content"));
      SaveToStorage("system_assessments", Field(backup, "assessments"));
      SaveToStorage("psychology_core_subjects", Field(backup, "subjects"));
      SaveToStorage("whitelist_entries", Field(backup, "whitelist"));
      SaveToStorage("global_system_settings", Field(backup, "global_settings"));
      RestoreUnrolled(start, backup);
      assert "users" in backup by {
        assert "users" in REQUIRED_KEYS;
      }
      var rebind: Option<User> := None;
      if Truthy(backup["users"]) {
        rebind := FirstByEmail(users, session.email);
        if rebind.Some? {
          items := items["mastery_user" := encode(rebind.value)];
        }
      }
      r := Imported(rebind, LogService.LogRequest("System Restore", "Institutional Data Import (Atomic)"));
    }
  }

  /** The restore order written out as six saves. */
  lemma RestoreUnrolled(items: map<string, string>, backup: Backup)
    ensures Restored(items, backup, RESTORE_ORDER)
         == AfterSave(AfterSave(AfterSave(AfterSave(AfterSave(AfterSave(items,
              "registered_users", Field(backup, "users")),
              "system_content", Field(backup, "content")),
              "system_assessments", Field(backup, "assessments")),
              "psychology_core_subjects", Field(backup, "subjects")),
              "whitelist_entries", Field(backup, "whitelist")),
              "global_system_settings", Field(backup, "global_settings"))
  {
    var p := RESTORE_ORDER;
    assert p[1..][1..][1..][1..][1..][1..] == [];
  }

  /** Every restored key is written by one field only. */
  lemma RestoreKeysDistinct()
    ensures forall i, j :: 0 <= i < j < |RESTORE_ORDER| ==> RESTORE_ORDER[i].0 != RESTORE_ORDER[j].0
    ensures forall k :: 0 <= k < |RESTORE_ORDER| ==> RESTORE_ORDER[k].0 == EXPORT_KEYS[k]
  {
    var p := RESTORE_ORDER;
    assert p[0].0[0] == 'r' && p[3].0[0] == 'p' && p[4].0[0] == 'w' && p[5].0[0] == 'g';
    assert p[1].0[7] == 'c' && p[2].0[7] == 'a';
  }

  /** A restore overwrites every restored key whose field holds text with that
      text. */
  lemma RestoreWritesText(items: map<string, string>, backup: Backup, k: nat)
    requires k < |RESTORE_ORDER| && RESTORE_ORDER[k].1 in backup && backup[RESTORE_ORDER[k].1].Text?
    ensures var r := Restored(items, backup, RESTORE_ORDER);
            RESTORE_ORDER[k].0 in r && r[RESTORE_ORDER[k].0] == backup[RESTORE_ORDER[k].1].s
  {
    RestoreKeysDistinct();
    RestoredKey(items, backup, RESTORE_ORDER, k);
  }

  /** A restore leaves every key outside the backup (the session, the logs, the
      role configurations) untouched. */
  lemma RestoreLeavesOthers(items: map<string, string>, backup: Backup, key: string)
    requires key !in EXPORT_KEYS
    ensures var r := Restored(items, backup, RESTORE_ORDER);
            (key in r <==> key in items) && (key in items ==> r[key] == items[key])
  {
    RestoreKeysDistinct();
    forall k | 0 <= k < |RESTORE_ORDER| ensures RESTORE_ORDER[k].0 != key {
      assert EXPORT_KEYS[k] in EXPORT_KEYS;
    }
  }
}

=== FILE: subject_edit.dfy ===
/** The subject editor: the subject form and the selected topic are component
    state that the handlers update in place; saving writes the subject list
    under `psychology_core_subjects`. */
module SubjectEdit {
  import opened Common
  import opened Types
  import opened TopicTree
  import LogService

  /** The selection value meaning "subject metadata" rather than a topic. */
  const METADATA: string := "metadata"

  /** The form a new subject starts from. */
  function BlankSubject(): Subject {
    Subject("", "", "", "#1e40af", [], None, "", None)
  }

  /** `handleAddModule`'s new top-level module; `stamp` is `Date.now()`. */
  function NewModule(stamp: string): (t: Topic)
    ensures t.id == "t-" + stamp && t.title == "Untitled Module"
    ensures t.status == Some(Draft) && Kids(t) == [] && t.subTopics.Present?
  {
    Topic("t-" + stamp, "Untitled Module", "", Some(Draft), Present([]))
  }

  /** `handleAddSubTopic`'s new child. */
  function NewSubTopic(stamp: string): (t: Topic)
    ensures t.id == "t-" + stamp && t.title == "New Sub-Topic"
    ensures t.status == Some(Draft) && Kids(t) == [] && t.subTopics.Present?
  {
    Topic("t-" + stamp, "New Sub-Topic", "", Some(Draft), Present([]))
  }

  /** The update `handleAddSubTopic` applies to the parent: the children of the
      first node with the parent id (none when there is no such node) followed by
      the new child. */
  function SubTopicPatch(ts: seq<Topic>, parentId: string, child: Topic): TopicPatch {
    var siblings := match FirstWithId(Nodes(ts), parentId) case Some(p) => Kids(p) case None => [];
    TopicPatch(None, None, None, Some(siblings + [child]))
  }

  function StatusPatch(s: ContentStatus): TopicPatch {
    TopicPatch(None, None, Some(s), None)
  }

  class SubjectEditor {
    var subject: Subject
    /** `selectedTopicId`: a topic id, `METADATA`, or empty for none. */
    var selected: string
    /** The topic awaiting delete confirmation; empty for none. */
    var topicToDelete: string

    /** The editor opens on the stored subject the route names, if found, else on
        a blank form, with the metadata panel selected. */
    constructor (found: Option<Subject>)
      ensures subject == found.GetOr(BlankSubject())
      ensures selected == METADATA && topicToDelete == ""
    {
      subject := found.GetOr(BlankSubject());
      selected := METADATA;
      topicToDelete := "";
    }

    /** `handleAddModule`: one DRAFT module appended at the end of the top level,
        and selected. */
    method AddModule(stamp: string)
      modifies this
      ensures subject == old(subject).(topics := old(subject.topics) + [NewModule(stamp)])
      ensures selected == "t-" + stamp
      ensures topicToDelete == old(topicToDelete)
    {
      var m := NewModule(stamp);
      subject := subject.(topics := subject.topics + [m]);
      selected := m.id;
    }

    /** `handleAddSubTopic`: the parent, looked up with `findTopic`, gets its
        children plus one new DRAFT child; the child is selected. */
    method AddSubTopic(parentId: string, stamp: string)
      modifies this
      ensures subject == old(subject).(topics :=
                UpdateNode(old(subject.topics), parentId, SubTopicPatch(old(subject.topics), parentId, NewSubTopic(stamp))))
      ensures selected == "t-" + stamp
      ensures topicToDelete == old(topicToDelete)
    {
      var child := NewSubTopic(stamp);
      var parent := FindTopic(subject.topics, parentId);
      var siblings := match parent case Some(p) => Kids(p) case None => [];
      subject := subject.(topics := UpdateNode(subject.topics, parentId, TopicPatch(None, None, None, Some(siblings + [child]))));
      selected := child.id;
    }

    /** `handleUpdateTopic`: with no topic selected (nothing, or the metadata
        panel) nothing changes; otherwise the selected topic gets the patch. */
    method UpdateTopic(p: TopicPatch)
      modifies this
      ensures old(selected) == "" || old(selected) == METADATA ==> subject == old(subject)
      ensures old(selected) != "" && old(selected) != METADATA ==>
                subject == old(subject).(topics := UpdateNode(old(subject.topics), old(selected), p))
      ensures selected == old(selected) && topicToDelete == old(topicToDelete)
    {
      if selected == "" || selected == METADATA {
        return;
      }
      subject := subject.(topics := UpdateNode(subject.topics, selected, p));
    }

    /** `handleDeleteTopic`: remember the topic for the confirmation dialog. */
    method RequestDelete(id: string)
      modifies this
      ensures topicToDelete == id
      ensures subject == old(subject) && selected == old(selected)
    {
      topicToDelete := id;
    }

    /** `confirmDeleteTopic`: the topic is only marked REMOVAL_PENDING (it stays
        in the tree with its subtree); if it was selected the metadata panel is
        selected instead; the pending marker is cleared. */
    method ConfirmDeleteTopic()
      modifies this
      ensures old(topicToDelete) == "" ==> subject == old(subject) && selected == old(selected)
      ensures old(topicToDelete) != "" ==>
                subject == old(subject).(topics := UpdateNode(old(subject.topics), old(topicToDelete), StatusPatch(RemovalPending)))
      ensures old(topicToDelete) != "" ==>
                selected == if old(selected) == old(topicToDelete) then METADATA else old(selected)
      ensures topicToDelete == ""
    {
      if topicToDelete == "" {
        return;
      }
      subject := subject.(topics := UpdateNode(subject.topics, topicToDelete, StatusPatch(RemovalPending)));
      if selected == topicToDelete {
        selected := METADATA;
      }
      topicToDelete := "";
    }

    /** `handleRestoreTopic`: the topic is set back to DRAFT. */
    method RestoreTopic(id: string)
      modifies this
      ensures subject == old(subject).(topics := UpdateNode(old(subject.topics), id, StatusPatch(Draft)))
      ensures selected == old(selected) && topicToDelete == old(topicToDelete)
    {
      subject := subject.(topics := UpdateNode(subject.topics, id, StatusPatch(Draft)));
    }
  }

  /** Appending a module adds exactly that one node at the end of the pre-order
      listing; nothing already in the tree moves. */
  lemma AddModuleAppendsOne(ts: seq<Topic>, stamp: string)
    ensures Nodes(ts + [NewModule(stamp)]) == Nodes(ts) + [NewModule(stamp)]
  {
    NodesAppend(ts, [NewModule(stamp)]);
    NodesLeaf(NewModule(stamp));
  }

  /** Adding a sub-topic under a parent id that occurs exactly once inserts one
      node into the tree, leaves every other node as it was, and the parent is
      then found with the new DRAFT child at the end of its children. Under an
      id that occurs nowhere the tree is unchanged. */
  lemma AddSubTopicInsertsOne(ts: seq<Topic>, parentId: string, stamp: string)
    ensures CountId(Nodes(ts), parentId) == 0 ==>
              UpdateNode(ts, parentId, SubTopicPatch(ts, parentId, NewSubTopic(stamp))) == ts
    ensures CountId(Nodes(ts), parentId) == 1 ==>
              var parent := FirstWithId(Nodes(ts), parentId).value;
              var after := UpdateNode(ts, parentId, SubTopicPatch(ts, parentId, NewSubTopic(stamp)));
              |Nodes(after)| == |Nodes(ts)| + 1
              && multiset(Heads(Nodes(after))) == multiset(Heads(Nodes(ts))) + multiset{Head(NewSubTopic(stamp))}
              && FirstWithId(Nodes(after), parentId) == Some(parent.(subTopics := Present(Kids(parent) + [NewSubTopic(stamp)])))
  {
    var p := SubTopicPatch(ts, parentId, NewSubTopic(stamp));
    if CountId(Nodes(ts), parentId) == 0 {
      UpdateMissing(ts, parentId, p);
    }
    if CountId(Nodes(ts), parentId) == 1 {
      var parent := FirstWithId(Nodes(ts), parentId).value;
      assert p == AddChildPatch(parent, NewSubTopic(stamp));
      AddChildInsertsOne(ts, parent, NewSubTopic(stamp));
      UpdateThenFind(ts, parentId, p);
    }
  }

  /** Marking for removal and restoring change a status and nothing else: every
      node stays in place with its subtree, only nodes with that id may get the
      new status, and the topic found under the id afterwards is the one found
      before with the new status. */
  lemma {:induction false} StatusChangeOnly(ts: seq<Topic>, id: string, s: ContentStatus)
    ensures var after := Nodes(UpdateNode(ts, id, StatusPatch(s)));
            |after| == |Nodes(ts)|
            && (forall k :: 0 <= k < |after| ==>
                  after[k].id == Nodes(ts)[k].id
                  && (Head(after[k]) == Head(Nodes(ts)[k])
                      || Head(after[k]) == Head(Nodes(ts)[k]).(status := Some(s))))
            && FirstWithId(after, id) ==
                 match FirstWithId(Nodes(ts), id) case None => None case Some(t) => Some(t.(status := Some(s)))
  {
    UpdateKeepsShape(ts, id, StatusPatch(s));
    UpdateThenFind(ts, id, StatusPatch(s));
  }

  /** What `handleSaveAll` writes, or why it writes nothing. */
  datatype SaveOutcome =
    | Rejected(message: string)
    | Saved(subjects: seq<Subject>, subject: Subject, log: LogService.LogRequest)

  /** `handleSaveAll`. An unnamed subject is rejected. Otherwise the subject keeps
      its id (a new one gets `'s-' + stamp`) and its topics, and is stamped with
      `now`. Editing an existing subject (a route id) sends it back to PENDING and
      replaces the stored entries with the route id; creating one (no route id)
      makes it DRAFT and appends it. The stored list reads as empty when absent. */
  function SaveAll(form: Subject, routeId: Option<string>, stored: Option<seq<Subject>>, stamp: string, now: string)
    : (r: SaveOutcome)
    ensures form.name == [] <==> r.Rejected?
    ensures r.Rejected? ==> r.message == "Subject name is required."
    ensures r.Saved? ==>
              r.subject == form.(id := if form.id != [] then form.id else "s-" + stamp,
                                 status := Some(if routeId.Some? then Pending else Draft),
                                 lastUpdated := now)
    ensures r.Saved? && routeId.Some? ==>
              |r.subjects| == |stored.GetOr([])|
              && forall k :: 0 <= k < |r.subjects| ==>
                   r.subjects[k] == if stored.GetOr([])[k].id == routeId.value then r.subject else stored.GetOr([])[k]
    ensures r.Saved? && routeId.None? ==> r.subjects == stored.GetOr([]) + [r.subject]
    ensures r.Saved? ==>
              r.log == LogService.LogRequest(if routeId.Some? then "Updated Subject Shell" else "Created Subject Shell", form.name)
  {
    if form.name == [] then Rejected("Subject name is required.")
    else
      var s := form.(id := if form.id != [] then form.id else "s-" + stamp,
                     status := Some(if routeId.Some? then Pending else Draft),
                     lastUpdated := now);
      var list := stored.GetOr([]);
      var written := if routeId.Some? then ReplaceWhere(list, (x: Subject) => x.id == routeId.value, s) else list + [s];
      Saved(written, s, LogService.LogRequest(if routeId.Some? then "Updated Subject Shell" else "Created Subject Shell", s.name))
  }
}

=== FILE: subject_view.dfy ===
/** The subject validation screen: the admin approves a subject's curriculum
    (pruning topics marked for removal) or requests a revision. */
module SubjectView {
  import opened Common
  import opened Types
  import opened TopicTree
  import opened Workflow

  /** The subject after review. APPROVE publishes the pruned, fully approved
      topic tree; REVISION keeps the tree exactly as it was, topics marked for
      removal included. The note is appended only when written, to a history read
      as empty when absent. */
  function Reviewed(s: Subject, action: ReviewAction, adminNote: string, reviewer: User, stamp: Stamp): (r: Subject)
    ensures r.status == Some(ReviewStatus(action))
    ensures action == ApproveAction ==> r.topics == Approve(s.topics)
    ensures action == RevisionAction ==> r.topics == s.topics
    ensures adminNote == [] ==> r.revisionNotes == s.revisionNotes
    ensures adminNote != [] ==> r.revisionNotes == Some(s.revisionNotes.GetOr([]) + [NoteBy(reviewer, adminNote, stamp)])
    ensures r == s.(topics := r.topics, status := r.status, revisionNotes := r.revisionNotes)
  {
    s.(topics := if action == ApproveAction then Approve(s.topics) else s.topics,
       status := Some(ReviewStatus(action)),
       revisionNotes := if adminNote != [] then Some(s.revisionNotes.GetOr([]) + [NoteBy(reviewer, adminNote, stamp)])
                        else s.revisionNotes)
  }

  /** `handleAdminReview`: no subject loaded, nothing written; otherwise the stored
      subjects (empty when absent) with only the entries of this id replaced. */
  function AdminReview(subject: Option<Subject>, stored: Option<seq<Subject>>, action: ReviewAction,
                       adminNote: string, reviewer: User, stamp: Stamp): (r: Option<seq<Subject>>)
    ensures r.None? <==> subject.None?
    ensures r.Some? ==> |r.value| == |stored.GetOr([])|
    ensures r.Some? ==> forall k :: 0 <= k < |r.value| ==>
              r.value[k] == if stored.GetOr([])[k].id == subject.value.id
                            then Reviewed(subject.value, action, adminNote, reviewer, stamp)
                            else stored.GetOr([])[k]
  {
    match subject
    case None => None
    case Some(s) =>
      Some(ReplaceWhere(stored.GetOr([]), (x: Subject) => x.id == s.id, Reviewed(s, action, adminNote, reviewer, stamp)))
  }

  /** `isFullyApproved`: a loaded subject whose own status is APPROVED and whose
      every topic, at every depth, is APPROVED. */
  predicate IsFullyApproved(subject: Option<Subject>) {
    subject.Some? && subject.value.status == Some(Approved) && AllApproved(subject.value.topics)
  }

  /** Review buttons are shown to an admin while the subject is not fully
      approved. */
  predicate ReviewOffered(isAdmin: bool, subject: Option<Subject>) {
    isAdmin && !IsFullyApproved(subject)
  }

  /** Being fully approved means the subject is APPROVED and no node of its tree
      has any other status, in particular none is marked for removal. */
  lemma {:induction false} FullyApprovedMeansEveryNode(s: Subject)
    ensures IsFullyApproved(Some(s)) <==>
            s.status == Some(Approved) && forall n :: n in Nodes(s.topics) ==> n.status == Some(Approved)
  {
    AllApprovedIff(s.topics);
  }

  /** APPROVE leaves the subject fully approved, so the review buttons disappear;
      a revision request never does. */
  lemma {:induction false} ReviewOutcome(s: Subject, action: ReviewAction, adminNote: string, reviewer: User, stamp: Stamp)
    ensures action == ApproveAction ==> IsFullyApproved(Some(Reviewed(s, action, adminNote, reviewer, stamp)))
    ensures action == RevisionAction ==> !IsFullyApproved(Some(Reviewed(s, action, adminNote, reviewer, stamp)))
    ensures ReviewOffered(true, Some(Reviewed(s, action, adminNote, reviewer, stamp))) <==> action == RevisionAction
  {
    ApproveIdempotent(s.topics);
  }

  /** Approving an already approved subject again changes neither its tree nor
      its status. */
  lemma {:induction false} ApproveTwice(s: Subject, adminNote: string, reviewer: User, stamp: Stamp)
    ensures var once := Reviewed(s, ApproveAction, adminNote, reviewer, stamp);
            var twice := Reviewed(once, ApproveAction, [], reviewer, stamp);
            twice == once
  {
    ApproveIdempotent(s.topics);
  }
}

=== FILE: topics.dfy ===
/** The recursive curriculum topic tree of a subject and the operations the
    subject pages perform on it: pre-order search, update by id, approval pruning
    and the "everything approved" test. Each operation is related to `Nodes`, the
    pre-order listing of every node of a forest. */
module TopicTree {
  import opened Common
  import opened Types

  /** The children of a node; a missing child list reads as empty. */
  function Kids(t: Topic): seq<Topic> {
    match t.subTopics
    case Absent => []
    case Present(ns) => ns
  }

  /** Every node of the forest in pre-order: a node, then its subtree, then the
      subtrees of its later siblings. */
  function Nodes(ts: seq<Topic>): (r: seq<Topic>)
    ensures r == [] <==> ts == []
    ensures ts != [] ==> r[0] == ts[0]
  {
    if ts == [] then []
    else
      [ts[0]] + (match ts[0].subTopics case Absent => [] case Present(ns) => Nodes(ns)) + Nodes(ts[1..])
  }

  lemma NodesUnfold(ts: seq<Topic>)
    requires ts != []
    ensures Nodes(ts) == [ts[0]] + Nodes(Kids(ts[0])) + Nodes(ts[1..])
  {
  }

  lemma NodesCons(x: Topic, rest: seq<Topic>)
    ensures Nodes([x] + rest) == [x] + Nodes(Kids(x)) + Nodes(rest)
  {
    NodesUnfold([x] + rest);
    assert ([x] + rest)[1..] == rest;
  }

  lemma {:induction false} NodesAppend(a: seq<Topic>, b: seq<Topic>)
    ensures Nodes(a + b) == Nodes(a) + Nodes(b)
  {
    if a == [] {
      assert a + b == b;
    } else {
      var x, tail := a[0], a[1..];
      assert a == [x] + tail;
      assert a + b == [x] + (tail + b);
      NodesCons(x, tail + b);
      NodesCons(x, tail);
      NodesAppend(tail, b);
      AppendAssoc([x] + Nodes(Kids(x)), Nodes(tail), Nodes(b));
    }
  }

  /** A node with an empty or missing child list contributes exactly itself. */
  lemma NodesLeaf(t: Topic)
    requires Kids(t) == []
    ensures Nodes([t]) == [t]
  {
    NodesUnfold([t]);
    assert [t][1..] == [];
  }

  /** Walking the siblings left to right: one more sibling adds that node and its
      subtree at the end of the listing. */
  lemma NodesPrefixStep(ts: seq<Topic>, i: nat)
    requires i < |ts|
    ensures Nodes(ts[..i + 1]) == Nodes(ts[..i]) + ([ts[i]] + Nodes(Kids(ts[i])))
  {
    assert ts[..i + 1] == ts[..i] + [ts[i]];
    NodesAppend(ts[..i], [ts[i]]);
    NodesUnfold([ts[i]]);
    assert [ts[i]][1..] == [];
  }

  // ---------------------------------------------------------------------------
  // Search by id

  /** The first topic of `ns` whose id is `id`, if any. */
  function FirstWithId(ns: seq<Topic>, id: string): (r: Option<Topic>)
    ensures r.None? <==> forall k :: 0 <= k < |ns| ==> ns[k].id != id
    ensures r.Some? ==> r.value in ns && r.value.id == id
    ensures r.Some? ==> exists k :: 0 <= k < |ns| && ns[k] == r.value && forall j :: 0 <= j < k ==> ns[j].id != id
  {
    if ns == [] then None
    else if ns[0].id == id then Some(ns[0])
    else
      var rest := FirstWithId(ns[1..], id);
      assert rest.Some? ==> exists k :: 0 <= k < |ns| && ns[k] == rest.value && forall j :: 0 <= j < k ==> ns[j].id != id by {
        if rest.Some? {
          var k :| 0 <= k < |ns[1..]| && ns[1..][k] == rest.value && forall j :: 0 <= j < k ==> ns[1..][j].id != id;
          assert forall j :: 1 <= j < k + 1 ==> ns[j] == ns[1..][j - 1];
        }
      }
      rest
  }

  lemma {:induction false} FirstWithIdAppend(a: seq<Topic>, b: seq<Topic>, id: string)
    ensures FirstWithId(a + b, id) == if FirstWithId(a, id).Some? then FirstWithId(a, id) else FirstWithId(b, id)
  {
    if a == [] {
      assert a + b == b;
    } else {
      assert (a + b)[0] == a[0];
      assert (a + b)[1..] == a[1..] + b;
      FirstWithIdAppend(a[1..], b, id);
    }
  }

  /** Searching a forest's pre-order listing: the first node itself, else its
      subtree, else the later siblings. */
  lemma FirstInForest(ts: seq<Topic>, id: string)
    requires ts != []
    ensures FirstWithId(Nodes(ts), id)
         == if ts[0].id == id then Some(ts[0])
            else if FirstWithId(Nodes(Kids(ts[0])), id).Some? then FirstWithId(Nodes(Kids(ts[0])), id)
            else FirstWithId(Nodes(ts[1..]), id)
  {
    NodesUnfold(ts);
    FirstWithIdAppend([ts[0]] + Nodes(Kids(ts[0])), Nodes(ts[1..]), id);
    FirstWithIdAppend([ts[0]], Nodes(Kids(ts[0])), id);
  }

  /** `findTopic`: a loop over the siblings that returns on the first node with the
      target id and otherwise searches that node's children before moving on. The
      answer is the first node of the pre-order listing with that id. */
  method FindTopic(nodes: seq<Topic>, target: string) returns (r: Option<Topic>)
    ensures r == FirstWithId(Nodes(nodes), target)
    decreases nodes
  {
    var i := 0;
    assert nodes[i..] == nodes;
    while i < |nodes|
      invariant 0 <= i <= |nodes|
      invariant FirstWithId(Nodes(nodes), target) == FirstWithId(Nodes(nodes[i..]), target)
    {
      var node := nodes[i];
      FirstInForest(nodes[i..], target);
      assert nodes[i..][1..] == nodes[i + 1..];
      if node.id == target {
        return Some(node);
      }
      match node.subTopics {
        case Present(ns) =>
          var found := FindTopic(ns, target);
          if found.Some? {
            return found;
          }
        case Absent =>
      }
      i := i + 1;
    }
    return None;
  }

  /** Number of nodes of `ns` carrying the id. */
  function CountId(ns: seq<Topic>, id: string): (n: nat)
    ensures n == 0 <==> FirstWithId(ns, id).None?
    ensures n <= |ns|
  {
    if ns == [] then 0 else (if ns[0].id == id then 1 else 0) + CountId(ns[1..], id)
  }

  lemma {:induction false} CountIdAppend(a: seq<Topic>, b: seq<Topic>, id: string)
    ensures CountId(a + b, id) == CountId(a, id) + CountId(b, id)
  {
    if a == [] {
      assert a + b == b;
    } else {
      assert (a + b)[0] == a[0];
      assert (a + b)[1..] == a[1..] + b;
      CountIdAppend(a[1..], b, id);
    }
  }

  // ---------------------------------------------------------------------------
  // Approval

  /** `areAllTopicsApproved`: every topic has status APPROVED and so has every
      topic below it; a missing status is not APPROVED. */
  predicate AllApproved(ts: seq<Topic>) {
    ts == [] ||
    (ts[0].status == Some(Approved)
     && (match ts[0].subTopics case Absent => true case Present(ns) => AllApproved(ns))
     && AllApproved(ts[1..]))
  }

  /** The recursive test agrees with the statement "every node at every depth is
      APPROVED". */
  lemma {:induction false} AllApprovedIff(ts: seq<Topic>)
    ensures AllApproved(ts) <==> forall n :: n in Nodes(ts) ==> n.status == Some(Approved)
  {
    if ts != [] {
      NodesUnfold(ts);
      AllApprovedIff(ts[1..]);
      match ts[0].subTopics {
        case Absent =>
        case Present(ns) => AllApprovedIff(ns);
      }
    }
  }

  /** `processTopicsForApproval`: drop every REMOVAL_PENDING topic together with
      its subtree, and mark every remaining topic APPROVED with a (possibly empty)
      child list. */
  function Approve(ts: seq<Topic>): (r: seq<Topic>)
    ensures |r| <= |ts|
    ensures forall k :: 0 <= k < |r| ==> r[k].status == Some(Approved) && r[k].subTopics.Present?
  {
    if ts == [] then []
    else if ts[0].status == Some(RemovalPending) then Approve(ts[1..])
    else
      [ts[0].(status := Some(Approved),
              subTopics := Present(match ts[0].subTopics case Absent => [] case Present(ns) => Approve(ns)))]
      + Approve(ts[1..])
  }

  /** The nodes that survive approval, in pre-order: a REMOVAL_PENDING node is
      skipped together with everything below it. */
  function LiveNodes(ts: seq<Topic>): (r: seq<Topic>)
    ensures forall n :: n in r ==> n.status != Some(RemovalPending)
  {
    if ts == [] then []
    else if ts[0].status == Some(RemovalPending) then LiveNodes(ts[1..])
    else [ts[0]] + (match ts[0].subTopics case Absent => [] case Present(ns) => LiveNodes(ns)) + LiveNodes(ts[1..])
  }

  /** The surviving nodes are taken from the tree in their original order. */
  lemma {:induction false} LiveNodesSubsequence(ts: seq<Topic>)
    ensures IsSubsequence(LiveNodes(ts), Nodes(ts))
  {
    if ts != [] {
      NodesUnfold(ts);
      LiveNodesSubsequence(ts[1..]);
      var kids := Nodes(Kids(ts[0]));
      var liveKids := match ts[0].subTopics case Absent => [] case Present(ns) => LiveNodes(ns);
      match ts[0].subTopics {
        case Absent =>
        case Present(ns) => LiveNodesSubsequence(ns);
      }
      assert IsSubsequence(liveKids, kids);
      if ts[0].status == Some(RemovalPending) {
        SubsequenceSuffix(LiveNodes(ts[1..]), [ts[0]] + kids, Nodes(ts[1..]));
      } else {
        SubsequenceRefl([ts[0]]);
        SubsequenceAppend([ts[0]], [ts[0]], liveKids, kids);
        SubsequenceAppend([ts[0]] + liveKids, [ts[0]] + kids, LiveNodes(ts[1..]), Nodes(ts[1..]));
      }
    }
  }

  /** What a reader of the curriculum sees of a topic: its id, title and
      description. */
  datatype TopicLabel = TopicLabel(id: string, title: string, description: string)

  function Labels(ns: seq<Topic>): (r: seq<TopicLabel>)
    ensures |r| == |ns|
    ensures forall k :: 0 <= k < |ns| ==> r[k] == TopicLabel(ns[k].id, ns[k].title, ns[k].description)
  {
    if ns == [] then [] else [TopicLabel(ns[0].id, ns[0].title, ns[0].description)] + Labels(ns[1..])
  }

  lemma LabelsAppend(a: seq<Topic>, b: seq<Topic>)
    ensures Labels(a + b) == Labels(a) + Labels(b)
  {
    assert forall k :: 0 <= k < |a + b| ==> Labels(a + b)[k] == (Labels(a) + Labels(b))[k];
  }

  /** Approval keeps exactly the surviving nodes, in pre-order, with their ids,
      titles and descriptions; every node of the result is APPROVED. Since the
      survivors are a subsequence of the tree, approval never adds a node and
      keeps the order of siblings. */
  lemma {:induction false} ApproveKeepsLiveNodes(ts: seq<Topic>)
    ensures Labels(Nodes(Approve(ts))) == Labels(LiveNodes(ts))
    ensures forall n :: n in Nodes(Approve(ts)) ==> n.status == Some(Approved)
    ensures |Nodes(Approve(ts))| <= |Nodes(ts)|
  {
    LiveNodesSubsequence(ts);
    SubsequenceLength(LiveNodes(ts), Nodes(ts));
    if ts != [] {
      ApproveKeepsLiveNodes(ts[1..]);
      if ts[0].status != Some(RemovalPending) {
        var a := Approve(ts);
        var kids := match ts[0].subTopics case Absent => [] case Present(ns) => Approve(ns);
        var liveKids := match ts[0].subTopics case Absent => [] case Present(ns) => LiveNodes(ns);
        match ts[0].subTopics {
          case Absent =>
          case Present(ns) => ApproveKeepsLiveNodes(ns);
        }
        assert Labels(Nodes(kids)) == Labels(liveKids);
        NodesUnfold(a);
        assert a[1..] == Approve(ts[1..]);
        assert Kids(a[0]) == kids;
        LabelsAppend([a[0]] + Nodes(kids), Nodes(Approve(ts[1..])));
        LabelsAppend([a[0]], Nodes(kids));
        LabelsAppend([ts[0]] + liveKids, LiveNodes(ts[1..]));
        LabelsAppend([ts[0]], liveKids);
      }
    }
  }

  lemma {:induction false} SubsequenceLength<T>(a: seq<T>, b: seq<T>)
    requires IsSubsequence(a, b)
    ensures |a| <= |b|
    decreases |b|
  {
    if a != [] {
      if a[0] == b[0] && IsSubsequence(a[1..], b[1..]) {
        SubsequenceLength(a[1..], b[1..]);
      } else {
        SubsequenceLength(a, b[1..]);
      }
    }
  }

  /** After approval nothing is left to prune or approve: approving twice is
      approving once, and the result passes the "all approved" test. */
  lemma {:induction false} ApproveIdempotent(ts: seq<Topic>)
    ensures Approve(Approve(ts)) == Approve(ts)
    ensures AllApproved(Approve(ts))
  {
    ApproveKeepsLiveNodes(ts);
    AllApprovedIff(Approve(ts));
    if ts != [] {
      ApproveIdempotent(ts[1..]);
      if ts[0].status != Some(RemovalPending) {
        var a := Approve(ts);
        assert a[1..] == Approve(ts[1..]);
        match ts[0].subTopics {
          case Absent =>
            assert Approve([]) == [];
          case Present(ns) => ApproveIdempotent(ns);
        }
        assert Approve(a) == [a[0]] + Approve(a[1..]);
      }
    }
  }

  // ---------------------------------------------------------------------------
  // Update by id

  /** The fields a `Partial<PsychologyTopic>` update sets; `None` leaves a field
      as it was. */
  datatype TopicPatch = TopicPatch(
    title: Option<string>,
    description: Option<string>,
    status: Option<ContentStatus>,
    subTopics: Option<seq<Topic>>)

  /** `{ ...node, ...updates }`: a field the patch sets takes the patch's value,
      every other field (the id always) keeps the topic's. */
  function Apply(t: Topic, p: TopicPatch): (r: Topic)
    ensures r.id == t.id
    ensures r.title == if p.title.Some? then p.title.value else t.title
    ensures r.description == if p.description.Some? then p.description.value else t.description
    ensures r.status == if p.status.Some? then p.status else t.status
    ensures p.subTopics.None? ==> r.subTopics == t.subTopics
    ensures p.subTopics.Some? ==> r.subTopics == Present(p.subTopics.value)
  {
    Topic(t.id,
          p.title.GetOr(t.title),
          p.description.GetOr(t.description),
          if p.status.Some? then p.status else t.status,
          if p.subTopics.Some? then Present(p.subTopics.value) else t.subTopics)
  }

  /** `updateNodeInTree`: every topic with the target id gets the patch and is not
      searched further; every other topic with children gets its children
      updated. */
  function UpdateNode(ts: seq<Topic>, target: string, p: TopicPatch): (r: seq<Topic>)
    ensures |r| == |ts|
    ensures forall k :: 0 <= k < |ts| ==> r[k].id == ts[k].id
  {
    if ts == [] then []
    else
      var t := ts[0];
      var t' :=
        if t.id == target then Apply(t, p)
        else match t.subTopics
          case Absent => t
          case Present(ns) => t.(subTopics := Present(UpdateNode(ns, target, p)));
      [t'] + UpdateNode(ts[1..], target, p)
  }

  /** Updating an id that occurs nowhere in the tree changes nothing. */
  lemma {:induction false} UpdateMissing(ts: seq<Topic>, target: string, p: TopicPatch)
    requires FirstWithId(Nodes(ts), target) == None
    ensures UpdateNode(ts, target, p) == ts
  {
    if ts != [] {
      NodesUnfold(ts);
      FirstWithIdAppend([ts[0]] + Nodes(Kids(ts[0])), Nodes(ts[1..]), target);
      FirstWithIdAppend([ts[0]], Nodes(Kids(ts[0])), target);
      UpdateMissing(ts[1..], target, p);
      match ts[0].subTopics {
        case Absent =>
        case Present(ns) => UpdateMissing(ns, target, p);
      }
    }
  }

  /** Looking the target up after an update finds the node the lookup found
      before, with the patch applied. */
  lemma {:induction false} UpdateThenFind(ts: seq<Topic>, target: string, p: TopicPatch)
    ensures FirstWithId(Nodes(UpdateNode(ts, target, p)), target)
         == match FirstWithId(Nodes(ts), target) case None => None case Some(t) => Some(Apply(t, p))
  {
    if ts != [] {
      var u := UpdateNode(ts, target, p);
      NodesUnfold(ts);
      NodesUnfold(u);
      assert u[1..] == UpdateNode(ts[1..], target, p);
      UpdateThenFind(ts[1..], target, p);
      FirstWithIdAppend([ts[0]] + Nodes(Kids(ts[0])), Nodes(ts[1..]), target);
      FirstWithIdAppend([ts[0]], Nodes(Kids(ts[0])), target);
      FirstWithIdAppend([u[0]] + Nodes(Kids(u[0])), Nodes(u[1..]), target);
      FirstWithIdAppend([u[0]], Nodes(Kids(u[0])), target);
      if ts[0].id != target {
        match ts[0].subTopics {
          case Absent =>
          case Present(ns) => UpdateThenFind(ns, target, p);
        }
      }
    }
  }

  /** A topic without its children: what an update may change of a node. */
  function Head(t: Topic): Topic {
    t.(subTopics := Absent)
  }

  /** `after` lists the same nodes as `before`, position by position, except that a
      node carrying the target id may have received the patch. */
  ghost predicate PatchedAt(after: seq<Topic>, before: seq<Topic>, target: string, p: TopicPatch) {
    |after| == |before| &&
    forall k :: 0 <= k < |before| ==>
      Head(after[k]) == Head(before[k]) || (before[k].id == target && Head(after[k]) == Head(Apply(before[k], p)))
  }

  lemma PatchedAtRefl(xs: seq<Topic>, target: string, p: TopicPatch)
    ensures PatchedAt(xs, xs, target, p)
  {
  }

  lemma PatchedAtAppend(a1: seq<Topic>, b1: seq<Topic>, a2: seq<Topic>, b2: seq<Topic>, target: string, p: TopicPatch)
    requires PatchedAt(a1, b1, target, p) && PatchedAt(a2, b2, target, p)
    ensures PatchedAt(a1 + a2, b1 + b2, target, p)
  {
    forall k | 0 <= k < |b1 + b2|
      ensures Head((a1 + a2)[k]) == Head((b1 + b2)[k])
           || ((b1 + b2)[k].id == target && Head((a1 + a2)[k]) == Head(Apply((b1 + b2)[k], p)))
    {
      if k >= |b1| {
        assert (a1 + a2)[k] == a2[k - |b1|] && (b1 + b2)[k] == b2[k - |b1|];
      }
    }
  }

  /** An update whose patch leaves the child lists alone keeps the shape of the
      tree: the same number of nodes in the same pre-order positions, every node
      unchanged except that nodes with the target id may carry the patched
      title, description or status. In particular all ids are kept. */
  lemma {:induction false} UpdateKeepsShape(ts: seq<Topic>, target: string, p: TopicPatch)
    requires p.subTopics.None?
    ensures PatchedAt(Nodes(UpdateNode(ts, target, p)), Nodes(ts), target, p)
  {
    if ts != [] {
      var u := UpdateNode(ts, target, p);
      NodesUnfold(ts);
      NodesUnfold(u);
      assert u[1..] == UpdateNode(ts[1..], target, p);
      UpdateKeepsShape(ts[1..], target, p);
      if ts[0].id == target {
        assert Kids(u[0]) == Kids(ts[0]);
        PatchedAtRefl(Nodes(Kids(ts[0])), target, p);
      } else {
        match ts[0].subTopics {
          case Absent =>
          case Present(ns) => UpdateKeepsShape(ns, target, p);
        }
      }
      assert PatchedAt([u[0]], [ts[0]], target, p);
      PatchedAtAppend([u[0]], [ts[0]], Nodes(Kids(u[0])), Nodes(Kids(ts[0])), target, p);
      PatchedAtAppend([u[0]] + Nodes(Kids(u[0])), [ts[0]] + Nodes(Kids(ts[0])), Nodes(u[1..]), Nodes(ts[1..]), target, p);
    }
  }

  function Heads(ns: seq<Topic>): (r: seq<Topic>)
    ensures |r| == |ns|
    ensures forall k :: 0 <= k < |ns| ==> r[k] == Head(ns[k])
  {
    if ns == [] then [] else [Head(ns[0])] + Heads(ns[1..])
  }

  lemma HeadsAppend(a: seq<Topic>, b: seq<Topic>)
    ensures Heads(a + b) == Heads(a) + Heads(b)
  {
    assert forall k :: 0 <= k < |a + b| ==> Heads(a + b)[k] == (Heads(a) + Heads(b))[k];
  }

  /** The patch `handleAddSubTopic` applies to the parent: its children followed by
      the new topic. */
  function AddChildPatch(parent: Topic, child: Topic): TopicPatch {
    TopicPatch(None, None, None, Some(Kids(parent) + [child]))
  }

  lemma HeadsOfForest(ts: seq<Topic>)
    requires ts != []
    ensures multiset(Heads(Nodes(ts)))
         == multiset{Head(ts[0])} + multiset(Heads(Nodes(Kids(ts[0])))) + multiset(Heads(Nodes(ts[1..])))
    ensures |Nodes(ts)| == 1 + |Nodes(Kids(ts[0]))| + |Nodes(ts[1..])|
  {
    NodesUnfold(ts);
    HeadsAppend([ts[0]] + Nodes(Kids(ts[0])), Nodes(ts[1..]));
    HeadsAppend([ts[0]], Nodes(Kids(ts[0])));
  }

  lemma CountInForest(ts: seq<Topic>, id: string)
    requires ts != []
    ensures CountId(Nodes(ts), id)
         == (if ts[0].id == id then 1 else 0) + CountId(Nodes(Kids(ts[0])), id) + CountId(Nodes(ts[1..]), id)
  {
    NodesUnfold(ts);
    CountIdAppend([ts[0]] + Nodes(Kids(ts[0])), Nodes(ts[1..]), id);
    CountIdAppend([ts[0]], Nodes(Kids(ts[0])), id);
  }

  /** Combining a node with its children's and its later siblings' listings: if
      the node's own head is unchanged and one of the two listings gained `extra`,
      the whole listing gained `extra`. */
  lemma ForestWithExtra(ts: seq<Topic>, u: seq<Topic>, extra: Topic)
    requires ts != [] && u != [] && Head(u[0]) == Head(ts[0])
    requires var tk, tr := multiset(Heads(Nodes(Kids(ts[0])))), multiset(Heads(Nodes(ts[1..])));
             var uk, ur := multiset(Heads(Nodes(Kids(u[0])))), multiset(Heads(Nodes(u[1..])));
             (uk == tk + multiset{extra} && ur == tr) || (uk == tk && ur == tr + multiset{extra})
    ensures multiset(Heads(Nodes(u))) == multiset(Heads(Nodes(ts))) + multiset{extra}
  {
    HeadsOfForest(ts);
    HeadsOfForest(u);
    Regroup(multiset{Head(ts[0])},
            multiset(Heads(Nodes(Kids(ts[0])))), multiset(Heads(Nodes(ts[1..]))),
            multiset(Heads(Nodes(Kids(u[0])))), multiset(Heads(Nodes(u[1..]))), extra);
  }

  lemma Regroup<T>(h: multiset<T>, tk: multiset<T>, tr: multiset<T>, uk: multiset<T>, ur: multiset<T>, e: T)
    requires (uk == tk + multiset{e} && ur == tr) || (uk == tk && ur == tr + multiset{e})
    ensures h + uk + ur == h + tk + tr + multiset{e}
  {
    forall x ensures (h + uk + ur)[x] == (h + tk + tr + multiset{e})[x] {
    }
  }

  /** When the parent id occurs exactly once, giving the parent one more child
      (a new leaf) inserts exactly one node into the tree and leaves every other
      node as it was. */
  lemma AddChildInsertsOne(ts: seq<Topic>, parent: Topic, child: Topic)
    requires CountId(Nodes(ts), parent.id) == 1
    requires FirstWithId(Nodes(ts), parent.id) == Some(parent)
    requires Kids(child) == []
    ensures multiset(Heads(Nodes(UpdateNode(ts, parent.id, AddChildPatch(parent, child)))))
         == multiset(Heads(Nodes(ts))) + multiset{Head(child)}
    ensures |Nodes(UpdateNode(ts, parent.id, AddChildPatch(parent, child)))| == |Nodes(ts)| + 1
  {
    AddChildHeads(ts, parent, child);
    var after := Heads(Nodes(UpdateNode(ts, parent.id, AddChildPatch(parent, child))));
    assert |multiset(after)| == |multiset(Heads(Nodes(ts)))| + 1;
  }

  lemma {:induction false} AddChildHeads(ts: seq<Topic>, parent: Topic, child: Topic)
    requires CountId(Nodes(ts), parent.id) == 1
    requires FirstWithId(Nodes(ts), parent.id) == Some(parent)
    requires Kids(child) == []
    ensures multiset(Heads(Nodes(UpdateNode(ts, parent.id, AddChildPatch(parent, child)))))
         == multiset(Heads(Nodes(ts))) + multiset{Head(child)}
    decreases ts, 1
  {
    assert ts != [];
    CountInForest(ts, parent.id);
    if ts[0].id == parent.id {
      AddChildAtRoot(ts, parent, child);
    } else if CountId(Nodes(Kids(ts[0])), parent.id) == 1 {
      AddChildInKids(ts, parent, child);
    } else {
      AddChildInLater(ts, parent, child);
    }
  }

  lemma AppendLeafHeads(ks: seq<Topic>, child: Topic)
    requires Kids(child) == []
    ensures multiset(Heads(Nodes(ks + [child]))) == multiset(Heads(Nodes(ks))) + multiset{Head(child)}
  {
    NodesAppend(ks, [child]);
    NodesLeaf(child);
    HeadsAppend(Nodes(ks), [child]);
    assert Heads([child]) == [Head(child)];
  }

  lemma AddChildAtRoot(ts: seq<Topic>, parent: Topic, child: Topic)
    requires ts != [] && ts[0].id == parent.id
    requires CountId(Nodes(ts), parent.id) == 1
    requires FirstWithId(Nodes(ts), parent.id) == Some(parent)
    requires Kids(child) == []
    ensures multiset(Heads(Nodes(UpdateNode(ts, parent.id, AddChildPatch(parent, child)))))
         == multiset(Heads(Nodes(ts))) + multiset{Head(child)}
  {
    var p := AddChildPatch(parent, child);
    var target := parent.id;
    var u := UpdateNode(ts, target, p);
    CountInForest(ts, target);
    FirstInForest(ts, target);
    assert ts[0] == parent;
    assert u[0] == Apply(parent, p);
    assert u[1..] == UpdateNode(ts[1..], target, p);
    UpdateMissing(ts[1..], target, p);
    assert Kids(u[0]) == Kids(parent) + [child];
    AppendLeafHeads(Kids(parent), child);
    ForestWithExtra(ts, u, Head(child));
  }

  lemma {:induction false} AddChildInKids(ts: seq<Topic>, parent: Topic, child: Topic)
    requires ts != [] && ts[0].id != parent.id
    requires CountId(Nodes(Kids(ts[0])), parent.id) == 1
    requires CountId(Nodes(ts), parent.id) == 1
    requires FirstWithId(Nodes(ts), parent.id) == Some(parent)
    requires Kids(child) == []
    ensures multiset(Heads(Nodes(UpdateNode(ts, parent.id, AddChildPatch(parent, child)))))
         == multiset(Heads(Nodes(ts))) + multiset{Head(child)}
    decreases ts, 0
  {
    var p := AddChildPatch(parent, child);
    var target := parent.id;
    var u := UpdateNode(ts, target, p);
    CountInForest(ts, target);
    FirstInForest(ts, target);
    assert u[1..] == UpdateNode(ts[1..], target, p);
    match ts[0].subTopics {
      case Absent =>
      case Present(ns) =>
        assert Kids(u[0]) == UpdateNode(ns, target, p);
        AddChildHeads(ns, parent, child);
    }
    UpdateMissing(ts[1..], target, p);
    ForestWithExtra(ts, u, Head(child));
  }

  lemma {:induction false} AddChildInLater(ts: seq<Topic>, parent: Topic, child: Topic)
    requires ts != [] && ts[0].id != parent.id
    requires CountId(Nodes(Kids(ts[0])), parent.id) != 1
    requires CountId(Nodes(ts), parent.id) == 1
    requires FirstWithId(Nodes(ts), parent.id) == Some(parent)
    requires Kids(child) == []
    ensures multiset(Heads(Nodes(UpdateNode(ts, parent.id, AddChildPatch(parent, child)))))
         == multiset(Heads(Nodes(ts))) + multiset{Head(child)}
    decreases ts, 0
  {
    var p := AddChildPatch(parent, child);
    var target := parent.id;
    var u := UpdateNode(ts, target, p);
    CountInForest(ts, target);
    FirstInForest(ts, target);
    assert u[1..] == UpdateNode(ts[1..], target, p);
    match ts[0].subTopics {
      case Absent =>
      case Present(ns) =>
        UpdateMissing(ns, target, p);
        assert Kids(u[0]) == ns;
    }
    AddChildHeads(ts[1..], parent, child);
    ForestWithExtra(ts, u, Head(child));
  }
}

=== FILE: types.dfy ===
/** The records the admin pages keep in browser storage. Optional JSON fields
    whose absence the pages test with `||` or `?.` are either `Option`s or, for
    strings whose only "absent" test is falsiness, the empty string. Fields that
    no modelled operation reads or changes (file URLs, staged proposals, theme
    preferences, schedule details) are not carried. */
module Types {
  import opened Common

  /** The review status shared by subjects, topics, content items and assessments. */
  datatype ContentStatus = Draft | Pending | RevisionRequested | Approved | RemovalPending

  datatype UserRole = Admin | Faculty | Student {
    /** The string stored in the record (`'ADMIN'`, `'FACULTY'`, `'STUDENT'`). */
    function Name(): string {
      match this
      case Admin => "ADMIN"
      case Faculty => "FACULTY"
      case Student => "STUDENT"
    }
  }

  /** `UserStatus`; `AwaitingActivation` is the stored `'PENDING'`. */
  datatype UserStatus = Active | Inactive | AwaitingActivation

  datatype User = User(
    id: string,
    email: string,
    name: string,
    password: Option<string>,
    role: UserRole,
    status: UserStatus,
    studentNumber: Option<string>,
    department: Option<string>,
    lastLogin: string)

  datatype RevisionNote = RevisionNote(id: string, adminId: string, adminName: string, note: string, timestamp: string)

  /** A curriculum topic. `subTopics` distinguishes a missing child list from an
      empty one, as the pages test `node.subTopics` for presence. */
  datatype Topic = Topic(
    id: string,
    title: string,
    description: string,
    status: Option<ContentStatus>,
    subTopics: Children)

  datatype Children = Absent | Present(nodes: seq<Topic>)

  datatype Subject = Subject(
    id: string,
    name: string,
    description: string,
    color: string,
    topics: seq<Topic>,
    status: Option<ContentStatus>,
    lastUpdated: string,
    revisionNotes: Option<seq<RevisionNote>>)

  datatype ContentKind = Module | Reviewer | Guide
  datatype ContentFormat = Text | Pdf

  datatype ContentItem = ContentItem(
    id: string,
    title: string,
    subject: string,
    topicId: string,
    kind: ContentKind,
    format: ContentFormat,
    content: string,
    status: ContentStatus,
    authorId: string,
    authorName: string,
    submissionCount: nat,
    revisionCount: nat,
    dateCreated: string,
    lastUpdated: string,
    revisionNotes: seq<RevisionNote>)

  datatype AssessmentType = PreAssessment | Quiz | PostAssessment

  datatype Question = Question(id: string, text: string, options: seq<string>, correctAnswer: int, points: int)

  /** An assessment. `subject` holds a subject id or name; `subjectId` and
      `topicId` are empty when not set. */
  datatype Assessment = Assessment(
    id: string,
    title: string,
    kind: AssessmentType,
    subject: string,
    subjectId: string,
    topicId: string,
    items: int,
    timeLimit: int,
    status: ContentStatus,
    authorId: string,
    authorName: string,
    questions: seq<Question>,
    dateCreated: string,
    lastUpdated: string,
    revisionNotes: seq<RevisionNote>)

  /** `'REGISTERED' | 'PENDING'` */
  datatype WhitelistStatus = Registered | AwaitingRegistration

  datatype WhitelistEntry = WhitelistEntry(
    id: string,
    email: string,
    studentNumber: string,
    name: string,
    status: WhitelistStatus,
    dateAdded: string)

  datatype ActivityLog = ActivityLog(id: string, userId: string, userName: string, action: string, timestamp: string)

  /** A role and the permission ids granted to it, as kept under `role_configs`. */
  datatype RoleConfig = RoleConfig(name: string, permissions: seq<string>, isSystem: bool)
}

=== FILE: users.dfy ===
/** User management: status toggle, delete, password change, registration and
    the searched, paged list. */
module Users {
  import opened Common
  import opened Types
  import LogService

  /** `toggleUserStatus`'s new status: ACTIVE becomes INACTIVE, anything else
      becomes ACTIVE. */
  function Toggled(s: UserStatus): (r: UserStatus)
    ensures r == Inactive <==> s == Active
    ensures r == Active <==> s != Active
  {
    if s == Active then Inactive else Active
  }

  /** `toggleUserStatus(id)`: only the users with that id change, and only in
      their status. */
  function ToggleUserStatus(users: seq<User>, id: string): (r: seq<User>)
    ensures |r| == |users|
    ensures forall k :: 0 <= k < |users| ==>
              r[k] == if users[k].id == id then users[k].(status := Toggled(users[k].status)) else users[k]
    decreases |users|
  {
    if users == [] then []
    else [if users[0].id == id then users[0].(status := Toggled(users[0].status)) else users[0]]
         + ToggleUserStatus(users[1..], id)
  }

  /** Toggling twice restores every ACTIVE or INACTIVE user; a user awaiting
      activation ends up INACTIVE (activated by the first toggle, deactivated by
      the second). */
  lemma ToggleTwice(users: seq<User>, id: string)
    ensures var twice := ToggleUserStatus(ToggleUserStatus(users, id), id);
            |twice| == |users|
            && forall k :: 0 <= k < |users| ==>
                 twice[k] == if users[k].id == id && users[k].status == AwaitingActivation
                             then users[k].(status := Inactive) else users[k]
  {
  }

  /** `handleDeleteUser`: without a user marked for deletion nothing is written
      (`None`); otherwise exactly the users with that id are removed, the rest
      keep their order, and the deletion is logged under the user's name. */
  function DeleteUser(users: seq<User>, userToDelete: Option<User>): (r: Option<(seq<User>, LogService.LogRequest)>)
    ensures r.None? <==> userToDelete.None?
    ensures r.Some? ==> forall u :: u in r.value.0 <==> u in users && u.id != userToDelete.value.id
    ensures r.Some? ==> IsSubsequence(r.value.0, users)
    ensures r.Some? ==> forall u :: multiset(r.value.0)[u] == if u.id != userToDelete.value.id then multiset(users)[u] else 0
    ensures r.Some? ==> r.value.1 == LogService.LogRequest("Deleted User Account", userToDelete.value.name)
  {
    match userToDelete
    case None => None
    case Some(gone) =>
      FilterMembers(users, (u: User) => u.id != gone.id);
      FilterMultiset(users, (u: User) => u.id != gone.id);
      Some((Filter(users, (u: User) => u.id != gone.id), LogService.LogRequest("Deleted User Account", gone.name)))
  }

  /** `handleChangePassword`: without a selected user or with an empty password
      nothing is written; otherwise only the selected user's password changes. */
  function ChangePassword(users: seq<User>, selected: Option<User>, newPassword: string): (r: Option<seq<User>>)
    ensures r.None? <==> selected.None? || newPassword == []
    ensures r.Some? ==> |r.value| == |users| && forall k :: 0 <= k < |users| ==>
              r.value[k] == if users[k].id == selected.value.id then users[k].(password := Some(newPassword)) else users[k]
  {
    if selected.None? || newPassword == [] then None
    else Some(SetPassword(users, selected.value.id, newPassword))
  }

  function SetPassword(users: seq<User>, id: string, pw: string): (r: seq<User>)
    ensures |r| == |users|
    ensures forall k :: 0 <= k < |users| ==>
              r[k] == if users[k].id == id then users[k].(password := Some(pw)) else users[k]
  {
    if users == [] then []
    else [if users[0].id == id then users[0].(password := Some(pw)) else users[0]] + SetPassword(users[1..], id, pw)
  }

  /** The registration form. `studentNumber` doubles as the faculty id and
      `department` as the student's program. */
  datatype UserForm = UserForm(name: string, email: string, password: string, role: UserRole,
                               studentNumber: string, department: string)

  datatype AddOutcome = Rejected(message: string) | Added(users: seq<User>, user: User)

  /** `handleAddUser`: the shared required fields, then the role's own required
      fields; a registered user is ACTIVE, has never logged in, is appended at the
      end, and keeps the number and department only when not an ADMIN. */
  function AddUser(users: seq<User>, form: UserForm, stamp: string): (r: AddOutcome)
    ensures form.name == [] || form.email == [] || form.password == [] ==>
              r == Rejected("Please fill in all required fields.")
    ensures r.Added? <==>
              form.name != [] && form.email != [] && form.password != []
              && (form.role != Admin ==> form.studentNumber != [] && form.department != [])
    ensures r.Rejected? && form.name != [] && form.email != [] && form.password != [] ==>
              r.message == if form.role == Student then "Student Number and Program are required for students."
                           else "Faculty ID and Department are required for faculty."
    ensures r.Added? ==> r.users == users + [r.user]
    ensures r.Added? ==> r.user.status == Active && r.user.lastLogin == "Never" && r.user.id == stamp
                         && r.user.name == form.name && r.user.email == form.email && r.user.role == form.role
                         && r.user.password == Some(form.password)
    ensures r.Added? && form.role == Admin ==> r.user.studentNumber.None? && r.user.department.None?
    ensures r.Added? && form.role != Admin ==>
              r.user.studentNumber == Some(form.studentNumber) && r.user.department == Some(form.department)
  {
    if form.name == [] || form.email == [] || form.password == [] then Rejected("Please fill in all required fields.")
    else if form.role == Student && (form.studentNumber == [] || form.department == []) then
      Rejected("Student Number and Program are required for students.")
    else if form.role == Faculty && (form.studentNumber == [] || form.department == []) then
      Rejected("Faculty ID and Department are required for faculty.")
    else
      var u := User(stamp, form.email, form.name, Some(form.password), form.role, Active,
                    if form.role != Admin then Some(form.studentNumber) else None,
                    if form.role != Admin then Some(form.department) else None,
                    "Never");
      Added(users + [u], u)
  }

  /** The search over one user: name or email, up to case. */
  predicate Matches(u: User, term: string) {
    ContainsIgnoreCase(u.name, term) || ContainsIgnoreCase(u.email, term)
  }

  /** `filteredUsers` */
  function Search(users: seq<User>, term: string): (r: seq<User>)
    ensures forall u :: u in r <==> u in users && Matches(u, term)
    ensures IsSubsequence(r, users)
    ensures forall u :: multiset(r)[u] == if Matches(u, term) then multiset(users)[u] else 0
  {
    FilterMembers(users, (u: User) => Matches(u, term));
    FilterMultiset(users, (u: User) => Matches(u, term));
    Filter(users, (u: User) => Matches(u, term))
  }

  /** `totalPages`: enough pages for every match, not one more, and none when
      nothing matches. */
  function TotalPages(users: seq<User>, term: string, pageSize: nat): (n: nat)
    requires pageSize > 0
    ensures n * pageSize >= |Search(users, term)|
    ensures n == 0 || (n - 1) * pageSize < |Search(users, term)|
    ensures n == 0 <==> Search(users, term) == []
  {
    PageCount(|Search(users, term)|, pageSize)
  }

  /** `paginatedUsers`: page `page` of the matching users, so at most `pageSize`
      of them. */
  function Paginated(users: seq<User>, term: string, page: nat, pageSize: nat): (r: seq<User>)
    requires page >= 1 && pageSize > 0
    ensures |r| <= pageSize
    ensures forall u :: u in r ==> u in users && Matches(u, term)
    ensures PageOf(r, Search(users, term), page, pageSize)
  {
    PageMembers(Search(users, term), page, pageSize);
    Page(Search(users, term), page, pageSize)
  }
}

=== FILE: whitelist.dfy ===
/** The institutional whitelist: seeding, spreadsheet import deduplicated by
    student number, delete, edit, search and paging. */
module Whitelist {
  import opened Common
  import opened Types

  /** `INITIAL_WHITELIST` */
  const INITIAL_WHITELIST: seq<WhitelistEntry> := [
    WhitelistEntry("1", "maria.santos@cvsu.edu.ph", "202110123", "Maria Santos", Registered, "2024-03-01"),
    WhitelistEntry("2", "james.wilson@cvsu.edu.ph", "202110456", "James Wilson", AwaitingRegistration, "2024-03-05"),
    WhitelistEntry("3", "liza.ramos@cvsu.edu.ph", "202110789", "Liza Ramos", Registered, "2024-03-10"),
    WhitelistEntry("4", "kevin.durant@cvsu.edu.ph", "202110111", "Kevin Durant", AwaitingRegistration, "2024-03-12")]

  /** The load effect: the stored whitelist, or the initial one seeded. */
  function Load(stored: Option<seq<WhitelistEntry>>): (r: Loaded<WhitelistEntry>)
    ensures stored.Some? ==> r == Loaded(stored.value, None)
    ensures stored.None? ==> r == Loaded(INITIAL_WHITELIST, Some(INITIAL_WHITELIST))
  {
    LoadOrSeed(stored, INITIAL_WHITELIST)
  }

  /** The column chosen for each required field; empty when not chosen. */
  datatype Mapping = Mapping(name: string, studentNumber: string, email: string)

  /** One spreadsheet row: header to cell text. A cell absent from the row, or
      empty, takes the fallback. */
  type Row = map<string, string>

  function Cell(row: Row, column: string, fallback: string): (r: string)
    ensures column in row && row[column] != [] ==> r == row[column]
    ensures !(column in row && row[column] != []) ==> r == fallback
  {
    if column in row && row[column] != [] then row[column] else fallback
  }

  /** The entry made from row `i` of the file: id `now + i`, the mapped cells or
      their fallbacks, status PENDING (awaiting registration), added `today`. */
  function EntryFromRow(row: Row, i: nat, m: Mapping, now: nat, today: string): (e: WhitelistEntry)
    ensures e.status == AwaitingRegistration && e.dateAdded == today
    ensures e.name == Cell(row, m.name, "Unknown Student")
    ensures e.studentNumber == Cell(row, m.studentNumber, "0000000")
    ensures e.email == Cell(row, m.email, "no-email@cvsu.edu.ph")
  {
    WhitelistEntry(NatToString(now + i), Cell(row, m.email, "no-email@cvsu.edu.ph"),
                   Cell(row, m.studentNumber, "0000000"), Cell(row, m.name, "Unknown Student"),
                   AwaitingRegistration, today)
  }

  /** `fileDataRows.map(...)`, rows numbered from `from`. */
  function EntriesFromRows(rows: seq<Row>, from: nat, m: Mapping, now: nat, today: string): (r: seq<WhitelistEntry>)
    ensures |r| == |rows|
    ensures forall k :: 0 <= k < |rows| ==> r[k] == EntryFromRow(rows[k], from + k, m, now, today)
    decreases |rows|
  {
    if rows == [] then [] else [EntryFromRow(rows[0], from, m, now, today)] + EntriesFromRows(rows[1..], from + 1, m, now, today)
  }

  /** `existingIds.has(e.studentNumber)` */
  predicate Enrolled(entries: seq<WhitelistEntry>, studentNumber: string) {
    exists k :: 0 <= k < |entries| && entries[k].studentNumber == studentNumber
  }

  function IsNew(entries: seq<WhitelistEntry>): WhitelistEntry -> bool {
    (e: WhitelistEntry) => !Any(entries, (x: WhitelistEntry) => x.studentNumber == e.studentNumber)
  }

  /** `handleFinalUpload`: refused (`None`) until all three fields are mapped;
      otherwise the current entries stay, unchanged, in front, followed in file
      order by the imported entries whose student number no current entry has. */
  function FinalUpload(entries: seq<WhitelistEntry>, m: Mapping, rows: seq<Row>, now: nat, today: string)
    : (r: Option<seq<WhitelistEntry>>)
    ensures r.None? <==> m.name == [] || m.studentNumber == [] || m.email == []
    ensures r.Some? ==> |r.value| >= |entries| && r.value[..|entries|] == entries
    ensures r.Some? ==> IsSubsequence(r.value[|entries|..], EntriesFromRows(rows, 0, m, now, today))
    ensures r.Some? ==> forall k :: |entries| <= k < |r.value| ==>
              !Enrolled(entries, r.value[k].studentNumber) && r.value[k].status == AwaitingRegistration
    ensures r.Some? ==> forall e :: e in r.value[|entries|..] <==>
              e in EntriesFromRows(rows, 0, m, now, today) && !Enrolled(entries, e.studentNumber)
  {
    if m.name == [] || m.studentNumber == [] || m.email == [] then None
    else
      var imported := EntriesFromRows(rows, 0, m, now, today);
      var unseen := Filter(imported, IsNew(entries));
      FilterMembers(imported, IsNew(entries));
      assert (entries + unseen)[|entries|..] == unseen;
      assert forall k :: |entries| <= k < |entries + unseen| ==> (entries + unseen)[k] == unseen[k - |entries|];
      Some(entries + unseen)
  }

  /** Rows repeating a new student number are all imported: the import only
      compares against the entries that existed before it. */
  lemma FileDuplicatesKept(entries: seq<WhitelistEntry>, m: Mapping, row: Row, now: nat, today: string)
    requires m.name != [] && m.studentNumber != [] && m.email != []
    requires !Enrolled(entries, Cell(row, m.studentNumber, "0000000"))
    ensures var r := FinalUpload(entries, m, [row, row], now, today).value;
            |r| == |entries| + 2 && r[|entries|].studentNumber == r[|entries| + 1].studentNumber
  {
    var imported := EntriesFromRows([row, row], 0, m, now, today);
    FilterAll(imported, IsNew(entries));
  }

  /** `confirmDelete`: without a pending id nothing changes; otherwise exactly the
      entries with that id are removed, the rest keep their order. */
  function ConfirmDelete(entries: seq<WhitelistEntry>, entryToDelete: string): (r: seq<WhitelistEntry>)
    ensures entryToDelete == [] ==> r == entries
    ensures entryToDelete != [] ==> forall e :: e in r <==> e in entries && e.id != entryToDelete
    ensures IsSubsequence(r, entries)
    ensures entryToDelete != [] ==> forall e :: multiset(r)[e] == if e.id != entryToDelete then multiset(entries)[e] else 0
  {
    SubsequenceRefl(entries);
    FilterMembers(entries, (e: WhitelistEntry) => e.id != entryToDelete);
    FilterMultiset(entries, (e: WhitelistEntry) => e.id != entryToDelete);
    if entryToDelete == [] then entries else Filter(entries, (e: WhitelistEntry) => e.id != entryToDelete)
  }

  /** `handleSaveEntry`: without an entry being edited nothing changes; otherwise
      the entries with its id are replaced by it and no other entry changes. */
  function SaveEntry(entries: seq<WhitelistEntry>, selected: Option<WhitelistEntry>): (r: seq<WhitelistEntry>)
    ensures selected.None? ==> r == entries
    ensures |r| == |entries|
    ensures selected.Some? ==> forall k :: 0 <= k < |entries| ==>
              r[k] == if entries[k].id == selected.value.id then selected.value else entries[k]
  {
    match selected
    case None => entries
    case Some(s) => ReplaceWhere(entries, (e: WhitelistEntry) => e.id == s.id, s)
  }

  /** `handleAddManual`: one fixed-name PENDING entry appended after the current
      ones; `now` is `Date.now()` and `random` is `Math.floor(Math.random() *
      10000)`, so the student number is "2024" followed by at most four digits. */
  function AddManual(entries: seq<WhitelistEntry>, now: nat, random: nat, today: string): (r: seq<WhitelistEntry>)
    requires random < 10000
    ensures |r| == |entries| + 1 && r[..|entries|] == entries
    ensures r[|entries|].status == AwaitingRegistration && r[|entries|].dateAdded == today
    ensures r[|entries|].name == "Manual Entry Student" && r[|entries|].email == "new.whitelisted@cvsu.edu.ph"
    ensures r[|entries|].id == NatToString(now)
    ensures r[|entries|].studentNumber == "2024" + NatToString(random)
    ensures 5 <= |r[|entries|].studentNumber| <= 8 && r[|entries|].studentNumber[..4] == "2024"
    ensures forall k :: 4 <= k < |r[|entries|].studentNumber| ==> '0' <= r[|entries|].studentNumber[k] <= '9'
  {
    NatToStringLength(random);
    entries + [WhitelistEntry(NatToString(now), "new.whitelisted@cvsu.edu.ph", "2024" + NatToString(random),
                              "Manual Entry Student", AwaitingRegistration, today)]
  }

  /** The search over one entry: name and email up to case, the student number
      exactly. */
  predicate Matches(e: WhitelistEntry, term: string) {
    ContainsIgnoreCase(e.name, term) || Contains(e.studentNumber, term) || ContainsIgnoreCase(e.email, term)
  }

  /** `filteredEntries` */
  function Search(entries: seq<WhitelistEntry>, term: string): (r: seq<WhitelistEntry>)
    ensures forall e :: e in r <==> e in entries && Matches(e, term)
    ensures IsSubsequence(r, entries)
    ensures term == [] ==> r == entries
    ensures forall e :: multiset(r)[e] == if Matches(e, term) then multiset(entries)[e] else 0
  {
    FilterMembers(entries, (e: WhitelistEntry) => Matches(e, term));
    FilterMultiset(entries, (e: WhitelistEntry) => Matches(e, term));
    EmptyTermMatchesAll(entries, term);
    Filter(entries, (e: WhitelistEntry) => Matches(e, term))
  }

  lemma EmptyTermMatchesAll(entries: seq<WhitelistEntry>, term: string)
    ensures term == [] ==> Filter(entries, (e: WhitelistEntry) => Matches(e, term)) == entries
  {
    if term == [] {
      forall k | 0 <= k < |entries| ensures Matches(entries[k], term) {
        ContainsEmpty(entries[k].studentNumber);
      }
      FilterAll(entries, (e: WhitelistEntry) => Matches(e, term));
    }
  }

  /** `totalPages`: enough pages of `pageSize` for every match, not one more,
      and none when nothing matches. */
  function TotalPages(entries: seq<WhitelistEntry>, term: string, pageSize: nat): (n: nat)
    requires pageSize > 0
    ensures n * pageSize >= |Search(entries, term)|
    ensures n == 0 || (n - 1) * pageSize < |Search(entries, term)|
    ensures n == 0 <==> Search(entries, term) == []
  {
    PageCount(|Search(entries, term)|, pageSize)
  }

  /** `paginatedEntries`: page `page` of the matching entries, so at most
      `pageSize` of them. */
  function Paginated(entries: seq<WhitelistEntry>, term: string, page: nat, pageSize: nat): (r: seq<WhitelistEntry>)
    requires page >= 1 && pageSize > 0
    ensures |r| <= pageSize
    ensures forall e :: e in r ==> e in entries && Matches(e, term)
    ensures PageOf(r, Search(entries, term), page, pageSize)
  {
    var found := Search(entries, term);
    PageMembers(found, page, pageSize);
    Page(found, page, pageSize)
  }
}

=== FILE: workflow.dfy ===
/** The admin review step shared by subjects, content items and assessments: an
    APPROVE or REVISION decision, and the reviewer's note appended to the item's
    history when one was written. */
module Workflow {
  import opened Types

  /** The two buttons of a review screen. */
  datatype ReviewAction = ApproveAction | RevisionAction

  /** The status an item receives from a review. */
  function ReviewStatus(action: ReviewAction): (s: ContentStatus)
    ensures s == Approved <==> action == ApproveAction
    ensures s == RevisionRequested <==> action == RevisionAction
  {
    match action
    case ApproveAction => Approved
    case RevisionAction => RevisionRequested
  }

  /** The values a review handler takes from the clock: the note id
      (`Date.now().toString()`) and its timestamp. */
  datatype Stamp = Stamp(noteId: string, timestamp: string)

  /** The note written by `reviewer`. */
  function NoteBy(reviewer: User, adminNote: string, stamp: Stamp): RevisionNote {
    RevisionNote(stamp.noteId, reviewer.id, reviewer.name, adminNote, stamp.timestamp)
  }

  /** `adminNote ? [...notes, note] : notes`: the history grows by exactly the
      reviewer's note at the end when the note is non-empty, and is untouched
      otherwise. */
  function AppendNote(notes: seq<RevisionNote>, adminNote: string, reviewer: User, stamp: Stamp): (r: seq<RevisionNote>)
    ensures adminNote == [] ==> r == notes
    ensures adminNote != [] ==> |r| == |notes| + 1 && r[..|notes|] == notes
    ensures adminNote != [] ==> r[|notes|].note == adminNote && r[|notes|].adminId == reviewer.id
                                && r[|notes|].adminName == reviewer.name
  {
    if adminNote != [] then notes + [NoteBy(reviewer, adminNote, stamp)] else notes
  }
}
